=== FILE: README.md ===
# bigdata_manager core, modelled in Dafny

bigdata_manager manages big-data clusters. A Go server, built on gin with a
MySQL/GORM store, keeps clusters, hosts, services and their components. It
deploys components to hosts through an in-process deployment registry, which
queues commands for the agents. It evaluates alert rules on incoming metrics
and keeps an in-memory monitor with its own simpler alert check. An agent
(`cmd/agent`) executes the commands it receives and reports heartbeats.

This project models the sequential decision logic of that system as pure
functions over immutable Dafny datatypes and proves properties of them:

- The **deployment registry** (`Deploy`). Its components, per-host deployment
  lists and command and result queues are a `Registry` value. Each service
  call is a function from registry to registry.
- The **database-backed alert evaluator** (`AlertRepository`,
  `AlertService`). Tables are sequences. It covers three-tier rule
  selection, six-operator evaluation, deduplication against unresolved
  events, the event record, notification-ID parsing and the forward-only
  event life cycle.
- The **in-memory monitor** (`Monitor`). It covers metric storage, window
  queries, the three-operator alert check on the latest sample, and
  retention cleanup.
- The **agent command executor** (`Agent`). Its process table is a map from
  component id to process.
- The **string utilities** (`StringUtils`) and the **logger policy**
  (`Logger`). The logger part is configuration defaults, the level filter,
  the line format, the rotation decision and the backup pruning. The
  pruning includes the imperative exchange sort by modification time.
- The **HTTP handlers and middleware** (`ServiceHandler`, `HostHandler`,
  `LogHandler`, `ClusterHandler`, `DeployHandler`, `MonitorHandler`,
  `Middleware`). Each is a pure function from request fields and a database
  snapshot (`Store.Db`) to an error or a new snapshot. A refused request
  leaves the snapshot as it was.
- **Shared plumbing** (`Api`). Pagination clamping with Go's 64-bit offset
  arithmetic, the `WHERE`/argument builders, and identifier parsing.

Supporting modules:

- `Wrappers`: `Option`/`Result`.
- `Seqs`: filter, split, join and count.
- `GoInt`: 64-bit and 32-bit wrap-around, `strconv.Itoa` and `strconv.Atoi`
  with its syntax and range errors, and `ParseUint`.
- `Maps`: an arbitrary key order, which stands for Go's map iteration order.
- `Protocol` and `AlertModel`: the shared record types.

Clock reads, RFC 3339 parsing, JWT verification, privilege lookups and
process probes are parameters of the functions that use them.

## Model

| member | source | states |
|---|---|---|
| Deploy.NewDeployService | internal/deploy/deploy.go:33-40 | A new registry satisfies the record invariant, knows no component, has an empty list for every host and empty queues |
| Deploy.GetComponent | internal/deploy/deploy.go:51-60 | Lookup fails with ComponentNotFound exactly for an unregistered id |
| Deploy.RegisterComponent | internal/deploy/deploy.go:43-48 | Upsert: afterwards the id yields the new definition, every other id yields what it did before, deployments and queues are untouched |
| Deploy.GetAllComponents | internal/deploy/deploy.go:63-72 | Returns every registered component once per id and nothing else |
| Deploy.GetDeployments | internal/deploy/deploy.go:144-149 | A host's list, empty for a host never deployed to |
| Deploy.Deploy | internal/deploy/deploy.go:75-115 | Unknown component: error and registry unchanged. Otherwise the id is `deploy_<host>_<comp>_<sec>`; exactly one PENDING record is appended to that host's list; other hosts are unchanged; one INSTALL command carrying that id is enqueued |
| Deploy.UpdateFirst | internal/deploy/deploy.go:132-139 | Only the first record with the id changes; every other position is kept |
| Deploy.UpdateDeploymentStatus | internal/deploy/deploy.go:128-141 | Only the first matching record of that host changes. EndTime is set iff the status is INSTALLED or FAILED. Other hosts are unchanged, and an unknown id is a no-op |
| Deploy.HandleInstallResult | internal/deploy/deploy.go:118-125 | The delayed completion rewrites exactly the matching record to INSTALLED with the end time; every other record of that host, every other host and the queues are unchanged, and an unknown id changes nothing |
| Deploy.StartComponent | internal/deploy/deploy.go:152-168 | Enqueues exactly one START command with id `start_…` and changes neither components nor deployments |
| Deploy.StopComponent | internal/deploy/deploy.go:171-187 | Enqueues exactly one STOP command with id `stop_…` and changes neither components nor deployments |
| Deploy.ConfigureComponent | internal/deploy/deploy.go:190-207 | Enqueues exactly one CONFIGURE command with id `config_…` carrying the configuration, nothing else changes |
| Deploy.BranchOf | internal/deploy/deploy.go:215-235 | The prefix dispatch of a command result never takes the `stop_` branch; ids of at most 7 characters take none |
| Deploy.ProcessCommandResult | internal/deploy/deploy.go:210-238 | The response is forwarded verbatim to the result queue; components, deployments and commands are unchanged |
| Deploy.ApplyValid | internal/deploy/deploy.go:87 | Every service operation keeps records PENDING or INSTALLED, with an end time exactly when installed, and never moves a status backwards or drops a record |
| Deploy.DeployValid | internal/deploy/deploy.go:81-94 | Deploying keeps the record invariant and extends every host's list |
| Deploy.RunValid | internal/deploy/deploy.go:118-125 | Any sequence of operations from a valid registry stays valid: INSTALLING and FAILED are never written |
| Deploy.InstallDoneValid | internal/deploy/deploy.go:118-125 | The delayed completion keeps the registry valid and only advances records: every host keeps its ids, components and start times, and no record moves back in the lifecycle |
| Deploy.CommandIdInjective | internal/deploy/deploy.go:82 | For one prefix, two command ids are equal iff host, component and second are equal |
| Deploy.CommandIdSplits | internal/deploy/deploy.go:82 | Splitting a command id on `_` gives back the prefix and the three decimal fields |
| Deploy.IssuedIdsClassify | internal/deploy/deploy.go:215-235 | Ids issued by Deploy, Start and Configure reach their own branch; ids issued by Stop reach none, because `stop_` is five characters and the test compares six |
| Deploy.SameSecondRedeployStaysPending | internal/deploy/deploy.go:82-94 | Two deploys of one component to one host in the same second share an id, so both completions update the first record and the second stays PENDING |
| AlertRepository.FindApplicableRules | internal/repository/alert_repository.go:81-118 | The intended selection, with each tier queried on its own (see "## Findings"): every rule returned is enabled and has the requested metric; without a service only host and global rules appear |
| AlertRepository.FindApplicableRulesAsWritten | internal/repository/alert_repository.go:84-115 | The selection as written: the three `Find` calls share one statement, so every returned rule meets all conditions at once (host bound, service bound when given, and neither bound) |
| AlertRepository.AsWrittenFindsNothing | internal/repository/alert_repository.go:84-115 | The written selection returns no rule for any table, host, service and metric |
| AlertRepository.GlobalRuleLostAsWritten | internal/repository/alert_repository.go:84-115 | For a table holding one enabled global rule of the metric, the intended selection returns that rule and the written one returns nothing |
| AlertRepository.ApplicableRulesCount | internal/repository/alert_repository.go:87-117 | A rule occurs once per tier it matches, times its occurrences in the table: tiers are not deduplicated |
| AlertRepository.ApplicableRulesMembership | internal/repository/alert_repository.go:84-109 | A rule is returned iff it is an enabled rule for the metric and is for this host, or this service (when given), or global (no host and no service) |
| AlertRepository.ApplicableRulesOrder | internal/repository/alert_repository.go:99-117 | The result is host-tier rules, then service-tier rules, then global rules |
| AlertRepository.FindOpenAlertByRule | internal/repository/alert_repository.go:186-208 | Not-found iff no event has the rule, the host, the same (or both absent) service and a status other than RESOLVED; ACKNOWLEDGED counts as open |
| AlertRepository.Paginate | internal/repository/alert_repository.go:63-66 | Offset and limit apply only when page and page size are both positive; when (page−1)·size fits 64 bits the rows from that offset, at most a page of them; when it wraps to a negative or zero offset, the first page |
| AlertRepository.PaginateWraps | internal/repository/alert_repository.go:63-66 | Page 2^62+1 of size 4 wraps the 64-bit offset to 0 and returns the first four rows |
| AlertRepository.Offset | internal/repository/alert_repository.go:63-66 | The rows skipped: the offset as the signed 64-bit value Go computes, never past the end; an offset that fits is used as is, one that wraps to zero or below skips nothing |
| AlertRepository.List | internal/repository/alert_repository.go:148-183 | The total counts every filtered row, independent of the page |
| AlertRepository.PagesCover | internal/repository/alert_repository.go:168-171 | While the offsets fit 64 bits, pages 1..n laid end to end are exactly the first n·size rows |
| AlertRepository.PageAppend | internal/repository/alert_repository.go:168-171 | While page n's offset fits 64 bits (at most 2^63−1), page n continues exactly where the rows before it end: the prefix up to its offset followed by the page is the prefix up to the next page's offset |
| AlertRepository.PageIndex | internal/repository/alert_repository.go:168-171 | Row k (k ≤ 2^63−1) is entry k mod size of page k div size + 1, so no row is skipped or repeated |
| AlertService.EvaluateRule | internal/service/alert_service.go:92-109 | An unknown operator never fires |
| AlertService.EvaluateComplements | internal/service/alert_service.go:93-107 | `>` and `<=`, `<` and `>=`, `==` and `!=` are complements; `>=` is `>` or `==`; `>` is `<` with the operands swapped |
| AlertService.NotificationTargets | internal/service/alert_service.go:155-164 | An empty list notifies no one; otherwise the ids are the values of exactly the comma-separated pieces that parse as unsigned 32-bit decimals, in list order, and the unparsable pieces are skipped |
| AlertService.NotificationTargetsSpec | internal/service/alert_service.go:155-164 | The channels notified are the values of exactly the comma-separated pieces that parse as unsigned 32-bit decimals, in list order; the others are skipped |
| AlertService.ParseIdsFilterMap | internal/service/alert_service.go:157-163 | The parsing loop keeps the pieces that parse, in order, and maps each to its value |
| AlertService.ParseIdsConcat | internal/service/alert_service.go:157-163 | Parsing a concatenation of piece lists concatenates the results |
| AlertService.ParseIdsOne | internal/service/alert_service.go:158-163 | A single piece gives its value when it parses as an unsigned 32-bit decimal, and nothing otherwise |
| AlertService.NotificationTargetsJoin | internal/service/alert_service.go:155-164 | Round trip: joining 32-bit ids with commas and parsing the result gives back the same ids in order |
| AlertService.CreateAlertEvent | internal/service/alert_service.go:112-167 | With an unresolved event for (rule, host, service): nothing is created or sent. Otherwise one OPEN event is appended, carrying the rule's fields, the sample and the time, and each channel named by the rule gets one dispatch. The result is an error iff no unresolved event exists and the insert fails; a failed insert changes nothing, and a successful one appends exactly the new event |
| AlertService.ProcessRules | internal/service/alert_service.go:71-85 | Events are only appended, each for a rule among those given that fired on the value, OPEN and for the sample's host and service |
| AlertService.ProcessMetric | internal/service/alert_service.go:64-89 | Only enabled applicable rules that fire produce events; the rule table is unchanged |
| AlertService.ProcessRulesStops | internal/service/alert_service.go:81-84 | After a failed insert no later rule is looked at |
| AlertService.ProcessRulesSucceeds | internal/service/alert_service.go:71-88 | When no insert fails, the loop over the rules returns success |
| AlertService.ProcessMetricSucceeds | internal/service/alert_service.go:64-89 | When no insert fails, processing a sample returns success |
| AlertService.ProcessMetricIdempotent | internal/service/alert_service.go:114-122 | Processing the same sample again after a successful pass creates nothing and sends nothing |
| AlertService.ProcessMetricKeepsAtMostOneOpen | internal/service/alert_service.go:114-122 | At most one unresolved event per (rule, host, service) is preserved by processing |
| AlertService.AcknowledgeAlertEvent | internal/service/alert_service.go:180-197 | Not found, not OPEN, or success, in that order. Success sets only that event to ACKNOWLEDGED with the user and time |
| AlertService.ResolveAlertEvent | internal/service/alert_service.go:200-216 | Fails iff missing or already RESOLVED. From OPEN or ACKNOWLEDGED it sets only that event to RESOLVED with the time |
| AlertService.AcknowledgeForward | internal/service/alert_service.go:186-196 | Acknowledging never moves a status backwards, never changes a resolved event and keeps at most one open per key |
| AlertService.ResolveForward | internal/service/alert_service.go:206-215 | Resolving never moves a status backwards, never changes a resolved event and keeps at most one open per key |
| AlertService.ProcessMetricForward | internal/service/alert_service.go:64-89 | Processing only appends; existing events are unchanged |
| AlertService.TotalCountsEveryEvent | internal/service/alert_service.go:243 | OPEN + ACKNOWLEDGED + RESOLVED counts every event exactly once |
| Monitor.NewMonitorService | internal/monitor/monitor.go:23-37 | Empty state; a non-positive retention means 24 hours |
| Monitor.StoreMetrics | internal/monitor/monitor.go:40-46 | The batch is appended to the host's list in order; other hosts, alerts and rules are unchanged |
| Monitor.GetRecentMetrics | internal/monitor/monitor.go:213-221 | Keeps exactly the samples with the name strictly inside the window |
| Monitor.RecentMatchesSelects | internal/monitor/monitor.go:213-221 | The recent-sample scan and the query filter select the same order-preserving subsequence |
| Monitor.GetMetrics | internal/monitor/monitor.go:49-82 | For one host: that host's samples matching name ("" matches all) strictly inside the window, in order; an unknown host gives none. For host 0: each host's matching samples in stored order, host after host in the map order it returns, so exactly such samples from every host |
| Monitor.HostSelection | internal/monitor/monitor.go:69-79 | A sample is selected for one host exactly when it is stored under that host, its name matches ("" matches all) and its time is strictly inside the window |
| Monitor.AddAlertRule | internal/monitor/monitor.go:85-90 | The rule is appended; metrics, alerts and retention are unchanged |
| Monitor.GetAlerts | internal/monitor/monitor.go:101-113 | Exactly the alerts strictly inside the window; their recorded order is stated by Monitor.GetAlertsKeepsOrder |
| Monitor.GetAlertsKeepsOrder | internal/monitor/monitor.go:101-113 | The alerts returned are the in-window alerts at ascending positions of the stored list, with every in-window position present once |
| Monitor.EnginesCompared | internal/monitor/monitor.go:139-141 | The monitor's `>`, `<` agree with the evaluator's; its `=` is the evaluator's `==`; the evaluator never fires on `=`; other operators never fire in the monitor |
| Monitor.AlertFor | internal/monitor/monitor.go:129-152 | An alert is raised iff the latest sample of the last five minutes satisfies the rule; it is ACTIVE, stamped now, has id 0 and copies the rule's id, metric name, threshold, severity and message, with the latest sample's value |
| Monitor.Latest | internal/monitor/monitor.go:132-138 | The sample compared is one of that metric inside the five-minute window with no such sample stored after it; there is none iff no sample is in the window |
| Monitor.RecentLast | internal/monitor/monitor.go:213-221 | The last sample the window filter returns is stored after every other matching sample |
| Seqs.FilterIndices | internal/monitor/monitor.go:213-221 | The append-in-a-loop filter keeps its elements in order: the k-th kept element sits at an ascending position of the input, and every matching position is among them |
| Seqs.FilterLast | internal/monitor/monitor.go:138 | The last kept element is at a matching position after which nothing matches |
| Seqs.CountWhere | internal/api/cluster_handler.go:117 | A count is the number of matching positions; zero iff no position matches |
| Monitor.HostAlertsSpec | internal/monitor/monitor.go:130-156 | One rule's pass over the hosts raises exactly the alerts the latest-sample check raises per host |
| Monitor.HostAlertsSound | internal/monitor/monitor.go:130-156 | Every alert one rule's pass raises is the latest-sample alert of some host in the iteration order |
| Monitor.HostAlertsComplete | internal/monitor/monitor.go:130-156 | Every host in the iteration order whose latest sample fires the rule has its alert raised by the pass |
| Monitor.CheckAlerts | internal/monitor/monitor.go:116-165 | Alerts are only appended, each one raised by some rule and host, every firing (rule, host) pair is present, and nothing is deduplicated against earlier alerts |
| Monitor.CleanupExpiredData | internal/monitor/monitor.go:176-210 | Keeps exactly the samples newer than the cutoff and the hosts left with any. Drops an alert iff it is RESOLVED and older than the cutoff; the survivors' order is stated by Monitor.CleanupKeepsOrder |
| Monitor.CleanupKeepsOrder | internal/monitor/monitor.go:181-205 | The survivors keep their recorded order: the alerts left, and each host's samples left, are exactly the kept elements of the old list at ascending positions, with every kept position present once |
| Monitor.CleanMetricsMembers | internal/monitor/monitor.go:181-194 | A host stays iff it has a sample newer than the cutoff, and a sample stays iff it is newer than the cutoff |
| Monitor.CleanupFixed | internal/monitor/monitor.go:176-210 | On a state with no expired sample, no empty host and no expired resolved alert, cleanup returns the state unchanged |
| Monitor.CleanupLeavesClean | internal/monitor/monitor.go:181-205 | After cleanup no expired sample, empty host or expired resolved alert remains |
| Monitor.CleanupIdempotent | internal/monitor/monitor.go:176-210 | Cleaning twice at the same instant is the same as cleaning once |
| Agent.HandleInstall | cmd/agent/main.go:287-306 | The component's entry becomes pid 0, STOPPED, replacing any prior entry; success |
| Agent.HandleStart | cmd/agent/main.go:309-333 | The entry gets pid 10000+c and RUNNING, created if absent; result is that pid; other entries untouched |
| Agent.HandleStop | cmd/agent/main.go:336-353 | An existing entry gets pid 0 and STOPPED; no entry is created; success either way |
| Agent.HandleConfigure | cmd/agent/main.go:356-368 | The process table is unchanged; success |
| Agent.HandleCommand | cmd/agent/main.go:256-284 | The response carries the command's id. It fails iff the type is unknown, and then nothing changes. No entry for another component is touched |
| Agent.HandleCommandWellKeyed | cmd/agent/main.go:299-350 | Every entry stays filed under its own component id |
| Agent.StartThenStop | cmd/agent/main.go:309-353 | Start then stop leaves the component exactly as a fresh install would |
| Agent.StopIdempotent | cmd/agent/main.go:336-353 | A second stop changes nothing |
| Agent.BuildMetricsData | cmd/agent/main.go:200-216 | Every metric except the three basic ones appears, once, with its value and the time |
| Agent.StatusOf | cmd/agent/main.go:224-240 | UNKNOWN iff the status read fails; RUNNING iff the first letter is R or S; otherwise STOPPED, including no process |
| Agent.CollectComponentStatus | cmd/agent/main.go:219-253 | Every entry is refreshed from its probe and reported once, in map order |
| StringUtils.TruncateString | pkg/utils/string.go:72-77 | Short strings are unchanged; otherwise the result is the first maxLen−3 characters and "...", exactly maxLen long; below 3 Go panics (modelled as no result) |
| StringUtils.TruncateIdempotent | pkg/utils/string.go:72-77 | Truncating a truncated string changes nothing |
| StringUtils.CamelCaseToSnakeCase | pkg/utils/string.go:87-100 | Position by position: an uppercase letter becomes its lower case, preceded by an underscore except at position 0, and any other character is copied; so no uppercase letter remains and the length grows by the uppercase letters after position 0 |
| StringUtils.SnakeFromPieces | pkg/utils/string.go:88-97 | The loop from any position on writes exactly the per-position pieces of the remaining characters |
| StringUtils.SnakeCaseToCamelCase | pkg/utils/string.go:103-119 | No underscore remains, and the length shrinks by the number of underscores |
| StringUtils.SnakeToCamelPieces | pkg/utils/string.go:103-119 | The camel form is the first underscore-separated piece followed by the rest, each capitalised |
| StringUtils.SnakeCaseToPascalCase | pkg/utils/string.go:122-128 | The length shrinks by the number of underscores |
| StringUtils.SnakeToPascalPieces | pkg/utils/string.go:122-128 | The Pascal form is every underscore-separated piece capitalised, i.e. the camel form with its first letter uppercased |
| StringUtils.CamelCaseRoundTrip | pkg/utils/string.go:87-119 | For a string without underscores that starts lower-case, snake then camel gives back the string |
| StringUtils.MaskEmail | pkg/utils/string.go:131-145 | Unchanged unless there is exactly one `@`; an empty user name panics (no result) |
| StringUtils.MaskEmailShape | pkg/utils/string.go:140-144 | Length and domain are kept; the user keeps its first character (≤3 long) or first two and last; every other position is `*` |
| StringUtils.MaskPhone | pkg/utils/string.go:148-159 | Fewer than 7 digits: unchanged. Otherwise the digits only, with the first 3 and last 4 kept and the middle starred |
| StringUtils.MaskPhoneDigits | pkg/utils/string.go:150-158 | The digits left in a masked number are the first three and last four of the original |
| Logger.LevelName | internal/log/log.go:23-29 | A name exists exactly for the five levels and contains no brackets |
| Logger.LevelNamesDistinct | internal/log/log.go:23-29 | Different levels have different names |
| Logger.WithDefaults | internal/log/log.go:69-79 | An out-of-range level becomes INFO, a non-positive size 100 MiB, a non-positive backup count 10; valid settings are kept |
| Logger.DefaultsKeepUsable | internal/log/log.go:69-79 | Defaulting changes a configuration iff it is not already usable |
| Logger.DefaultsIdempotent | internal/log/log.go:69-79 | Defaulting twice is defaulting once |
| Logger.NewLogger | internal/log/log.go:63-107 | Fails iff a file is configured and cannot be opened. Otherwise it writes to the file when one is named and to stdout when asked or when there is no file |
| Logger.FatalAlwaysEmitted | internal/log/log.go:217-219 | Whatever the configured level, FATAL is written |
| Logger.BaseOfJoin | internal/log/log.go:230-236 | The caller shown is the file's base name |
| Logger.FormatLineLevel | internal/log/log.go:242 | The bracketed field of a line is the level's name |
| Logger.Log | internal/log/log.go:216-251 | A line is written iff its level is at least the configured one; the process exits iff it is FATAL; the line shows the level name |
| Logger.BackupIsPruneCandidate | internal/log/log.go:156-174 | A backup named `<file>.<timestamp>` matches the pruning pattern; the live file does not |
| Logger.RotateDecision | internal/log/log.go:136-169 | Rotation happens iff the file is open, its size is at least the limit and the rename succeeds; below the limit nothing happens; the backup name is `<file>.<timestamp>` |
| Logger.StatAll | internal/log/log.go:190-197 | Exactly the matched files whose stat succeeds, with their modification times |
| Logger.SortByModTime | internal/log/log.go:200-206 | The result is a permutation of the input, sorted by non-decreasing modification time |
| Logger.CleanBackups | internal/log/log.go:172-213 | Nothing is deleted when there are at most MaxBackups matches. Otherwise exactly max(0, n − MaxBackups) of the oldest files are deleted |
| Logger.RotationBlocksAsWritten | internal/log/log.go:221-225 | As written, a write that rotates the file re-acquires the mutex it holds and never completes |
| Logger.NoRotationCompletes | internal/log/log.go:216-225 | As written, a write without rotation completes and releases the mutex |
| Logger.CorrectedAlwaysCompletes | internal/log/log.go:216-251 | With rotation done under the already-held lock, every write completes and releases the mutex |
| Logger.RunMutexConcat | internal/log/log.go:216-225 | Lock steps run in sequence: the second series starts from the mutex state the first left, and a hang in the first is a hang of the whole |
| Logger.SessionBlocksAsWritten | internal/log/log.go:216-225 | As written, a series of writes hangs exactly when one of them reaches a rotation; a series without rotation ends with the mutex free |
| Logger.SessionCorrectedCompletes | internal/log/log.go:216-251 | With the correction, every series of writes completes and leaves the mutex free |
| Api.ParseId | internal/api/cluster_handler.go:94-98 | An id is accepted iff `strconv.Atoi` accepts it, and then it is a 64-bit value |
| Api.ParseIdItoa | internal/api/cluster_handler.go:94-98 | Round trip: the decimal form of any 64-bit id parses back to it |
| Api.Paginate | internal/api/service_handler.go:108-116 | Page below 1 becomes 1; a size outside [1, max] becomes the default; an out-of-range page clamps as Atoi does. The offset is (page−1)·size wrapped to 64 bits |
| Api.PaginateDefaults | internal/api/cluster_handler.go:44-52 | Without parameters: page 1, the default size, offset 0 |
| Api.PaginateStable | internal/api/log_handler.go:17-25 | Feeding the chosen page and size back in gives the same paging |
| Api.PaginateOffset | internal/api/host_handler.go:80-88 | When it does not overflow, the offset is a whole number of pages: page−1 of them |
| Api.PaginateOffsetWraps | internal/api/service_handler.go:116 | A page of 2^63−1 with the default size wraps the offset to −20 |
| Api.BuildWhere | internal/api/log_handler.go:105-110 | The loop yields " WHERE c0 AND c1 …", empty without conditions |
| Api.TextFilter | internal/api/service_handler.go:124-153 | A filter contributes a condition iff its parameter is non-empty |
| Api.WherePlaceholders | internal/api/log_handler.go:46-111 | The clause has exactly as many `?` as there are arguments |
| ServiceHandler.ServiceWhereCanonical | internal/api/service_handler.go:124-153 | The nested builder equals cluster_id, service_type, status filters, in that order, joined by " WHERE "/" AND " with matching arguments |
| ServiceHandler.ServiceWherePlaceholders | internal/api/service_handler.go:124-153 | The service clause has as many `?` as arguments |
| ServiceHandler.CreateService | internal/api/service_handler.go:14-103 | Missing cluster, then duplicate name in the cluster, are refused. A new service is INSTALLING with one PENDING INSTALL_SERVICE task; nothing else changes |
| ServiceHandler.CreateServiceTwice | internal/api/service_handler.go:29-45 | Creating the same service again is a duplicate |
| ServiceHandler.StartService | internal/api/service_handler.go:346-402 | Allowed iff the service is STOPPED; it becomes RUNNING with a START task; missing is 404, any other status 400 |
| ServiceHandler.StopService | internal/api/service_handler.go:405-461 | Allowed iff the service is RUNNING; it becomes STOPPED with a STOP task; missing is 404, any other status 400 |
| ServiceHandler.StartThenStop | internal/api/service_handler.go:366-438 | A successful start can always be stopped, returning to STOPPED with both tasks queued |
| ServiceHandler.DeleteService | internal/api/service_handler.go:464-534 | Refused iff missing or RUNNING. It removes the service, its components, metrics and configurations; host mappings stay |
| ServiceHandler.DeleteServiceTwice | internal/api/service_handler.go:464-534 | A deleted service is no longer found |
| ServiceHandler.AddServiceComponent | internal/api/service_handler.go:537-589 | Refused for a missing service or a component type the service already has; otherwise one component is appended |
| ServiceHandler.AddServiceComponentKeepsTypesUnique | internal/api/service_handler.go:571-574 | Adding keeps component types unique per service |
| ServiceHandler.DeleteServiceComponent | internal/api/service_handler.go:630-672 | Refused for a missing component or one deployed on any host; otherwise only that component row goes |
| ServiceHandler.DeployToHostsAllOrNothing | internal/api/service_handler.go:715-765 | The batch succeeds iff every host exists and none already has the component; then each host gets one INSTALLING mapping and one PENDING task |
| ServiceHandler.DeployComponent | internal/api/service_handler.go:675-773 | Bad id, bad body, missing component, then the all-or-nothing batch |
| HostHandler.HostWhereCanonical | internal/api/host_handler.go:95-109 | The nested builder equals cluster_id then status filters joined by " WHERE "/" AND " with matching arguments |
| HostHandler.HostWherePlaceholders | internal/api/host_handler.go:95-109 | The host clause has as many `?` as arguments |
| HostHandler.CreateHost | internal/api/host_handler.go:15-75 | Missing cluster, then duplicate hostname in the cluster, are refused. A new host is OFFLINE with no heartbeat; nothing else changes |
| HostHandler.CreateHostTwice | internal/api/host_handler.go:29-46 | Creating the same host again is a duplicate hostname |
| HostHandler.DeleteHost | internal/api/host_handler.go:311-381 | 404 for a missing host. Refused iff a component is deployed on it. Otherwise the host, its metrics and its logs go and nothing else changes |
| HostHandler.UpdateHostStatus | internal/api/host_handler.go:384-434 | The status must be ONLINE, OFFLINE or MAINTENANCE, checked before existence. Success changes only that host's status |
| HostHandler.ApplyReportsLastWins | internal/api/host_handler.go:511-524 | After all component reports, each mapping of the host carries the last report for its component, others are untouched |
| HostHandler.ProcessHeartbeat | internal/api/host_handler.go:437-537 | Unknown host: 404 and no change. Otherwise the host is ONLINE with heartbeat now. It gets the three basic metrics, then one row per custom metric. Reported components are updated. The response has no commands |
| LogHandler.Then | internal/api/log_handler.go:46-104 | Chaining filter steps: the first error wins, otherwise the conditions concatenate |
| LogHandler.LogFilters | internal/api/log_handler.go:46-104 | A bad start time, end time, host, service or component id is reported, first one wins; success iff none is bad |
| LogHandler.LogFiltersConditions | internal/api/log_handler.go:46-104 | The conditions are the present parameters' conditions in the order start, end, host, service, component, level, keyword |
| LogHandler.ActivePlaceholders | internal/api/log_handler.go:52-103 | Each condition has exactly one `?` |
| LogHandler.LogWhere | internal/api/log_handler.go:46-111 | Errors as the filters report them; otherwise " WHERE c0 AND c1 …" over the present conditions with one argument per `?` |
| LogHandler.ColumnId | internal/api/log_handler.go:266-274 | The log's own id if positive, else the request id if positive (truncated to 32 bits), else NULL |
| LogHandler.UploadLogs | internal/api/log_handler.go:207-297 | Unknown host, no logs, more than 1000 logs are refused in that order. Otherwise every log becomes one row in order with the fallback ids, and the count is returned |
| LogHandler.LogStatsDays | internal/api/log_handler.go:340-343 | Days outside [1, 30] or unparsable become 7 |
| ClusterHandler.CreateCluster | internal/api/cluster_handler.go:14-39 | The cluster is stored under the new id and echoed |
| ClusterHandler.GetClusterById | internal/api/cluster_handler.go:93-139 | 400 for a bad id, 404 for an unknown one; otherwise the row with the number of host rows and of service rows whose cluster_id is that id |
| Store.HostsInCluster | internal/api/cluster_handler.go:116-118 | `SELECT COUNT(*) FROM host WHERE cluster_id = ?` is the number of host rows with that cluster id |
| Store.ServicesInCluster | internal/api/cluster_handler.go:125-127 | `SELECT COUNT(*) FROM service WHERE cluster_id = ?` is the number of service rows with that cluster id |
| ClusterHandler.UpdateCluster | internal/api/cluster_handler.go:142-177 | Id, then body, then existence; only name and description of that cluster change |
| ClusterHandler.DeleteCluster | internal/api/cluster_handler.go:180-222 | 404 before the host check; refused iff the cluster has hosts; only the cluster row goes |
| ClusterHandler.CreateThenGet | internal/api/cluster_handler.go:14-139 | A created cluster is found under its id with no hosts and no services |
| ClusterHandler.UpdateThenGet | internal/api/cluster_handler.go:142-177 | An update reads back with the new name and description |
| ClusterHandler.DeleteThenGet | internal/api/cluster_handler.go:180-222 | A deleted cluster is no longer found |
| DeployHandler.RegisterComponent | internal/api/deploy_handler.go:13-42 | Empty name, then version, then package URL are refused; a valid component is upserted and echoed |
| DeployHandler.DeployComponent | internal/api/deploy_handler.go:52-80 | 400 without both ids, 404 for an unknown component, both leaving the registry; otherwise the id of the new PENDING record and INSTALL command |
| DeployHandler.GetDeployments | internal/api/deploy_handler.go:83-97 | 400 iff host_id does not parse; otherwise that host's records |
| DeployHandler.GetDeploymentsDefault | internal/api/deploy_handler.go:84-89 | Without host_id the listing is host 0's |
| DeployHandler.CommandRequest | internal/api/deploy_handler.go:100-179 | Start, stop and configure return the registry's command id unchanged; one command is queued; components and deployments are untouched |
| MonitorHandler.Window | internal/api/monitor_handler.go:28-55 | An empty start is now minus the span, an empty end is now; a bound that does not parse is 400, start first |
| MonitorHandler.GetMetrics | internal/api/monitor_handler.go:16-65 | host_id defaults to 0 and must parse; a sample is returned iff it is inside the window (default last hour), matches the name and belongs to that host (any host for 0); for one host, in stored order; for host 0, each host's matching samples in stored order, host after host in the returned map order |
| MonitorHandler.GetAlerts | internal/api/monitor_handler.go:68-107 | Exactly the monitor's alerts of the window (default the last 24 hours): an alert is returned iff it is recorded inside it |
| MonitorHandler.CreateAlertRule | internal/api/monitor_handler.go:110-140 | Empty metric name, then an operator other than `>`, `<`, `=`, are refused; the rule takes its id from the first clock read and its creation time from the second, and is appended with nothing else changed |
| MonitorHandler.AcceptedOperatorsFire | internal/api/monitor_handler.go:123-126 | The accepted operators are exactly those the monitor's check can fire on |
| Middleware.Authenticate | internal/api/middleware.go:13-44 | Empty header: missing. It is a format error iff the header does not start with "Bearer " (case-sensitive). Otherwise the token is everything after the first space |
| Middleware.BearerSplit | internal/api/middleware.go:24-29 | Splitting at the first space gives "Bearer" and a rest iff the header starts with "Bearer " |
| Middleware.BearerToken | internal/api/middleware.go:24-32 | Round trip: `Bearer <t>` authenticates as t, internal spaces included |
| Middleware.HasPrivilege | internal/auth/auth.go:142-155 | True iff the required privilege is among the user's |
| Middleware.CheckPrivilege | internal/api/middleware.go:47-72 | No user: 401. Failed lookup: 500. Privilege missing: 403. Continue iff the user holds it |
| Middleware.Cors | internal/api/middleware.go:75-90 | OPTIONS ends with 204; every other method continues |

## Left out

- Database and SQL execution, transactions and rollback. Every 500 branch a failed query would take is left out. The handlers work on an in-memory snapshot of the tables.
- JSON binding is an `Option` input: `None` is a body that does not bind. A `binding:"required"` integer is refused when zero.
- Response formatting, messages and CORS header values are left out. Only status codes and data are modelled.
- `GetServiceById`, `UpdateService`, `UpdateServiceComponent`, `GetHostById`, `UpdateHost`, `GetComponents`, `GetAlertRules` and `GetLogLevels` are read-through or plain updates. They are not modelled.
- The aggregate queries of `GetLogStats`: only its day clamp is modelled.
- The SQL listing queries and their `ORDER BY` are not modelled. The shared pagination and `WHERE` builders that feed them are.
- JWT parsing (`auth.ParseToken`) and the privilege query are function parameters; token signing, bcrypt and the role tables are not modelled.
- RFC 3339 parsing is a parameter; `time.Now` is a `now` parameter. The two clock reads of a monitor query are one instant.
- Concurrency: goroutines, channels, locks and tickers. The command and result channels are FIFO sequences. The asynchronous send is an immediate enqueue. The five-second install completion is an explicit later step (`Deploy.HandleInstallResult`). The mutex deadlock of the logger is modelled as a lock trace.
- Payload numbers are integers. The agent decodes `component_id` as a JSON `float64` and truncates it with `int(...)` (cmd/agent/main.go:288, 310, 337); a missing or non-numeric entry reads as 0 as in the source, but fractional and out-of-range numbers are not modelled.
- Component configuration is a `map<string, string>`. The source's `map[string]interface{}` (internal/deploy/deploy.go:190, internal/api/deploy_handler.go:158) can also hold numbers and nested values; they are passed through unread and are not modelled.
- AlertRepository.PagesCover: stated only while the last page's offset fits 64 bits (at most 2^63−1); past that `AlertRepository.Paginate` states the wrapped offset.
- AlertRepository.PageIndex: stated only for a row index of at most 2^63−1, for the same reason.
- AlertRepository.PageAppend: stated only while page n's offset fits 64 bits (at most 2^63−1), for the same reason.
- Go map iteration order is an arbitrary key order returned alongside the result (`Maps.KeyOrder`).
- Metric values are `real`; NaN and float formatting are not modelled. The gopsutil CPU, memory and disk sampling of the agent is not modelled.
- Notification delivery (SMTP, SMS, webhooks, templates) is out; a dispatch is a record of (channel, event).
- File-system work of the logger (open, stat, rename, glob, remove) is not modelled. Its outcomes are parameters, and its decisions and the backup sort are modelled.
- Go panics (`TruncateString` with maxLen below 3 on a long string, `MaskEmail` with an empty user name) are a missing result.
- `strconv.Atoi` whose error is ignored yields 0 on a syntax error and the clamped bound on a range error, as Go does.
- Strings are sequences of bytes. Case conversion is modelled for ASCII only; the source's Unicode rune case mapping (`unicode.IsUpper`, `unicode.ToLower`, `unicode.ToUpper`) is not modelled.
- AlertService.EvaluateRule: its contract only states that unknown operators never fire. The exact six-operator behaviour is its body, and its relations are stated by AlertService.EvaluateComplements.
- AlertRepository.FindApplicableRules: the rest of the model uses the intended three independent tier queries. As written, GORM conjoins every condition into one query, which returns no rule (see "## Findings").
- Deleting a service leaves its host-component rows in place, as the source does.
- DeployHandler.DeployComponent: the 500 branch for other registry errors cannot be taken, because the registry has no other error.
- Deploy.UpdateDeploymentStatus: only `PENDING → INSTALLED` is ever requested; the INSTALLING and FAILED writers do not exist in the source and are not added.
- The repository does not build as shown: `DeployComponent` is defined in two files of one package, and imports are missing. Each file's semantics are modelled independently.

## Findings

| source | as written | input that shows it | evidently intended | confidence | as-written member | corrected member |
|---|---|---|---|---|---|---|
| internal/log/log.go:221-225 | `log` takes the logger mutex and calls `rotateFile`. When the file has reached MaxSize, `rotateFile` calls `openFile` (line 168), which locks the same non-reentrant mutex again (line 111) | Any write at or above the configured level once the log file's size is at least MaxSize and the backup rename succeeds (a failed rename returns at lines 158-160, before `openFile`) | Rotation completes under the lock `log` already holds, and the write returns | not executed | Logger.SessionBlocksAsWritten | Logger.SessionCorrectedCompletes |
| internal/repository/alert_repository.go:84-97 | `query` is a fresh GORM statement from `Model`; each later `Where` on it (lines 87, 92, 96) adds to that same statement instead of branching, so all three `Find` calls run `host_id = ? AND … AND host_id IS NULL AND service_id IS NULL` | Any rule table, for example one enabled global rule of the metric (GORM v2 chaining on a session from `gorm.Open`) | Three independent tier queries: host rules, then service rules, then global rules | not executed | AlertRepository.AsWrittenFindsNothing | AlertRepository.ApplicableRulesMembership |

=== FILE: agent.dfy ===
/** The agent's command executor and reporting (cmd/agent/main.go): a map
    from component ID to a simulated process record, changed by the four
    command handlers, plus the metric and status reports of a heartbeat.
    Sleeps, logging and the HTTP send are left out; probing a real process is
    a parameter. */
module Agent {
  import opened Protocol
  import Maps

  const STATUS_RUNNING := "RUNNING"
  const STATUS_STOPPED := "STOPPED"
  const STATUS_UNKNOWN := "UNKNOWN"

  /** Simulated process IDs are this base plus the component ID. */
  const FAKE_PID_BASE := 10000

  const MSG_INSTALLED := "组件安装成功"
  const MSG_STARTED := "组件启动成功"
  const MSG_STOPPED := "组件停止成功"
  const MSG_CONFIGURED := "组件配置成功"
  const MSG_UNKNOWN := "未知命令类型"

  datatype ComponentProcess = ComponentProcess(componentId: int, processId: int, status: string)

  type Processes = map<int, ComponentProcess>

  /** Every entry is filed under its own component ID. */
  predicate WellKeyed(procs: Processes) {
    forall c :: c in procs ==> procs[c].componentId == c
  }

  /** What a handler returns besides the new process map. */
  datatype Handled = Handled(procs: Processes, success: bool, message: string, result: CommandResult)

  /** `component_id` from the payload; a missing or non-numeric entry reads as 0. */
  function PayloadComponentId(p: Payload): int {
    if "component_id" in p && p["component_id"].Number? then p["component_id"].n else 0
  }

  /** INSTALL: (pid 0, STOPPED), replacing any earlier entry. */
  function HandleInstall(procs: Processes, cmd: AgentCommand): (h: Handled)
    ensures var c := PayloadComponentId(cmd.payload);
      && h.procs == procs[c := ComponentProcess(c, 0, STATUS_STOPPED)]
      && h.success && h.message == MSG_INSTALLED && h.result == NoResult
  {
    var c := PayloadComponentId(cmd.payload);
    Handled(procs[c := ComponentProcess(c, 0, STATUS_STOPPED)], true, MSG_INSTALLED, NoResult)
  }

  /** START: the entry becomes RUNNING with the simulated pid, created when absent. */
  function HandleStart(procs: Processes, cmd: AgentCommand): (h: Handled)
    ensures var c := PayloadComponentId(cmd.payload);
      && c in h.procs
      && h.procs[c].processId == FAKE_PID_BASE + c && h.procs[c].status == STATUS_RUNNING
      && h.procs[c].componentId == (if c in procs then procs[c].componentId else c)
      && (forall k :: k != c ==> (k in h.procs <==> k in procs))
      && (forall k :: k != c && k in procs ==> h.procs[k] == procs[k])
      && h.success && h.message == MSG_STARTED && h.result == ProcessId(FAKE_PID_BASE + c)
  {
    var c := PayloadComponentId(cmd.payload);
    var pid := FAKE_PID_BASE + c;
    var cp := if c in procs then procs[c] else ComponentProcess(c, 0, "");
    Handled(procs[c := cp.(processId := pid, status := STATUS_RUNNING)], true, MSG_STARTED, ProcessId(pid))
  }

  /** STOP: only an existing entry is changed; success either way. */
  function HandleStop(procs: Processes, cmd: AgentCommand): (h: Handled)
    ensures var c := PayloadComponentId(cmd.payload);
      && h.procs.Keys == procs.Keys
      && (c in procs ==> h.procs[c] == ComponentProcess(procs[c].componentId, 0, STATUS_STOPPED))
      && (forall k :: k != c && k in procs ==> h.procs[k] == procs[k])
      && h.success && h.message == MSG_STOPPED && h.result == NoResult
  {
    var c := PayloadComponentId(cmd.payload);
    var procs' := if c in procs then procs[c := procs[c].(processId := 0, status := STATUS_STOPPED)] else procs;
    Handled(procs', true, MSG_STOPPED, NoResult)
  }

  /** CONFIGURE: nothing changes. */
  function HandleConfigure(procs: Processes, cmd: AgentCommand): (h: Handled)
    ensures h.procs == procs && h.success && h.message == MSG_CONFIGURED && h.result == NoResult
  {
    Handled(procs, true, MSG_CONFIGURED, NoResult)
  }

  predicate KnownKind(kind: string) {
    kind == INSTALL || kind == START || kind == STOP || kind == CONFIGURE
  }

  /** `handleCommand`: dispatch on the type; an unknown type fails without
      touching the map. A response goes back under the command's ID either way. */
  function HandleCommand(procs: Processes, cmd: AgentCommand): (out: (Processes, AgentCommandResponse))
    ensures out.1.commandId == cmd.commandId
    ensures !KnownKind(cmd.kind) <==> !out.1.success
    ensures !KnownKind(cmd.kind) ==> out.0 == procs && out.1.message == MSG_UNKNOWN && out.1.result == NoResult
    ensures forall k :: k != PayloadComponentId(cmd.payload) ==> (k in out.0 <==> k in procs)
    ensures forall k :: k != PayloadComponentId(cmd.payload) && k in procs ==> out.0[k] == procs[k]
  {
    var h :=
      if cmd.kind == INSTALL then HandleInstall(procs, cmd)
      else if cmd.kind == START then HandleStart(procs, cmd)
      else if cmd.kind == STOP then HandleStop(procs, cmd)
      else if cmd.kind == CONFIGURE then HandleConfigure(procs, cmd)
      else Handled(procs, false, MSG_UNKNOWN, NoResult);
    (h.procs, AgentCommandResponse(cmd.commandId, h.success, h.message, h.result))
  }

  /** Every handler files entries under their own ID. */
  lemma HandleCommandWellKeyed(procs: Processes, cmd: AgentCommand)
    requires WellKeyed(procs)
    ensures WellKeyed(HandleCommand(procs, cmd).0)
  {
    var c := PayloadComponentId(cmd.payload);
    var procs' := HandleCommand(procs, cmd).0;
    forall k | k in procs'
      ensures procs'[k].componentId == k
    {
      if k != c {
        assert k in procs;
      }
    }
  }

  function Command(id: string, kind: string, c: int): AgentCommand {
    AgentCommand(id, kind, map["component_id" := Number(c)])
  }

  /** START then STOP leaves the entry as INSTALL does: stopped, with pid 0. */
  lemma StartThenStop(procs: Processes, c: int, a: string, b: string)
    requires WellKeyed(procs)
    ensures var p1 := HandleCommand(procs, Command(a, START, c)).0;
      var p2 := HandleCommand(p1, Command(b, STOP, c)).0;
      c in p2 && p2[c] == HandleCommand(procs, Command(a, INSTALL, c)).0[c]
  {
    assert PayloadComponentId(Command(a, START, c).payload) == c;
    assert PayloadComponentId(Command(b, STOP, c).payload) == c;
    assert PayloadComponentId(Command(a, INSTALL, c).payload) == c;
  }

  /** STOP never creates an entry, and a second STOP changes nothing. */
  lemma StopIdempotent(procs: Processes, cmd: AgentCommand, cmd2: AgentCommand)
    requires cmd.kind == STOP && cmd2.kind == STOP && cmd2.payload == cmd.payload
    ensures HandleCommand(procs, cmd).0.Keys == procs.Keys
    ensures HandleCommand(HandleCommand(procs, cmd).0, cmd2).0 == HandleCommand(procs, cmd).0
  {
  }

  // ---------------------------------------------------------------------------
  // Heartbeat reports

  /** The three metrics the heartbeat already carries in its own fields. */
  predicate IsBasicMetric(name: string) {
    name == "cpu_usage" || name == "memory_usage" || name == "disk_usage"
  }

  /** The custom metrics of the names in `order`, stamped `now`. */
  function CustomMetrics(metrics: map<string, real>, order: seq<string>, now: int): seq<MetricData>
    requires forall i :: 0 <= i < |order| ==> order[i] in metrics
    decreases |order|
  {
    if |order| == 0 then []
    else
      var rest := CustomMetrics(metrics, order[1..], now);
      if IsBasicMetric(order[0]) then rest
      else [MetricData(order[0], metrics[order[0]], now)] + rest
  }

  /** A sample is reported iff it is a non-basic metric of the map with its
      value and the current time; over a duplicate-free order each name
      appears once. */
  lemma {:induction false} CustomMetricsSpec(metrics: map<string, real>, order: seq<string>, now: int)
    requires forall i :: 0 <= i < |order| ==> order[i] in metrics
    requires forall i, j :: 0 <= i < j < |order| ==> order[i] != order[j]
    ensures forall x :: x in CustomMetrics(metrics, order, now) <==>
      x.name in order && x.name in metrics && !IsBasicMetric(x.name) && x.value == metrics[x.name] && x.timestamp == now
    ensures forall i, j :: 0 <= i < j < |CustomMetrics(metrics, order, now)| ==>
      CustomMetrics(metrics, order, now)[i].name != CustomMetrics(metrics, order, now)[j].name
    decreases |order|
  {
    if |order| > 0 {
      var tail := order[1..];
      assert forall i, j :: 0 <= i < j < |tail| ==> tail[i] != tail[j] by {
        forall i, j | 0 <= i < j < |tail|
          ensures tail[i] != tail[j]
        {
          assert tail[i] == order[i + 1] && tail[j] == order[j + 1];
        }
      }
      CustomMetricsSpec(metrics, tail, now);
      assert order[0] !in tail;
      assert forall n :: n in order <==> n == order[0] || n in tail;
      var rest := CustomMetrics(metrics, tail, now);
      if !IsBasicMetric(order[0]) {
        var r := CustomMetrics(metrics, order, now);
        assert r == [MetricData(order[0], metrics[order[0]], now)] + rest;
        forall j | 0 < j < |r|
          ensures r[0].name != r[j].name
        {
          assert r[j] == rest[j - 1];
          assert rest[j - 1] in rest;
        }
      }
    }
  }

  /** `buildMetricsData`: every custom metric once, in map order. */
  method BuildMetricsData(metrics: map<string, real>, now: int) returns (result: seq<MetricData>)
    ensures forall x :: x in result <==>
      x.name in metrics && !IsBasicMetric(x.name) && x.value == metrics[x.name] && x.timestamp == now
    ensures forall i, j :: 0 <= i < j < |result| ==> result[i].name != result[j].name
  {
    var order := Maps.KeyOrder(metrics);
    result := CustomMetrics(metrics, order, now);
    CustomMetricsSpec(metrics, order, now);
  }

  /** What inspecting a recorded process yields. `Found` carries the status
      letters the process table reports. */
  datatype ProcessProbe = NoProcess | StatusError | Found(letters: seq<string>)

  /** The status mapping of `collectComponentStatus`. */
  function StatusOf(probe: ProcessProbe): (s: string)
    ensures s == STATUS_UNKNOWN <==> probe.StatusError?
    ensures s == STATUS_RUNNING <==> probe.Found? && |probe.letters| > 0 && probe.letters[0] in {"R", "S"}
    ensures s == STATUS_STOPPED <==> probe.NoProcess? || (probe.Found? && !(|probe.letters| > 0 && probe.letters[0] in {"R", "S"}))
  {
    match probe
    case NoProcess => STATUS_STOPPED
    case StatusError => STATUS_UNKNOWN
    case Found(letters) =>
      if |letters| > 0 && (letters[0] == "R" || letters[0] == "S") then STATUS_RUNNING else STATUS_STOPPED
  }

  function Report(cp: ComponentProcess): ComponentStatus {
    ComponentStatus(cp.componentId, cp.status, cp.processId, "")
  }

  /** Every entry with its status refreshed from the probe of its pid. */
  function Refresh(procs: Processes, probe: int -> ProcessProbe): (r: Processes)
    ensures r.Keys == procs.Keys
    ensures forall c :: c in procs ==> r[c] == procs[c].(status := StatusOf(probe(procs[c].processId)))
  {
    map c | c in procs :: procs[c].(status := StatusOf(probe(procs[c].processId)))
  }

  /** `collectComponentStatus`: refresh every entry's status from the probe of
      its pid and report every entry once, in map order. */
  method CollectComponentStatus(procs: Processes, probe: int -> ProcessProbe) returns (procs': Processes, order: seq<int>, result: seq<ComponentStatus>)
    ensures procs' == Refresh(procs, probe)
    ensures Maps.IsKeyOrder(order, procs.Keys)
    ensures |result| == |order| == |procs|
    ensures forall i :: 0 <= i < |order| ==> result[i] == Report(procs'[order[i]])
  {
    procs' := Refresh(procs, probe);
    order := Maps.KeyOrder(procs');
    result := seq(|order|, i requires 0 <= i < |order| => Report(procs'[order[i]]));
    assert |procs'| == |procs'.Keys| == |procs.Keys| == |procs|;
  }
}

=== FILE: alert_model.dfy ===
/** The rows of the DB-backed alerting tables (internal/model/alert_rule.go).
    Nullable columns (`*uint`, `*time.Time`) are `Option`s; timestamps are
    integers on one clock; metric values and thresholds are reals. */
module AlertModel {
  import opened Wrappers

  /** The three statuses an event row moves through, in this order. */
  datatype AlertStatus = Open | Acknowledged | Resolved

  function StatusName(s: AlertStatus): string {
    match s
    case Open => "OPEN"
    case Acknowledged => "ACKNOWLEDGED"
    case Resolved => "RESOLVED"
  }

  const OP_GT := ">"
  const OP_GE := ">="
  const OP_LT := "<"
  const OP_LE := "<="
  const OP_EQ := "=="
  const OP_NE := "!="

  const SEVERITY_CRITICAL := "CRITICAL"
  const SEVERITY_WARNING := "WARNING"
  const SEVERITY_INFO := "INFO"

  /** A rule. `operator` and `severity` are free strings in the table; the
      constants above are the values the code knows. `duration` is stored
      but never read. `notificationIds` is a comma-separated ID list. */
  datatype AlertRule = AlertRule(
    id: nat,
    name: string,
    description: string,
    metricName: string,
    clusterId: Option<nat>,
    serviceId: Option<nat>,
    hostId: Option<nat>,
    operator: string,
    threshold: real,
    duration: int,
    severity: string,
    enabled: bool,
    notificationIds: string,
    createdBy: nat)

  /** An alert event row; the formatted `message` column is not modelled. */
  datatype AlertEvent = AlertEvent(
    id: nat,
    alertRuleId: nat,
    alertName: string,
    clusterId: Option<nat>,
    serviceId: Option<nat>,
    hostId: Option<nat>,
    hostname: string,
    serviceName: string,
    metricName: string,
    metricValue: real,
    threshold: real,
    operator: string,
    severity: string,
    status: AlertStatus,
    triggeredAt: int,
    acknowledgedAt: Option<int>,
    acknowledgedBy: Option<nat>,
    resolvedAt: Option<int>,
    updatedAt: int)
}

=== FILE: alert_repository.dfy ===
/** The alert repositories (internal/repository/alert_repository.go) as
    queries over tables held as sequences in primary-key order. */
module AlertRepository {
  import opened Wrappers
  import opened AlertModel
  import Seqs
  import GoInt

  // ---------------------------------------------------------------------------
  // Rule selection

  /** The base query: the metric's enabled rules. */
  predicate Candidate(r: AlertRule, metricName: string) {
    r.metricName == metricName && r.enabled
  }

  predicate HostTier(r: AlertRule, metricName: string, hostId: nat) {
    Candidate(r, metricName) && r.hostId == Some(hostId)
  }

  predicate ServiceTier(r: AlertRule, metricName: string, serviceId: nat) {
    Candidate(r, metricName) && r.serviceId == Some(serviceId)
  }

  /** Rules bound to neither a host nor a service. */
  predicate GlobalTier(r: AlertRule, metricName: string) {
    Candidate(r, metricName) && r.hostId.None? && r.serviceId.None?
  }

  /** In how many of the queried tiers a rule falls. */
  function TiersMatched(r: AlertRule, hostId: nat, serviceId: Option<nat>, metricName: string): nat {
    (if HostTier(r, metricName, hostId) then 1 else 0)
    + (if serviceId.Some? && ServiceTier(r, metricName, serviceId.value) then 1 else 0)
    + (if GlobalTier(r, metricName) then 1 else 0)
  }

  /** The tier predicates as values, so that every use names the same function. */
  function IsHostRule(metricName: string, hostId: nat): AlertRule -> bool {
    r => HostTier(r, metricName, hostId)
  }

  function IsServiceRule(metricName: string, serviceId: nat): AlertRule -> bool {
    r => ServiceTier(r, metricName, serviceId)
  }

  function IsGlobalRule(metricName: string): AlertRule -> bool {
    r => GlobalTier(r, metricName)
  }

  function HostRules(rules: seq<AlertRule>, hostId: nat, metricName: string): (rs: seq<AlertRule>)
    ensures forall x :: x in rs ==> x in rules && HostTier(x, metricName, hostId)
  {
    Seqs.Filter(rules, IsHostRule(metricName, hostId))
  }

  /** The service tier; empty when no service is given. */
  function ServiceRules(rules: seq<AlertRule>, serviceId: Option<nat>, metricName: string): (rs: seq<AlertRule>)
    ensures forall x :: x in rs ==> x in rules && serviceId.Some? && ServiceTier(x, metricName, serviceId.value)
  {
    if serviceId.None? then [] else Seqs.Filter(rules, IsServiceRule(metricName, serviceId.value))
  }

  function GlobalRules(rules: seq<AlertRule>, metricName: string): (rs: seq<AlertRule>)
    ensures forall x :: x in rs ==> x in rules && GlobalTier(x, metricName)
  {
    Seqs.Filter(rules, IsGlobalRule(metricName))
  }

  /** The rules that apply to a sample: the host's rules, then (when a service
      is given) the service's, then the global ones, each tier queried on its
      own and the results concatenated. */
  function FindApplicableRules(rules: seq<AlertRule>, hostId: nat, serviceId: Option<nat>, metricName: string): (found: seq<AlertRule>)
    ensures forall x :: x in found ==> x in rules && x.metricName == metricName && x.enabled
    ensures serviceId.None? ==> forall x :: x in found ==> HostTier(x, metricName, hostId) || GlobalTier(x, metricName)
  {
    var a, b, c := HostRules(rules, hostId, metricName), ServiceRules(rules, serviceId, metricName), GlobalRules(rules, metricName);
    var found := a + b + c;
    assert forall x :: x in found ==> x in rules && Candidate(x, metricName) && (serviceId.None? ==> x !in b) by {
      forall x | x in found
        ensures x in rules && Candidate(x, metricName) && (serviceId.None? ==> x !in b)
      {
        if x in a {
        } else if x in b {
        } else {
          assert x in c;
        }
      }
    }
    found
  }

  /** Where an index into a three-part concatenation lands. */
  lemma ConcatIndex<T>(a: seq<T>, b: seq<T>, c: seq<T>)
    ensures forall i :: 0 <= i < |a| ==> (a + b + c)[i] == a[i]
    ensures forall i :: |a| <= i < |a| + |b| ==> (a + b + c)[i] == b[i - |a|]
    ensures forall i :: |a| + |b| <= i < |a| + |b| + |c| ==> (a + b + c)[i] == c[i - |a| - |b|]
  {
  }

  /** Each rule is returned once per tier it falls in: a rule bound to both the
      host and the service comes back twice, nothing is deduplicated. */
  lemma ApplicableRulesCount(rules: seq<AlertRule>, hostId: nat, serviceId: Option<nat>, metricName: string, x: AlertRule)
    ensures multiset(FindApplicableRules(rules, hostId, serviceId, metricName))[x]
         == multiset(rules)[x] * TiersMatched(x, hostId, serviceId, metricName)
  {
    var a, b, c := HostRules(rules, hostId, metricName), ServiceRules(rules, serviceId, metricName), GlobalRules(rules, metricName);
    assert multiset(a + b + c) == multiset(a) + multiset(b) + multiset(c);
    var n := multiset(rules)[x];
    var h := if HostTier(x, metricName, hostId) then 1 else 0;
    var sv := if serviceId.Some? && ServiceTier(x, metricName, serviceId.value) then 1 else 0;
    var g := if GlobalTier(x, metricName) then 1 else 0;
    assert multiset(a)[x] == n * h by {
      Seqs.FilterMultiset(rules, IsHostRule(metricName, hostId), x);
    }
    assert multiset(b)[x] == n * sv by {
      if serviceId.Some? {
        Seqs.FilterMultiset(rules, IsServiceRule(metricName, serviceId.value), x);
      }
    }
    assert multiset(c)[x] == n * g by {
      Seqs.FilterMultiset(rules, IsGlobalRule(metricName), x);
    }
    assert n * h + n * sv + n * g == n * (h + sv + g);
  }

  /** A rule is selected iff it is an enabled rule of the metric bound to the
      host, to the given service, or to neither. */
  lemma ApplicableRulesMembership(rules: seq<AlertRule>, hostId: nat, serviceId: Option<nat>, metricName: string, x: AlertRule)
    ensures x in FindApplicableRules(rules, hostId, serviceId, metricName) <==>
      x in rules && Candidate(x, metricName) &&
      (x.hostId == Some(hostId) || (serviceId.Some? && x.serviceId == serviceId) || (x.hostId.None? && x.serviceId.None?))
  {
    ApplicableRulesCount(rules, hostId, serviceId, metricName, x);
  }

  /** The result splits into a host block, a service block (empty without a
      service) and a global block, in that order. */
  lemma ApplicableRulesOrder(rules: seq<AlertRule>, hostId: nat, serviceId: Option<nat>, metricName: string)
    returns (i: nat, j: nat)
    ensures var found := FindApplicableRules(rules, hostId, serviceId, metricName);
      && i <= j <= |found|
      && (forall k :: 0 <= k < i ==> HostTier(found[k], metricName, hostId))
      && (forall k :: i <= k < j ==> serviceId.Some? && ServiceTier(found[k], metricName, serviceId.value))
      && (forall k :: j <= k < |found| ==> GlobalTier(found[k], metricName))
  {
    var a, b, c := HostRules(rules, hostId, metricName), ServiceRules(rules, serviceId, metricName), GlobalRules(rules, metricName);
    ConcatIndex(a, b, c);
    i, j := |a|, |a| + |b|;
  }

  /** The selection as the repository writes it. `Model` opens one fresh
      statement and every later `Where` on `query` adds its condition to that
      same statement, so `query1`, `query2` and `query3` are one query whose
      conditions are all conjoined: the base, `host_id = ?`, `service_id = ?`
      when a service is given, and `host_id IS NULL AND service_id IS NULL`. */
  predicate ChainedCondition(r: AlertRule, hostId: nat, serviceId: Option<nat>, metricName: string) {
    && HostTier(r, metricName, hostId)
    && (serviceId.Some? ==> ServiceTier(r, metricName, serviceId.value))
    && GlobalTier(r, metricName)
  }

  function IsChainedRule(hostId: nat, serviceId: Option<nat>, metricName: string): AlertRule -> bool {
    r => ChainedCondition(r, hostId, serviceId, metricName)
  }

  /** The three `Find` calls of the written code, each running the conjoined
      query, concatenated as the code concatenates them. */
  function FindApplicableRulesAsWritten(rules: seq<AlertRule>, hostId: nat, serviceId: Option<nat>, metricName: string): (found: seq<AlertRule>)
    ensures forall x :: x in found ==> x in rules && ChainedCondition(x, hostId, serviceId, metricName)
  {
    var q := Seqs.Filter(rules, IsChainedRule(hostId, serviceId, metricName));
    q + (if serviceId.Some? then q else []) + q
  }

  /** No rule is both bound to the host and bound to no host, so the written
      selection never returns a rule, whatever the table holds. */
  lemma AsWrittenFindsNothing(rules: seq<AlertRule>, hostId: nat, serviceId: Option<nat>, metricName: string)
    ensures FindApplicableRulesAsWritten(rules, hostId, serviceId, metricName) == []
  {
    Seqs.FilterNone(rules, IsChainedRule(hostId, serviceId, metricName));
  }

  /** A table holding one enabled global rule for the metric: the three-tier
      selection returns it, the written one returns nothing. */
  lemma GlobalRuleLostAsWritten(rule: AlertRule, hostId: nat, metricName: string)
    requires GlobalTier(rule, metricName)
    ensures FindApplicableRules([rule], hostId, None, metricName) == [rule]
    ensures FindApplicableRulesAsWritten([rule], hostId, None, metricName) == []
  {
    AsWrittenFindsNothing([rule], hostId, None, metricName);
    Seqs.FilterOne(rule, IsHostRule(metricName, hostId));
    Seqs.FilterOne(rule, IsGlobalRule(metricName));
  }

  // ---------------------------------------------------------------------------
  // Open-event lookup

  /** An unresolved event of the rule on the host, for exactly the given
      service, or for no service when none is given. Acknowledged events
      count as open. */
  predicate IsOpenMatch(e: AlertEvent, ruleId: nat, hostId: nat, serviceId: Option<nat>) {
    && e.alertRuleId == ruleId
    && e.hostId == Some(hostId)
    && e.status != Resolved
    && e.serviceId == serviceId
  }

  /** The first open event for (rule, host, service), or not-found. */
  function FindOpenAlertByRule(events: seq<AlertEvent>, ruleId: nat, hostId: nat, serviceId: Option<nat>): (found: Option<AlertEvent>)
    ensures found.None? <==> forall i :: 0 <= i < |events| ==> !IsOpenMatch(events[i], ruleId, hostId, serviceId)
    ensures found.Some? ==> found.value in events && IsOpenMatch(found.value, ruleId, hostId, serviceId)
  {
    var i := Seqs.FirstIndex(events, (e: AlertEvent) => IsOpenMatch(e, ruleId, hostId, serviceId));
    if i < |events| then Some(events[i]) else None
  }

  // ---------------------------------------------------------------------------
  // Listing

  /** One page and the count of all matching rows. */
  datatype Listing<T> = Listing(items: seq<T>, total: nat)

  function Min(a: int, b: int): int {
    if a < b then a else b
  }

  /** `Offset((page-1)*pageSize).Limit(pageSize)`, applied only when both are
      positive; otherwise every row is returned. The product is Go `int`
      arithmetic and wraps at 64 bits; a negative offset skips no rows. */
  function Paginate<T>(rows: seq<T>, page: int, pageSize: int): (items: seq<T>)
    ensures page <= 0 || pageSize <= 0 ==> items == rows
    ensures page > 0 && pageSize > 0 ==> |items| <= pageSize
    ensures forall k :: 0 <= k < |items| ==> items[k] in rows
    ensures page > 0 && pageSize > 0 && GoInt.IsInt64(PageStart(page, pageSize)) ==>
      var offset := Min(PageStart(page, pageSize), |rows|);
      items == rows[offset..Min(offset + pageSize, |rows|)]
    ensures page > 0 && pageSize > 0 && GoInt.Wrap64(PageStart(page, pageSize)) <= 0 ==>
      items == rows[..Min(pageSize, |rows|)]
  {
    if page > 0 && pageSize > 0 then
      PageStartStep(page, pageSize);
      var offset := Offset(PageStart(page, pageSize), |rows|);
      var end := Min(offset + pageSize, |rows|);
      var items := rows[offset..end];
      assert forall k :: 0 <= k < |items| ==> items[k] == rows[offset + k];
      items
    else rows
  }

  /** The row the offset skips to: the start wrapped to 64 bits; a negative
      offset skips no rows and one past the end leaves none. */
  function Offset(start: int, count: nat): (o: nat)
    ensures o <= count
    ensures GoInt.IsInt64(start) && start >= 0 ==> o == Min(start, count)
    ensures GoInt.Wrap64(start) <= 0 ==> o == 0
  {
    var wrapped := GoInt.Wrap64(start);
    if wrapped < 0 then 0 else Min(wrapped, count)
  }

  /** The first row of a page, before Go's 64-bit wrap-around. */
  function PageStart(page: int, pageSize: int): int {
    (page - 1) * pageSize
  }

  lemma PageStartStep(n: int, pageSize: int)
    ensures PageStart(n, pageSize) == (n - 1) * pageSize
    ensures n * pageSize == PageStart(n, pageSize) + pageSize
    ensures PageStart(n - 1, pageSize) == PageStart(n, pageSize) - pageSize
    ensures n >= 1 && pageSize > 0 ==> PageStart(n, pageSize) >= 0
  {
  }

  /** A page number large enough for the offset to wrap to zero shows the
      first page again. */
  lemma PaginateWraps(rows: seq<int>)
    requires |rows| >= 4
    ensures Paginate(rows, 0x4000_0000_0000_0001, 4) == rows[..4]
  {
    assert PageStart(0x4000_0000_0000_0001, 4) == GoInt.TWO_POW_64;
    assert GoInt.Wrap64(GoInt.TWO_POW_64) == 0;
  }

  /** `List` on rows already filtered and in the query's order. */
  function List<T>(rows: seq<T>, page: int, pageSize: int): (l: Listing<T>)
    ensures l.total == |rows|
    ensures l.items == Paginate(rows, page, pageSize)
  {
    Listing(Paginate(rows, page, pageSize), |rows|)
  }

  /** Pages `1..n` laid end to end. */
  function PagesUpTo<T>(rows: seq<T>, n: nat, pageSize: int): seq<T>
    decreases n
  {
    if n == 0 then [] else PagesUpTo(rows, n - 1, pageSize) + Paginate(rows, n, pageSize)
  }

  /** Walking the pages in order reads the rows in order, with no row skipped
      or repeated. */
  lemma {:induction false} PagesCover<T>(rows: seq<T>, n: nat, pageSize: int)
    requires pageSize > 0 && PageStart(n, pageSize) <= GoInt.INT64_MAX
    ensures PagesUpTo(rows, n, pageSize) == rows[..Min(n * pageSize, |rows|)]
    decreases n
  {
    if n > 0 {
      PageStartStep(n, pageSize);
      PageStartStep(n - 1, pageSize);
      PagesCover(rows, n - 1, pageSize);
      PageAppend(rows, n, pageSize);
    }
  }

  /** Page `n` continues exactly where the rows before it end. */
  lemma PageAppend<T>(rows: seq<T>, n: int, pageSize: int)
    requires n > 0 && pageSize > 0 && PageStart(n, pageSize) <= GoInt.INT64_MAX
    ensures rows[..Min(PageStart(n, pageSize), |rows|)] + Paginate(rows, n, pageSize)
         == rows[..Min(PageStart(n, pageSize) + pageSize, |rows|)]
  {
    var start := PageStart(n, pageSize);
    PageStartStep(n, pageSize);
    assert GoInt.IsInt64(start);
    var a := Min(start, |rows|);
    var b := Min(start + pageSize, |rows|);
    assert Paginate(rows, n, pageSize) == rows[a..b];
    assert rows[..a] + rows[a..b] == rows[..b];
  }

  /** Page `page` starts at row `(page - 1) * pageSize`. */
  lemma PageSlice<T>(rows: seq<T>, page: int, pageSize: int, offset: int)
    requires page > 0 && pageSize > 0 && offset == PageStart(page, pageSize) && offset <= |rows| && offset <= GoInt.INT64_MAX
    ensures Paginate(rows, page, pageSize) == rows[offset..Min(offset + pageSize, |rows|)]
  {
    PageStartStep(page, pageSize);
    assert GoInt.IsInt64(PageStart(page, pageSize));
  }

  lemma PageEntry<T>(rows: seq<T>, pageSize: int, q: nat, r: nat)
    requires pageSize > 0 && r < pageSize && q * pageSize + r < |rows| && q * pageSize <= GoInt.INT64_MAX
    ensures r < |Paginate(rows, q + 1, pageSize)|
    ensures Paginate(rows, q + 1, pageSize)[r] == rows[q * pageSize + r]
  {
    PageStartStep(q + 1, pageSize);
    PageSlice(rows, q + 1, pageSize, q * pageSize);
  }

  lemma DivMod(k: nat, d: int)
    requires d > 0
    ensures k / d >= 0 && 0 <= k % d < d
    ensures (k / d) * d + k % d == k && (k / d) * d <= k
  {
  }

  /** Row `k` is entry `k % pageSize` of page `k / pageSize + 1`. */
  lemma PageIndex<T>(rows: seq<T>, pageSize: int, k: nat)
    requires pageSize > 0 && k < |rows| && k <= GoInt.INT64_MAX
    ensures k % pageSize < |Paginate(rows, k / pageSize + 1, pageSize)|
    ensures Paginate(rows, k / pageSize + 1, pageSize)[k % pageSize] == rows[k]
  {
    var q, r := k / pageSize, k % pageSize;
    DivMod(k, pageSize);
    PageEntry(rows, pageSize, q, r);
  }
}

=== FILE: alert_service.dfy ===
/** The DB-backed alert evaluator (internal/service/alert_service.go): for a
    metric sample, evaluate each applicable rule, record at most one unresolved
    event per (rule, host, service), and notify the rule's channels; plus the
    forward-only acknowledge/resolve transitions and the status total.
    The database is an `AlertDb` of two tables; whether an insert fails is an
    input (`insertFails`), the clock is `now`, and notifications are returned
    as a list of dispatches instead of being sent. */
module AlertService {
  import opened Wrappers
  import opened GoInt
  import opened AlertModel
  import opened AlertRepository
  import Seqs

  datatype AlertDb = AlertDb(rules: seq<AlertRule>, events: seq<AlertEvent>)

  datatype AlertError = InsertFailed | RecordNotFound | NotOpen | AlreadyResolved

  /** One `SendAlertNotification(ctx, channelId, event)` call. */
  datatype Dispatch = Dispatch(channelId: nat, event: AlertEvent)

  /** The database after a call, the dispatches it made, and its error. */
  datatype Effect = Effect(db: AlertDb, sent: seq<Dispatch>, result: Result<(), AlertError>)

  /** The arguments of `ProcessMetric` that describe the sample. */
  datatype Sample = Sample(
    hostId: nat,
    hostname: string,
    serviceId: Option<nat>,
    serviceName: string,
    metricName: string,
    value: real)

  // ---------------------------------------------------------------------------
  // Rule evaluation

  predicate KnownOperator(op: string) {
    op in {OP_GT, OP_GE, OP_LT, OP_LE, OP_EQ, OP_NE}
  }

  /** `value <op> threshold` for the six known operators. */
  function EvaluateRule(op: string, value: real, threshold: real): (fired: bool)
    ensures !KnownOperator(op) ==> !fired
  {
    if op == OP_GT then value > threshold
    else if op == OP_GE then value >= threshold
    else if op == OP_LT then value < threshold
    else if op == OP_LE then value <= threshold
    else if op == OP_EQ then value == threshold
    else if op == OP_NE then value != threshold
    else false
  }

  /** The operators pair up as complements, and the non-strict ones are the
      strict ones widened by equality. */
  lemma EvaluateComplements(value: real, threshold: real)
    ensures EvaluateRule(OP_GT, value, threshold) == !EvaluateRule(OP_LE, value, threshold)
    ensures EvaluateRule(OP_LT, value, threshold) == !EvaluateRule(OP_GE, value, threshold)
    ensures EvaluateRule(OP_EQ, value, threshold) == !EvaluateRule(OP_NE, value, threshold)
    ensures EvaluateRule(OP_GE, value, threshold) == (EvaluateRule(OP_GT, value, threshold) || EvaluateRule(OP_EQ, value, threshold))
    ensures EvaluateRule(OP_LE, value, threshold) == (EvaluateRule(OP_LT, value, threshold) || EvaluateRule(OP_EQ, value, threshold))
    ensures EvaluateRule(OP_GT, value, threshold) == EvaluateRule(OP_LT, threshold, value)
  {
  }

  // ---------------------------------------------------------------------------
  // Notification targets

  /** The entries that parse as unsigned 32-bit decimals, in order; the rest
      are skipped. */
  function ParseIds(parts: seq<string>): (ids: seq<nat>)
    ensures |ids| <= |parts|
    ensures forall i :: 0 <= i < |ids| ==> ids[i] <= UINT32_MAX
    decreases |parts|
  {
    if |parts| == 0 then []
    else
      var head := match ParseUint32(parts[0]) case Some(v) => [v] case None => [];
      head + ParseIds(parts[1..])
  }

  /** The entries that parse, read as numbers, in order: the unparsable ones
      are dropped and nothing else is. */
  lemma {:induction false} ParseIdsFilterMap(parts: seq<string>)
    ensures ParseIds(parts) == ValuesOf(Seqs.Filter(parts, Parses))
    decreases |parts|
  {
    if |parts| > 0 {
      ParseIdsFilterMap(parts[1..]);
      var kept := if Parses(parts[0]) then [parts[0]] else [];
      assert Seqs.Filter(parts, Parses) == kept + Seqs.Filter(parts[1..], Parses);
      ValuesOfConcat(kept, Seqs.Filter(parts[1..], Parses));
    }
  }

  /** An entry `strconv.ParseUint(_, 10, 32)` accepts. */
  predicate Parses(p: string) {
    ParseUint32(p).Some?
  }

  /** The values of entries that all parse, in order. */
  function ValuesOf(ps: seq<string>): (vs: seq<nat>)
    requires forall i :: 0 <= i < |ps| ==> Parses(ps[i])
  {
    seq(|ps|, i requires 0 <= i < |ps| && Parses(ps[i]) => ParseUint32(ps[i]).value)
  }

  lemma ValuesOfConcat(a: seq<string>, b: seq<string>)
    requires forall i :: 0 <= i < |a| ==> Parses(a[i])
    requires forall i :: 0 <= i < |b| ==> Parses(b[i])
    ensures ValuesOf(a + b) == ValuesOf(a) + ValuesOf(b)
  {
  }

  /** Entries are read one by one: the ids of a concatenation are the ids of
      its parts. */
  lemma {:induction false} ParseIdsConcat(a: seq<string>, b: seq<string>)
    ensures ParseIds(a + b) == ParseIds(a) + ParseIds(b)
    decreases |a|
  {
    if |a| == 0 {
      assert a + b == b;
    } else {
      assert (a + b)[1..] == a[1..] + b;
      assert (a + b)[0] == a[0];
      ParseIdsConcat(a[1..], b);
      var head := match ParseUint32(a[0]) case Some(v) => [v] case None => [];
      assert ParseIds(a + b) == head + ParseIds(a[1..] + b);
      assert ParseIds(a) == head + ParseIds(a[1..]);
    }
  }

  /** One entry gives its value when it parses and nothing otherwise. */
  lemma ParseIdsOne(p: string)
    ensures ParseIds([p]) == match ParseUint32(p) case Some(v) => [v] case None => []
  {
    assert [p][1..] == [];
  }

  /** The channels a comma-separated `notification_ids` value names: the
      pieces between commas that parse, read as numbers, in order. */
  function NotificationTargets(notificationIds: string): (ids: seq<nat>)
    ensures notificationIds == "" ==> ids == []
    ensures forall i :: 0 <= i < |ids| ==> ids[i] <= UINT32_MAX
    ensures notificationIds != "" ==> ids == ValuesOf(Seqs.Filter(Seqs.Split(notificationIds, ','), Parses))
  {
    if notificationIds == "" then []
    else
      ParseIdsFilterMap(Seqs.Split(notificationIds, ','));
      ParseIds(Seqs.Split(notificationIds, ','))
  }

  /** The targets are the comma-separated pieces that parse, read as
      numbers, in order. */
  lemma NotificationTargetsSpec(notificationIds: string)
    ensures NotificationTargets(notificationIds) == ValuesOf(Seqs.Filter(Seqs.Split(notificationIds, ','), Parses))
  {
    ParseIdsFilterMap(Seqs.Split(notificationIds, ','));
  }

  /** The empty-string guard is redundant: splitting "" gives one empty entry,
      which does not parse. */
  lemma EmptyGuardRedundant(notificationIds: string)
    ensures NotificationTargets(notificationIds) == ParseIds(Seqs.Split(notificationIds, ','))
  {
  }

  function Decimals(ids: seq<nat>): (parts: seq<string>)
    ensures |parts| == |ids|
  {
    if |ids| == 0 then [] else [NatToDecimal(ids[0])] + Decimals(ids[1..])
  }

  lemma {:induction false} ParseDecimals(ids: seq<nat>)
    requires forall i :: 0 <= i < |ids| ==> ids[i] <= UINT32_MAX
    ensures ParseIds(Decimals(ids)) == ids
    ensures forall i :: 0 <= i < |ids| ==> ',' !in Decimals(ids)[i]
    decreases |ids|
  {
    if |ids| > 0 {
      ParseUint32Decimal(ids[0]);
      ItoaAvoids(ids[0], ',');
      ParseDecimals(ids[1..]);
      assert Decimals(ids)[1..] == Decimals(ids[1..]);
    }
  }

  /** Round trip: a list of 32-bit IDs written comma-separated is read back
      in full and in order. */
  lemma NotificationTargetsJoin(ids: seq<nat>)
    requires forall i :: 0 <= i < |ids| ==> ids[i] <= UINT32_MAX
    ensures NotificationTargets(Seqs.Join(Decimals(ids), ',')) == ids
  {
    ParseDecimals(ids);
    if |ids| > 0 {
      Seqs.SplitJoin(Decimals(ids), ',');
    }
  }

  function Dispatches(ids: seq<nat>, e: AlertEvent): (ds: seq<Dispatch>)
    ensures |ds| == |ids|
    ensures forall i :: 0 <= i < |ids| ==> ds[i] == Dispatch(ids[i], e)
  {
    seq(|ids|, i requires 0 <= i < |ids| => Dispatch(ids[i], e))
  }

  // ---------------------------------------------------------------------------
  // Event creation

  /** The row `createAlertEvent` inserts. */
  function NewEvent(id: nat, rule: AlertRule, s: Sample, now: int): AlertEvent {
    AlertEvent(
      id, rule.id, rule.name, rule.clusterId, s.serviceId, Some(s.hostId), s.hostname, s.serviceName,
      s.metricName, s.value, rule.threshold, rule.operator, rule.severity, Open,
      now, None, None, None, now)
  }

  /** Records an alert for a fired rule unless an unresolved one exists for
      the same (rule, host, service); on insert it notifies every parsable
      channel of the rule. */
  function CreateAlertEvent(db: AlertDb, rule: AlertRule, s: Sample, now: int, insertFails: AlertEvent -> bool): (e: Effect)
    ensures e.db.rules == db.rules
    ensures FindOpenAlertByRule(db.events, rule.id, s.hostId, s.serviceId).Some? ==> e == Effect(db, [], Ok(()))
    ensures e.result.Err? ==> e.result.error == InsertFailed && e.db == db && e.sent == []
    ensures e.result.Ok? && e.db != db ==>
      && |e.db.events| == |db.events| + 1
      && e.db.events[..|db.events|] == db.events
      && var ev := e.db.events[|db.events|];
      && ev.id == |db.events| + 1
      && ev.status == Open
      && ev.alertRuleId == rule.id && ev.alertName == rule.name
      && ev.severity == rule.severity && ev.threshold == rule.threshold && ev.operator == rule.operator
      && ev.clusterId == rule.clusterId
      && ev.hostId == Some(s.hostId) && ev.serviceId == s.serviceId
      && ev.metricName == s.metricName && ev.metricValue == s.value
      && ev.triggeredAt == now && ev.acknowledgedAt.None? && ev.resolvedAt.None?
      && e.sent == Dispatches(NotificationTargets(rule.notificationIds), ev)
    ensures e.result.Ok? && e.db == db ==> FindOpenAlertByRule(db.events, rule.id, s.hostId, s.serviceId).Some?
    ensures e.result.Err? <==>
      FindOpenAlertByRule(db.events, rule.id, s.hostId, s.serviceId).None? && insertFails(NewEvent(|db.events| + 1, rule, s, now))
    ensures FindOpenAlertByRule(db.events, rule.id, s.hostId, s.serviceId).None? && !insertFails(NewEvent(|db.events| + 1, rule, s, now)) ==>
      e.result.Ok? && e.db == db.(events := db.events + [NewEvent(|db.events| + 1, rule, s, now)])
  {
    if FindOpenAlertByRule(db.events, rule.id, s.hostId, s.serviceId).Some? then Effect(db, [], Ok(()))
    else
      var ev := NewEvent(|db.events| + 1, rule, s, now);
      if insertFails(ev) then Effect(db, [], Err(InsertFailed))
      else
        var events' := db.events + [ev];
        assert events'[..|db.events|] == db.events;
        Effect(db.(events := events'), Dispatches(NotificationTargets(rule.notificationIds), ev), Ok(()))
  }

  predicate Fires(rule: AlertRule, value: real) {
    rule.enabled && EvaluateRule(rule.operator, value, rule.threshold)
  }

  /** IDs of the enabled rules in `rules` that fire on `value`. */
  function FiredRuleIds(rules: seq<AlertRule>, value: real): set<nat> {
    if |rules| == 0 then {}
    else (if Fires(rules[0], value) then {rules[0].id} else {}) + FiredRuleIds(rules[1..], value)
  }

  /** `after` extends `before` by events for the sample, each from a rule
      among `rules` that fired. */
  predicate GrownBy(before: seq<AlertEvent>, after: seq<AlertEvent>, rules: seq<AlertRule>, s: Sample) {
    && |before| <= |after|
    && after[..|before|] == before
    && forall k :: |before| <= k < |after| ==>
         && after[k].alertRuleId in FiredRuleIds(rules, s.value)
         && after[k].metricName == s.metricName && after[k].metricValue == s.value
         && after[k].hostId == Some(s.hostId) && after[k].serviceId == s.serviceId
         && after[k].status == Open
  }

  /** The loop of `ProcessMetric` over the selected rules. */
  function ProcessRules(db: AlertDb, rules: seq<AlertRule>, s: Sample, now: int, insertFails: AlertEvent -> bool): (e: Effect)
    ensures e.db.rules == db.rules
    ensures GrownBy(db.events, e.db.events, rules, s)
    decreases |rules|
  {
    if |rules| == 0 then Effect(db, [], Ok(()))
    else
      var rule := rules[0];
      if !Fires(rule, s.value) then
        var e := ProcessRules(db, rules[1..], s, now, insertFails);
        GrownByWiden(db.events, e.db.events, rules, s);
        e
      else
        var first := CreateAlertEvent(db, rule, s, now, insertFails);
        if first.result.Err? then
          assert first.db.events[..|db.events|] == db.events;
          first
        else
          var rest := ProcessRules(first.db, rules[1..], s, now, insertFails);
          assert GrownBy(db.events, first.db.events, rules, s);
          GrownByWiden(first.db.events, rest.db.events, rules, s);
          GrownByTrans(db.events, first.db.events, rest.db.events, rules, s);
          Effect(rest.db, first.sent + rest.sent, rest.result)
  }

  /** Events allowed by the later rules are allowed by the whole list. */
  lemma GrownByWiden(before: seq<AlertEvent>, after: seq<AlertEvent>, rules: seq<AlertRule>, s: Sample)
    requires |rules| > 0 && GrownBy(before, after, rules[1..], s)
    ensures GrownBy(before, after, rules, s)
  {
    assert FiredRuleIds(rules[1..], s.value) <= FiredRuleIds(rules, s.value);
  }

  /** Growing twice under the same rules is growing once. */
  lemma GrownByTrans(a: seq<AlertEvent>, b: seq<AlertEvent>, c: seq<AlertEvent>, rules: seq<AlertRule>, s: Sample)
    requires GrownBy(a, b, rules, s) && GrownBy(b, c, rules, s)
    ensures GrownBy(a, c, rules, s)
  {
    assert c[..|a|] == a by {
      assert c[..|b|][..|a|] == b[..|a|];
    }
    forall k | |a| <= k < |b|
      ensures c[k] == b[k]
    {
      assert c[k] == c[..|b|][k];
    }
  }

  /** `ProcessMetric`: select the applicable rules, then evaluate them in order,
      stopping at the first failed insert. */
  function ProcessMetric(db: AlertDb, s: Sample, now: int, insertFails: AlertEvent -> bool): (e: Effect)
    ensures e.db.rules == db.rules
    ensures GrownBy(db.events, e.db.events, FindApplicableRules(db.rules, s.hostId, s.serviceId, s.metricName), s)
  {
    ProcessRules(db, FindApplicableRules(db.rules, s.hostId, s.serviceId, s.metricName), s, now, insertFails)
  }

  /** With a database whose inserts never fail, the loop always succeeds. */
  lemma {:induction false} ProcessRulesSucceeds(db: AlertDb, rules: seq<AlertRule>, s: Sample, now: int, insertFails: AlertEvent -> bool)
    requires forall ev :: !insertFails(ev)
    ensures ProcessRules(db, rules, s, now, insertFails).result.Ok?
    decreases |rules|
  {
    if |rules| > 0 {
      if Fires(rules[0], s.value) {
        var first := CreateAlertEvent(db, rules[0], s, now, insertFails);
        ProcessRulesSucceeds(first.db, rules[1..], s, now, insertFails);
      } else {
        ProcessRulesSucceeds(db, rules[1..], s, now, insertFails);
      }
    }
  }

  /** The same for a whole sample: only a failed insert makes it an error. */
  lemma ProcessMetricSucceeds(db: AlertDb, s: Sample, now: int, insertFails: AlertEvent -> bool)
    requires forall ev :: !insertFails(ev)
    ensures ProcessMetric(db, s, now, insertFails).result.Ok?
  {
    ProcessRulesSucceeds(db, FindApplicableRules(db.rules, s.hostId, s.serviceId, s.metricName), s, now, insertFails);
  }

  /** A failed insert ends the loop: rules after it are never looked at. */
  lemma {:induction false} ProcessRulesStops(db: AlertDb, rules: seq<AlertRule>, later: seq<AlertRule>, s: Sample, now: int, insertFails: AlertEvent -> bool)
    requires ProcessRules(db, rules, s, now, insertFails).result.Err?
    ensures ProcessRules(db, rules + later, s, now, insertFails) == ProcessRules(db, rules, s, now, insertFails)
    decreases |rules|
  {
    assert (rules + later)[0] == rules[0];
    assert (rules + later)[1..] == rules[1..] + later;
    if !Fires(rules[0], s.value) {
      ProcessRulesStops(db, rules[1..], later, s, now, insertFails);
    } else {
      var first := CreateAlertEvent(db, rules[0], s, now, insertFails);
      if first.result.Ok? {
        ProcessRulesStops(first.db, rules[1..], later, s, now, insertFails);
      }
    }
  }

  // ---------------------------------------------------------------------------
  // Deduplication

  predicate Unresolved(e: AlertEvent) {
    e.status != Resolved
  }

  /** At most one unresolved event per (rule, host, service). */
  predicate AtMostOneOpen(events: seq<AlertEvent>) {
    forall i, j :: 0 <= i < j < |events| && Unresolved(events[i]) && Unresolved(events[j]) ==>
      (events[i].alertRuleId, events[i].hostId, events[i].serviceId) != (events[j].alertRuleId, events[j].hostId, events[j].serviceId)
  }

  /** Every rule of `rules` that fires already has an unresolved event. */
  predicate Covered(events: seq<AlertEvent>, rules: seq<AlertRule>, s: Sample) {
    forall i :: 0 <= i < |rules| && Fires(rules[i], s.value) ==>
      FindOpenAlertByRule(events, rules[i].id, s.hostId, s.serviceId).Some?
  }

  lemma OpenPersists(events: seq<AlertEvent>, after: seq<AlertEvent>, ruleId: nat, hostId: nat, serviceId: Option<nat>)
    requires |events| <= |after| && after[..|events|] == events
    requires FindOpenAlertByRule(events, ruleId, hostId, serviceId).Some?
    ensures FindOpenAlertByRule(after, ruleId, hostId, serviceId).Some?
  {
    var i :| 0 <= i < |events| && IsOpenMatch(events[i], ruleId, hostId, serviceId);
    assert after[i] == after[..|events|][i];
  }

  lemma CoveredPersists(events: seq<AlertEvent>, after: seq<AlertEvent>, rules: seq<AlertRule>, s: Sample)
    requires |events| <= |after| && after[..|events|] == events
    requires Covered(events, rules, s)
    ensures Covered(after, rules, s)
  {
    forall i | 0 <= i < |rules| && Fires(rules[i], s.value)
      ensures FindOpenAlertByRule(after, rules[i].id, s.hostId, s.serviceId).Some?
    {
      OpenPersists(events, after, rules[i].id, s.hostId, s.serviceId);
    }
  }

  lemma CoveredCons(events: seq<AlertEvent>, rules: seq<AlertRule>, s: Sample)
    requires |rules| > 0
    requires Fires(rules[0], s.value) ==> FindOpenAlertByRule(events, rules[0].id, s.hostId, s.serviceId).Some?
    requires Covered(events, rules[1..], s)
    ensures Covered(events, rules, s)
  {
    forall i | 0 <= i < |rules| && Fires(rules[i], s.value)
      ensures FindOpenAlertByRule(events, rules[i].id, s.hostId, s.serviceId).Some?
    {
      if i > 0 {
        assert rules[i] == rules[1..][i - 1];
      }
    }
  }

  /** A successful creation leaves an unresolved event for its key. */
  lemma CreateCovers(db: AlertDb, rule: AlertRule, s: Sample, now: int, insertFails: AlertEvent -> bool)
    requires CreateAlertEvent(db, rule, s, now, insertFails).result.Ok?
    ensures FindOpenAlertByRule(CreateAlertEvent(db, rule, s, now, insertFails).db.events, rule.id, s.hostId, s.serviceId).Some?
  {
    var first := CreateAlertEvent(db, rule, s, now, insertFails);
    if first.db != db {
      assert IsOpenMatch(first.db.events[|db.events|], rule.id, s.hostId, s.serviceId);
    }
  }

  /** After a successful pass, every firing rule has an unresolved event. */
  lemma {:induction false} ProcessRulesCovers(db: AlertDb, rules: seq<AlertRule>, s: Sample, now: int, insertFails: AlertEvent -> bool)
    requires ProcessRules(db, rules, s, now, insertFails).result.Ok?
    ensures Covered(ProcessRules(db, rules, s, now, insertFails).db.events, rules, s)
    decreases |rules|
  {
    if |rules| > 0 {
      var e := ProcessRules(db, rules, s, now, insertFails);
      if !Fires(rules[0], s.value) {
        ProcessRulesCovers(db, rules[1..], s, now, insertFails);
      } else {
        var first := CreateAlertEvent(db, rules[0], s, now, insertFails);
        CreateCovers(db, rules[0], s, now, insertFails);
        ProcessRulesCovers(first.db, rules[1..], s, now, insertFails);
        OpenPersists(first.db.events, e.db.events, rules[0].id, s.hostId, s.serviceId);
      }
      CoveredCons(e.db.events, rules, s);
    }
  }

  /** When every firing rule already has an unresolved event, a pass changes
      nothing and notifies no one. */
  lemma {:induction false} ProcessRulesNoop(db: AlertDb, rules: seq<AlertRule>, s: Sample, now: int, insertFails: AlertEvent -> bool)
    requires Covered(db.events, rules, s)
    ensures ProcessRules(db, rules, s, now, insertFails) == Effect(db, [], Ok(()))
    decreases |rules|
  {
    if |rules| > 0 {
      assert Covered(db.events, rules[1..], s) by {
        forall i | 0 <= i < |rules[1..]| && Fires(rules[1..][i], s.value)
          ensures FindOpenAlertByRule(db.events, rules[1..][i].id, s.hostId, s.serviceId).Some?
        {
          assert rules[1..][i] == rules[i + 1];
        }
      }
      ProcessRulesNoop(db, rules[1..], s, now, insertFails);
    }
  }

  /** Dedup: once a sample has been processed without error, processing it
      again, at any time and with any database faults, changes nothing and
      sends nothing. */
  lemma ProcessMetricIdempotent(db: AlertDb, s: Sample, now: int, insertFails: AlertEvent -> bool, now': int, insertFails': AlertEvent -> bool)
    requires ProcessMetric(db, s, now, insertFails).result.Ok?
    ensures var db' := ProcessMetric(db, s, now, insertFails).db;
      ProcessMetric(db', s, now', insertFails') == Effect(db', [], Ok(()))
  {
    var rules := FindApplicableRules(db.rules, s.hostId, s.serviceId, s.metricName);
    ProcessRulesCovers(db, rules, s, now, insertFails);
    var db' := ProcessMetric(db, s, now, insertFails).db;
    ProcessRulesNoop(db', rules, s, now', insertFails');
  }

  /** Creating an event never produces a second unresolved event for one
      (rule, host, service). */
  lemma CreateKeepsAtMostOneOpen(db: AlertDb, rule: AlertRule, s: Sample, now: int, insertFails: AlertEvent -> bool)
    requires AtMostOneOpen(db.events)
    ensures AtMostOneOpen(CreateAlertEvent(db, rule, s, now, insertFails).db.events)
  {
    var e := CreateAlertEvent(db, rule, s, now, insertFails);
    if e.db != db {
      var n := |db.events|;
      forall i, j | 0 <= i < j < |e.db.events| && Unresolved(e.db.events[i]) && Unresolved(e.db.events[j])
        ensures (e.db.events[i].alertRuleId, e.db.events[i].hostId, e.db.events[i].serviceId)
             != (e.db.events[j].alertRuleId, e.db.events[j].hostId, e.db.events[j].serviceId)
      {
        assert e.db.events[i] == db.events[i];
        if j < n {
          assert e.db.events[j] == db.events[j];
        } else {
          assert !IsOpenMatch(db.events[i], rule.id, s.hostId, s.serviceId);
        }
      }
    }
  }

  lemma {:induction false} ProcessRulesKeepsAtMostOneOpen(db: AlertDb, rules: seq<AlertRule>, s: Sample, now: int, insertFails: AlertEvent -> bool)
    requires AtMostOneOpen(db.events)
    ensures AtMostOneOpen(ProcessRules(db, rules, s, now, insertFails).db.events)
    decreases |rules|
  {
    if |rules| > 0 {
      if !Fires(rules[0], s.value) {
        ProcessRulesKeepsAtMostOneOpen(db, rules[1..], s, now, insertFails);
      } else {
        var first := CreateAlertEvent(db, rules[0], s, now, insertFails);
        CreateKeepsAtMostOneOpen(db, rules[0], s, now, insertFails);
        if first.result.Ok? {
          ProcessRulesKeepsAtMostOneOpen(first.db, rules[1..], s, now, insertFails);
        }
      }
    }
  }

  /** The dedup invariant survives metric processing, even when a rule is
      selected twice through two tiers. */
  lemma ProcessMetricKeepsAtMostOneOpen(db: AlertDb, s: Sample, now: int, insertFails: AlertEvent -> bool)
    requires AtMostOneOpen(db.events)
    ensures AtMostOneOpen(ProcessMetric(db, s, now, insertFails).db.events)
  {
    ProcessRulesKeepsAtMostOneOpen(db, FindApplicableRules(db.rules, s.hostId, s.serviceId, s.metricName), s, now, insertFails);
  }

  // ---------------------------------------------------------------------------
  // Acknowledge and resolve

  function HasId(id: nat): AlertEvent -> bool {
    (e: AlertEvent) => e.id == id
  }

  /** Where `GetByID` finds the event, or `|events|` when it does not exist. */
  function EventIndex(events: seq<AlertEvent>, id: nat): (i: nat)
    ensures i <= |events|
    ensures i < |events| ==> events[i].id == id
    ensures i == |events| <==> forall j :: 0 <= j < |events| ==> events[j].id != id
  {
    Seqs.FirstIndex(events, HasId(id))
  }

  /** Only an `OPEN` event can be acknowledged; it records who and when. */
  function AcknowledgeAlertEvent(db: AlertDb, id: nat, userId: nat, now: int): (r: Result<AlertDb, AlertError>)
    ensures var i := EventIndex(db.events, id);
      && (r == Err(RecordNotFound) <==> i == |db.events|)
      && (r == Err(NotOpen) <==> i < |db.events| && db.events[i].status != Open)
      && (r.Ok? <==> i < |db.events| && db.events[i].status == Open)
      && (r.Ok? ==>
           && r.value.rules == db.rules
           && |r.value.events| == |db.events|
           && (forall j :: 0 <= j < |db.events| && j != i ==> r.value.events[j] == db.events[j])
           && r.value.events[i].status == Acknowledged
           && r.value.events[i].acknowledgedBy == Some(userId)
           && r.value.events[i].acknowledgedAt == Some(now)
           && r.value.events[i] == db.events[i].(status := Acknowledged, acknowledgedAt := Some(now),
                                                  acknowledgedBy := Some(userId), updatedAt := now))
  {
    var i := EventIndex(db.events, id);
    if i == |db.events| then Err(RecordNotFound)
    else
      var e := db.events[i];
      if e.status != Open then Err(NotOpen)
      else
        var e' := e.(status := Acknowledged, acknowledgedAt := Some(now), acknowledgedBy := Some(userId), updatedAt := now);
        Ok(db.(events := db.events[i := e']))
  }

  /** Any event not yet resolved can be resolved, acknowledged or not. */
  function ResolveAlertEvent(db: AlertDb, id: nat, now: int): (r: Result<AlertDb, AlertError>)
    ensures var i := EventIndex(db.events, id);
      && (r == Err(RecordNotFound) <==> i == |db.events|)
      && (r == Err(AlreadyResolved) <==> i < |db.events| && db.events[i].status == Resolved)
      && (r.Ok? <==> i < |db.events| && db.events[i].status in {Open, Acknowledged})
      && (r.Ok? ==>
           && r.value.rules == db.rules
           && |r.value.events| == |db.events|
           && (forall j :: 0 <= j < |db.events| && j != i ==> r.value.events[j] == db.events[j])
           && r.value.events[i].status == Resolved
           && r.value.events[i].resolvedAt == Some(now)
           && r.value.events[i] == db.events[i].(status := Resolved, resolvedAt := Some(now), updatedAt := now))
  {
    var i := EventIndex(db.events, id);
    if i == |db.events| then Err(RecordNotFound)
    else
      var e := db.events[i];
      if e.status == Resolved then Err(AlreadyResolved)
      else
        var e' := e.(status := Resolved, resolvedAt := Some(now), updatedAt := now);
        Ok(db.(events := db.events[i := e']))
  }

  function Rank(st: AlertStatus): nat {
    match st
    case Open => 0
    case Acknowledged => 1
    case Resolved => 2
  }

  /** `after` is `before` with events appended and statuses moved forward;
      a resolved event is frozen. */
  predicate Forward(before: seq<AlertEvent>, after: seq<AlertEvent>) {
    && |before| <= |after|
    && forall i :: 0 <= i < |before| ==>
         && after[i].id == before[i].id
         && after[i].alertRuleId == before[i].alertRuleId
         && after[i].hostId == before[i].hostId
         && after[i].serviceId == before[i].serviceId
         && Rank(before[i].status) <= Rank(after[i].status)
         && (before[i].status == Resolved ==> after[i] == before[i])
  }

  lemma ForwardTransitive(a: seq<AlertEvent>, b: seq<AlertEvent>, c: seq<AlertEvent>)
    requires Forward(a, b) && Forward(b, c)
    ensures Forward(a, c)
  {
  }

  /** `OPEN -> ACKNOWLEDGED -> RESOLVED` is the only direction events move,
      and no operation breaks the one-unresolved-event-per-key invariant. */
  lemma AcknowledgeForward(db: AlertDb, id: nat, userId: nat, now: int)
    requires AtMostOneOpen(db.events)
    ensures var r := AcknowledgeAlertEvent(db, id, userId, now);
      r.Ok? ==> Forward(db.events, r.value.events) && AtMostOneOpen(r.value.events)
  {
  }

  lemma ResolveForward(db: AlertDb, id: nat, now: int)
    requires AtMostOneOpen(db.events)
    ensures var r := ResolveAlertEvent(db, id, now);
      r.Ok? ==> Forward(db.events, r.value.events) && AtMostOneOpen(r.value.events)
  {
  }

  lemma ProcessMetricForward(db: AlertDb, s: Sample, now: int, insertFails: AlertEvent -> bool)
    ensures Forward(db.events, ProcessMetric(db, s, now, insertFails).db.events)
  {
    var after := ProcessMetric(db, s, now, insertFails).db.events;
    forall i | 0 <= i < |db.events|
      ensures after[i] == db.events[i]
    {
      assert after[i] == after[..|db.events|][i];
    }
  }

  // ---------------------------------------------------------------------------
  // Statistics

  function HasStatus(st: AlertStatus): AlertEvent -> bool {
    (e: AlertEvent) => e.status == st
  }

  /** `CountByStatus`: the events with the given status. */
  function CountByStatus(events: seq<AlertEvent>, st: AlertStatus): (n: nat)
    ensures n <= |events|
  {
    |Seqs.Filter(events, HasStatus(st))|
  }

  /** The `total` of `GetAlertStatistics`. */
  function TotalAlerts(events: seq<AlertEvent>): nat {
    CountByStatus(events, Open) + CountByStatus(events, Acknowledged) + CountByStatus(events, Resolved)
  }

  /** The three status counts partition the table, so the total is the
      number of events. */
  lemma {:induction false} TotalCountsEveryEvent(events: seq<AlertEvent>)
    ensures TotalAlerts(events) == |events|
    decreases |events|
  {
    if |events| > 0 {
      TotalCountsEveryEvent(events[1..]);
      var e := events[0];
      assert CountByStatus(events, Open) == (if e.status == Open then 1 else 0) + CountByStatus(events[1..], Open);
      assert CountByStatus(events, Acknowledged) == (if e.status == Acknowledged then 1 else 0) + CountByStatus(events[1..], Acknowledged);
      assert CountByStatus(events, Resolved) == (if e.status == Resolved then 1 else 0) + CountByStatus(events[1..], Resolved);
    }
  }
}

=== FILE: api.dfy ===
/** What the HTTP handlers of internal/api share: status codes, the
    `page`/`page_size` clamp with its offset, and the WHERE-clause builders
    that turn optional filters into SQL text and its argument list. */
module Api {
  import opened Wrappers
  import GoInt

  const STATUS_OK: int := 200
  const STATUS_NO_CONTENT: int := 204
  const STATUS_BAD_REQUEST: int := 400
  const STATUS_UNAUTHORIZED: int := 401
  const STATUS_FORBIDDEN: int := 403
  const STATUS_NOT_FOUND: int := 404
  const STATUS_INTERNAL_SERVER_ERROR: int := 500

  /** `c.DefaultQuery(key, def)`: a parameter present in the URL is used even
      when it is empty; only an absent one takes the default. */
  function DefaultQuery(param: Option<string>, def: string): string {
    match param
    case Some(s) => s
    case None => def
  }

  /** `strconv.Atoi(c.Param("id"))` where an error ends the request with 400. */
  function ParseId(param: string): (id: Option<int>)
    ensures id.Some? <==> GoInt.Atoi(param).Ok?
    ensures id.Some? ==> id.value == GoInt.Atoi(param).value && GoInt.IsInt64(id.value)
  {
    match GoInt.Atoi(param)
    case Ok(n) => Some(n)
    case Err(_) => None
  }

  /** Every 64-bit id printed into a path parameter parses back. */
  lemma ParseIdItoa(id: int)
    requires GoInt.IsInt64(id)
    ensures ParseId(GoInt.Itoa(id)) == Some(id)
  {
    GoInt.AtoiItoa(id);
  }

  // ---------------------------------------------------------------------------
  // Pagination

  /** The page, the page size and the row offset a list handler queries with. */
  datatype Paging = Paging(page: int, pageSize: int, offset: int)

  /** `page, _ := strconv.Atoi(...)` followed by `if page < 1 { page = 1 }`. */
  function ClampPage(requested: int): int {
    if requested < 1 then 1 else requested
  }

  /** `if pageSize < 1 || pageSize > maxSize { pageSize = fallback }`. */
  function ClampPageSize(requested: int, maxSize: int, fallback: int): int {
    if requested < 1 || requested > maxSize then fallback else requested
  }

  /** The pagination prologue of a list handler: both parameters go through
      `strconv.Atoi` with the error ignored, the page is raised to at least 1,
      a page size outside `[1, maxSize]` is replaced by `fallback` (which is
      also the parameter's default text), and the offset is the 64-bit product
      `(page - 1) * pageSize`. */
  function Paginate(pageParam: Option<string>, sizeParam: Option<string>, maxSize: int, fallback: int): (p: Paging)
    requires 1 <= fallback <= maxSize < GoInt.INT64_MAX
    ensures 1 <= p.page <= GoInt.INT64_MAX
    ensures 1 <= p.pageSize <= maxSize
    ensures var n := GoInt.Atoi(DefaultQuery(pageParam, "1"));
      && (n.Ok? && n.value >= 1 ==> p.page == n.value)
      && (n.Ok? && n.value < 1 ==> p.page == 1)
      && (n == Err(GoInt.ErrSyntax) || n == Err(GoInt.ErrRange(GoInt.INT64_MIN)) ==> p.page == 1)
      && (n == Err(GoInt.ErrRange(GoInt.INT64_MAX)) ==> p.page == GoInt.INT64_MAX)
    ensures var n := GoInt.Atoi(DefaultQuery(sizeParam, GoInt.Itoa(fallback)));
      && (n.Ok? && 1 <= n.value <= maxSize ==> p.pageSize == n.value)
      && (!(n.Ok? && 1 <= n.value <= maxSize) ==> p.pageSize == fallback)
    ensures p.offset == GoInt.Wrap64((p.page - 1) * p.pageSize)
  {
    var page := ClampPage(GoInt.AtoiIgnoringError(DefaultQuery(pageParam, "1")));
    var size := ClampPageSize(GoInt.AtoiIgnoringError(DefaultQuery(sizeParam, GoInt.Itoa(fallback))), maxSize, fallback);
    Paging(page, size, GoInt.Wrap64((page - 1) * size))
  }

  /** Without parameters a list handler shows the first page of `fallback` rows. */
  lemma PaginateDefaults(maxSize: int, fallback: int)
    requires 1 <= fallback <= maxSize < GoInt.INT64_MAX
    ensures Paginate(None, None, maxSize, fallback) == Paging(1, fallback, 0)
  {
    GoInt.AtoiItoa(1);
    assert GoInt.Itoa(1) == "1";
    GoInt.AtoiItoa(fallback);
    var p := Paginate(None, None, maxSize, fallback);
    assert p.page == 1 && p.pageSize == fallback;
    assert p.offset == GoInt.Wrap64(0 * fallback);
  }

  /** Printing the clamped values back into the URL reproduces the same paging:
      the clamp is idempotent. */
  lemma PaginateStable(pageParam: Option<string>, sizeParam: Option<string>, maxSize: int, fallback: int)
    requires 1 <= fallback <= maxSize < GoInt.INT64_MAX
    ensures var p := Paginate(pageParam, sizeParam, maxSize, fallback);
      Paginate(Some(GoInt.Itoa(p.page)), Some(GoInt.Itoa(p.pageSize)), maxSize, fallback) == p
  {
    var p := Paginate(pageParam, sizeParam, maxSize, fallback);
    PaginatePrinted(p.page, p.pageSize, maxSize, fallback);
  }

  /** A page and a page size already in range, printed as parameters, are
      taken as they are. */
  lemma PaginatePrinted(page: int, size: int, maxSize: int, fallback: int)
    requires 1 <= fallback <= maxSize < GoInt.INT64_MAX
    requires 1 <= page <= GoInt.INT64_MAX && 1 <= size <= maxSize
    ensures Paginate(Some(GoInt.Itoa(page)), Some(GoInt.Itoa(size)), maxSize, fallback)
      == Paging(page, size, GoInt.Wrap64((page - 1) * size))
  {
    GoInt.AtoiItoa(page);
    GoInt.AtoiItoa(size);
  }

  /** Whole pages: `a * b` is a multiple of `b` with quotient `a`. Proved on
      its own so that the nonlinear step stays outside `PaginateOffset`. */
  lemma WholePages(a: nat, b: int)
    requires b >= 1
    ensures 0 <= a * b && (a * b) % b == 0 && (a * b) / b == a
  {
  }

  /** Unless the product overflows, the offset is the number of rows on the
      pages before the requested one. */
  lemma PaginateOffset(pageParam: Option<string>, sizeParam: Option<string>, maxSize: int, fallback: int)
    requires 1 <= fallback <= maxSize < GoInt.INT64_MAX
    ensures var p := Paginate(pageParam, sizeParam, maxSize, fallback);
      (p.page - 1) * p.pageSize <= GoInt.INT64_MAX ==>
        && p.offset == (p.page - 1) * p.pageSize
        && p.offset % p.pageSize == 0
        && p.offset / p.pageSize == p.page - 1
  {
    var p := Paginate(pageParam, sizeParam, maxSize, fallback);
    var a: nat, b := p.page - 1, p.pageSize;
    WholePages(a, b);
  }

  /** The offset does overflow: a page parameter that parses to the largest
      64-bit integer wraps the offset of a ten-row page to -20. */
  lemma PaginateOffsetWraps(pageParam: Option<string>)
    requires GoInt.Atoi(DefaultQuery(pageParam, "1")) == Ok(GoInt.INT64_MAX)
    ensures Paginate(pageParam, None, 100, 10).offset == -20
  {
    var p := Paginate(pageParam, None, 100, 10);
    assert p.page == GoInt.INT64_MAX;
    assert p.pageSize == 10 by {
      GoInt.AtoiItoa(10);
    }
    assert (p.page - 1) * p.pageSize == 5 * GoInt.TWO_POW_64 - 20;
  }

  // ---------------------------------------------------------------------------
  // WHERE clauses

  /** A value bound to a `?` placeholder. */
  datatype SqlArg = Text(s: string) | Int(n: int) | Time(t: int)

  /** One condition of a WHERE clause and the value for its placeholder. */
  datatype Filter = Filter(condition: string, arg: SqlArg)

  /** The text a query is extended with and the arguments passed alongside. */
  datatype Query = Query(where: string, args: seq<SqlArg>)

  /** Conditions joined by " AND ", accumulated from the left. */
  function JoinAnd(conds: seq<string>): string
    requires |conds| > 0
    decreases |conds|
  {
    if |conds| == 1 then conds[0] else JoinAnd(conds[..|conds| - 1]) + " AND " + conds[|conds| - 1]
  }

  /** The empty string without conditions, otherwise " WHERE c0 AND c1 ...". */
  function WhereClause(conds: seq<string>): string {
    if |conds| == 0 then "" else " WHERE " + JoinAnd(conds)
  }

  /** Appending one condition adds " WHERE " before the first and " AND "
      before every later one; nothing already built changes. */
  lemma WhereSnoc(conds: seq<string>, c: string)
    ensures WhereClause(conds + [c]) == WhereClause(conds) + (if |conds| == 0 then " WHERE " else " AND ") + c
  {
    assert (conds + [c])[..|conds|] == conds;
  }

  /** The loop in `GetLogs`: the first condition after " WHERE ", each later one
      after " AND ". */
  method BuildWhere(conds: seq<string>) returns (clause: string)
    ensures clause == WhereClause(conds)
  {
    clause := "";
    if |conds| > 0 {
      clause := " WHERE " + conds[0];
      var i := 1;
      while i < |conds|
        invariant 1 <= i <= |conds|
        invariant clause == " WHERE " + JoinAnd(conds[..i])
      {
        assert conds[..i + 1][..i] == conds[..i];
        assert JoinAnd(conds[..i + 1]) == JoinAnd(conds[..i]) + " AND " + conds[i];
        clause := clause + " AND " + conds[i];
        i := i + 1;
      }
      assert conds[..|conds|] == conds;
    }
  }

  function Conditions(fs: seq<Filter>): (cs: seq<string>)
    ensures |cs| == |fs|
    ensures forall i :: 0 <= i < |fs| ==> cs[i] == fs[i].condition
  {
    seq(|fs|, i requires 0 <= i < |fs| => fs[i].condition)
  }

  function Args(fs: seq<Filter>): (args: seq<SqlArg>)
    ensures |args| == |fs|
    ensures forall i :: 0 <= i < |fs| ==> args[i] == fs[i].arg
  {
    seq(|fs|, i requires 0 <= i < |fs| => fs[i].arg)
  }

  /** The query for the filters in the order given. */
  function Where(fs: seq<Filter>): Query {
    Query(WhereClause(Conditions(fs)), Args(fs))
  }

  /** Appending a filter extends the clause and the arguments and changes
      nothing already built. */
  lemma WhereExtend(fs: seq<Filter>, f: Filter)
    ensures Where(fs + [f]) == Query(Where(fs).where + (if |fs| == 0 then " WHERE " else " AND ") + f.condition, Where(fs).args + [f.arg])
  {
    assert Conditions(fs + [f]) == Conditions(fs) + [f.condition];
    WhereSnoc(Conditions(fs), f.condition);
  }

  /** A filter on a query parameter, present iff the parameter is non-empty. */
  function TextFilter(condition: string, param: string): (fs: seq<Filter>)
    ensures param == "" <==> fs == []
    ensures fs != [] ==> fs == [Filter(condition, Text(param))]
  {
    if param == "" then [] else [Filter(condition, Text(param))]
  }

  // ---------------------------------------------------------------------------
  // The nested builders of the service and host lists

  /** Three optional text filters tested the way `GetServices` nests them: the
      first present one opens with " WHERE ", later ones follow with " AND ". */
  function NestedWhere3(c1: string, p1: string, c2: string, p2: string, c3: string, p3: string): Query {
    if p1 != "" then
      var (w1, a1) := (" WHERE " + c1, [Text(p1)]);
      var (w2, a2) := if p2 != "" then (w1 + " AND " + c2, a1 + [Text(p2)]) else (w1, a1);
      var (w3, a3) := if p3 != "" then (w2 + " AND " + c3, a2 + [Text(p3)]) else (w2, a2);
      Query(w3, a3)
    else if p2 != "" then
      var (w2, a2) := (" WHERE " + c2, [Text(p2)]);
      var (w3, a3) := if p3 != "" then (w2 + " AND " + c3, a2 + [Text(p3)]) else (w2, a2);
      Query(w3, a3)
    else if p3 != "" then
      Query(" WHERE " + c3, [Text(p3)])
    else
      Query("", [])
  }

  /** Two optional text filters tested the way `GetHosts` nests them. */
  function NestedWhere2(c1: string, p1: string, c2: string, p2: string): Query {
    if p1 != "" then
      var (w1, a1) := (" WHERE " + c1, [Text(p1)]);
      var (w2, a2) := if p2 != "" then (w1 + " AND " + c2, a1 + [Text(p2)]) else (w1, a1);
      Query(w2, a2)
    else if p2 != "" then
      Query(" WHERE " + c2, [Text(p2)])
    else
      Query("", [])
  }

  lemma WhereOne(f: Filter)
    ensures Where([f]) == Query(" WHERE " + f.condition, [f.arg])
  {
    WhereExtend([], f);
    assert [] + [f] == [f];
  }

  /** The nested tests of `GetServices` build the same text and arguments as
      joining the non-empty filters in order. */
  lemma NestedWhere3Canonical(c1: string, p1: string, c2: string, p2: string, c3: string, p3: string)
    ensures NestedWhere3(c1, p1, c2, p2, c3, p3) == Where(TextFilter(c1, p1) + TextFilter(c2, p2) + TextFilter(c3, p3))
  {
    var a, b, c := TextFilter(c1, p1), TextFilter(c2, p2), TextFilter(c3, p3);
    if p1 != "" {
      WhereOne(a[0]);
      var ab := a + b;
      if p2 != "" {
        WhereExtend(a, b[0]);
      } else {
        assert ab == a;
      }
      if p3 != "" {
        WhereExtend(ab, c[0]);
      } else {
        assert ab + c == ab;
      }
    } else if p2 != "" {
      WhereOne(b[0]);
      assert a + b == b;
      if p3 != "" {
        WhereExtend(b, c[0]);
      } else {
        assert b + c == b;
      }
    } else if p3 != "" {
      WhereOne(c[0]);
      assert a + b + c == c;
    } else {
      assert a + b + c == [];
    }
  }

  /** With one placeholder per condition, the nested builders emit exactly as
      many placeholders as arguments. */
  lemma NestedWhere3Placeholders(c1: string, p1: string, c2: string, p2: string, c3: string, p3: string)
    requires OnePlaceholder(c1) && OnePlaceholder(c2) && OnePlaceholder(c3)
    ensures var q := NestedWhere3(c1, p1, c2, p2, c3, p3);
      Placeholders(q.where) == |q.args|
  {
    NestedWhere3Canonical(c1, p1, c2, p2, c3, p3);
    var fs := TextFilter(c1, p1) + TextFilter(c2, p2) + TextFilter(c3, p3);
    forall i | 0 <= i < |fs|
      ensures OnePlaceholder(fs[i].condition)
    {
      assert fs[i].condition == c1 || fs[i].condition == c2 || fs[i].condition == c3;
    }
    WherePlaceholders(fs);
  }

  lemma NestedWhere2Placeholders(c1: string, p1: string, c2: string, p2: string)
    requires OnePlaceholder(c1) && OnePlaceholder(c2)
    ensures var q := NestedWhere2(c1, p1, c2, p2);
      Placeholders(q.where) == |q.args|
  {
    NestedWhere2Canonical(c1, p1, c2, p2);
    var fs := TextFilter(c1, p1) + TextFilter(c2, p2);
    forall i | 0 <= i < |fs|
      ensures OnePlaceholder(fs[i].condition)
    {
      assert fs[i].condition == c1 || fs[i].condition == c2;
    }
    WherePlaceholders(fs);
  }

  /** The same for the two filters of `GetHosts`. */
  lemma NestedWhere2Canonical(c1: string, p1: string, c2: string, p2: string)
    ensures NestedWhere2(c1, p1, c2, p2) == Where(TextFilter(c1, p1) + TextFilter(c2, p2))
  {
    var a, b := TextFilter(c1, p1), TextFilter(c2, p2);
    if p1 != "" {
      WhereOne(a[0]);
      if p2 != "" {
        WhereExtend(a, b[0]);
      }
    } else if p2 != "" {
      WhereOne(b[0]);
      assert a + b == b;
    }
  }

  // ---------------------------------------------------------------------------
  // Placeholders

  /** The number of `?` placeholders in a text. */
  function Placeholders(s: string): nat
    decreases |s|
  {
    if |s| == 0 then 0 else Placeholders(s[..|s| - 1]) + (if s[|s| - 1] == '?' then 1 else 0)
  }

  /** A condition with a single placeholder. */
  predicate OnePlaceholder(c: string) {
    Placeholders(c) == 1
  }

  lemma {:induction false} PlaceholdersConcat(a: string, b: string)
    ensures Placeholders(a + b) == Placeholders(a) + Placeholders(b)
    decreases |b|
  {
    if |b| == 0 {
      assert a + b == a;
    } else {
      assert (a + b)[..|a + b| - 1] == a + b[..|b| - 1];
      PlaceholdersConcat(a, b[..|b| - 1]);
    }
  }

  lemma {:induction false} NoPlaceholder(s: string)
    requires '?' !in s
    ensures Placeholders(s) == 0
    decreases |s|
  {
    if |s| > 0 {
      assert s[|s| - 1] in s;
      NoPlaceholder(s[..|s| - 1]);
    }
  }

  lemma {:induction false} JoinAndPlaceholders(conds: seq<string>)
    requires |conds| > 0
    requires forall i :: 0 <= i < |conds| ==> OnePlaceholder(conds[i])
    ensures Placeholders(JoinAnd(conds)) == |conds|
    decreases |conds|
  {
    if |conds| > 1 {
      var init := conds[..|conds| - 1];
      JoinAndPlaceholders(init);
      PlaceholdersConcat(JoinAnd(init), " AND ");
      PlaceholdersConcat(JoinAnd(init) + " AND ", conds[|conds| - 1]);
      NoPlaceholder(" AND ");
    }
  }

  /** When every condition carries one placeholder, the clause has exactly as
      many placeholders as the query has arguments. */
  lemma WherePlaceholders(fs: seq<Filter>)
    requires forall i :: 0 <= i < |fs| ==> OnePlaceholder(fs[i].condition)
    ensures Placeholders(Where(fs).where) == |Where(fs).args|
  {
    if |fs| > 0 {
      JoinAndPlaceholders(Conditions(fs));
      PlaceholdersConcat(" WHERE ", JoinAnd(Conditions(fs)));
      NoPlaceholder(" WHERE ");
    }
  }

  /** `<column> <op> ?`, the shape of every condition the handlers build. */
  function Condition(column: string, op: string): string {
    column + " " + op + " ?"
  }

  lemma ConditionPlaceholder(column: string, op: string)
    requires '?' !in column && '?' !in op
    ensures OnePlaceholder(Condition(column, op))
  {
    PlaceholdersConcat(column + " " + op, " ?");
    PlaceholdersConcat(column + " ", op);
    PlaceholdersConcat(column, " ");
    NoPlaceholder(column);
    NoPlaceholder(op);
    NoPlaceholder(" ");
    assert Placeholders(" ?") == 1 by {
      assert " ?"[..1] == " ";
    }
  }
}

=== FILE: cluster_handler.dfy ===
/** The cluster endpoints (internal/api/cluster_handler.go): creation, lookup
    with the host and service counts, update, and deletion guarded by the
    hosts still in the cluster. */
module ClusterHandler {
  import opened Wrappers
  import opened Store
  import Api
  import GoInt
  import Seqs

  datatype ClusterError = InvalidId | InvalidBody | ClusterNotFound | HasHosts

  function Code(e: ClusterError): int {
    match e
    case ClusterNotFound => Api.STATUS_NOT_FOUND
    case _ => Api.STATUS_BAD_REQUEST
  }

  /** `SELECT ... FROM cluster WHERE id = ?`: the first matching row. */
  function FindCluster(clusters: seq<Cluster>, id: int): (r: Option<Cluster>)
    ensures r.None? <==> forall i :: 0 <= i < |clusters| ==> clusters[i].id != id
    ensures r.Some? ==> r.value in clusters && r.value.id == id
    decreases |clusters|
  {
    if |clusters| == 0 then None
    else if clusters[0].id == id then Some(clusters[0])
    else FindCluster(clusters[1..], id)
  }

  /** `CreateCluster`: the cluster is inserted under the new id and echoed. */
  function CreateCluster(db: Db, body: Option<Cluster>, newId: int): (r: Result<(Db, Cluster), ClusterError>)
    ensures r.Err? <==> body.None?
    ensures r.Err? ==> r.error == InvalidBody
    ensures r.Ok? ==>
      var (db', created) := r.value;
      && created == body.value.(id := newId)
      && db' == db.(clusters := db.clusters + [created])
  {
    match body
    case None => Err(InvalidBody)
    case Some(c) =>
      var created := Cluster(newId, c.name, c.description);
      Ok((db.(clusters := db.clusters + [created]), created))
  }

  /** The response of `GetClusterById`. */
  datatype ClusterDetail = ClusterDetail(cluster: Cluster, hostCount: nat, serviceCount: nat)

  /** `GetClusterById`: 400 for an id that does not parse, 404 for an unknown
      cluster, otherwise the row and how many hosts and services it has. */
  function GetClusterById(db: Db, idParam: string): (r: Result<ClusterDetail, ClusterError>)
    ensures Api.ParseId(idParam).None? ==> r == Err(InvalidId)
    ensures r.Ok? <==> Api.ParseId(idParam).Some? && ClusterExists(db, Api.ParseId(idParam).value)
    ensures r.Err? && Api.ParseId(idParam).Some? ==> r.error == ClusterNotFound
    ensures r.Ok? ==>
      && r.value.cluster in db.clusters
      && r.value.cluster.id == Api.ParseId(idParam).value
      && (r.value.hostCount == 0 <==> forall i :: 0 <= i < |db.hosts| ==> db.hosts[i].clusterId != r.value.cluster.id)
      && (r.value.serviceCount == 0 <==> forall i :: 0 <= i < |db.services| ==> db.services[i].clusterId != r.value.cluster.id)
      && r.value.hostCount == |set i | 0 <= i < |db.hosts| && db.hosts[i].clusterId == r.value.cluster.id|
      && r.value.serviceCount == |set i | 0 <= i < |db.services| && db.services[i].clusterId == r.value.cluster.id|
  {
    match Api.ParseId(idParam)
    case None => Err(InvalidId)
    case Some(id) =>
      match FindCluster(db.clusters, id)
      case None => Err(ClusterNotFound)
      case Some(c) => Ok(ClusterDetail(c, HostsInCluster(db.hosts, id), ServicesInCluster(db.services, id)))
  }

  /** `UPDATE cluster SET name = ?, description = ? WHERE id = ?`. */
  function Rename(clusters: seq<Cluster>, id: int, name: string, description: string): (r: seq<Cluster>)
    ensures |r| == |clusters|
    ensures forall i :: 0 <= i < |clusters| ==>
      r[i] == if clusters[i].id == id then clusters[i].(name := name, description := description) else clusters[i]
  {
    seq(|clusters|, i requires 0 <= i < |clusters| =>
      if clusters[i].id == id then clusters[i].(name := name, description := description) else clusters[i])
  }

  /** `UpdateCluster`: id, then body, then existence; the name and description
      of the row are replaced. */
  function UpdateCluster(db: Db, idParam: string, body: Option<Cluster>): (r: Result<Db, ClusterError>)
    ensures Api.ParseId(idParam).None? ==> r == Err(InvalidId)
    ensures Api.ParseId(idParam).Some? && body.None? ==> r == Err(InvalidBody)
    ensures r.Ok? <==> Api.ParseId(idParam).Some? && body.Some? && ClusterExists(db, Api.ParseId(idParam).value)
    ensures r.Ok? ==>
      && r.value.clusters == Rename(db.clusters, Api.ParseId(idParam).value, body.value.name, body.value.description)
      && r.value.(clusters := db.clusters) == db
  {
    match Api.ParseId(idParam)
    case None => Err(InvalidId)
    case Some(id) =>
      match body
      case None => Err(InvalidBody)
      case Some(c) =>
        if !ClusterExists(db, id) then Err(ClusterNotFound)
        else Ok(db.(clusters := Rename(db.clusters, id, c.name, c.description)))
  }

  /** `DeleteCluster`: 404 for an unknown cluster, 400 while it still has
      hosts; the row is removed. Its services are left in place. */
  function DeleteCluster(db: Db, idParam: string): (r: Result<Db, ClusterError>)
    ensures Api.ParseId(idParam).None? ==> r == Err(InvalidId)
    ensures Api.ParseId(idParam).Some? && !ClusterExists(db, Api.ParseId(idParam).value) ==> r == Err(ClusterNotFound)
    ensures r.Ok? <==> (Api.ParseId(idParam).Some? && ClusterExists(db, Api.ParseId(idParam).value)
                        && forall i :: 0 <= i < |db.hosts| ==> db.hosts[i].clusterId != Api.ParseId(idParam).value)
    ensures r.Ok? ==>
      && (forall c :: c in r.value.clusters <==> c in db.clusters && c.id != Api.ParseId(idParam).value)
      && r.value.(clusters := db.clusters) == db
  {
    match Api.ParseId(idParam)
    case None => Err(InvalidId)
    case Some(id) =>
      if !ClusterExists(db, id) then Err(ClusterNotFound)
      else if HostsInCluster(db.hosts, id) > 0 then Err(HasHosts)
      else Ok(db.(clusters := Seqs.Filter(db.clusters, (c: Cluster) => c.id != id)))
  }

  /** A created cluster is found under its id with no hosts and no services,
      provided the id was unused. */
  lemma CreateThenGet(db: Db, body: Option<Cluster>, newId: int)
    requires body.Some? && GoInt.IsInt64(newId)
    requires forall i :: 0 <= i < |db.clusters| ==> db.clusters[i].id != newId
    requires forall i :: 0 <= i < |db.hosts| ==> db.hosts[i].clusterId != newId
    requires forall i :: 0 <= i < |db.services| ==> db.services[i].clusterId != newId
    ensures var (db', created) := CreateCluster(db, body, newId).value;
      GetClusterById(db', GoInt.Itoa(newId)) == Ok(ClusterDetail(created, 0, 0))
  {
    var (db', created) := CreateCluster(db, body, newId).value;
    Api.ParseIdItoa(newId);
    assert db'.clusters[|db.clusters|] == created;
    assert FindCluster(db'.clusters, newId) == Some(created) by {
      FindClusterSnoc(db.clusters, created);
    }
  }

  lemma {:induction false} FindClusterSnoc(clusters: seq<Cluster>, c: Cluster)
    requires forall i :: 0 <= i < |clusters| ==> clusters[i].id != c.id
    ensures FindCluster(clusters + [c], c.id) == Some(c)
    decreases |clusters|
  {
    if |clusters| == 0 {
    } else {
      assert (clusters + [c])[1..] == clusters[1..] + [c];
      FindClusterSnoc(clusters[1..], c);
    }
  }

  /** After an update the cluster reads back with the new name and
      description. */
  lemma UpdateThenGet(db: Db, idParam: string, body: Option<Cluster>)
    requires UpdateCluster(db, idParam, body).Ok?
    ensures var got := GetClusterById(UpdateCluster(db, idParam, body).value, idParam);
      got.Ok? && got.value.cluster.name == body.value.name && got.value.cluster.description == body.value.description
  {
    var id := Api.ParseId(idParam).value;
    var db' := UpdateCluster(db, idParam, body).value;
    var i :| 0 <= i < |db.clusters| && db.clusters[i].id == id;
    assert db'.clusters[i].id == id;
    var c := GetClusterById(db', idParam).value.cluster;
    var j :| 0 <= j < |db'.clusters| && db'.clusters[j] == c;
  }

  /** A deleted cluster is no longer found. */
  lemma DeleteThenGet(db: Db, idParam: string)
    requires DeleteCluster(db, idParam).Ok?
    ensures GetClusterById(DeleteCluster(db, idParam).value, idParam) == Err(ClusterNotFound)
  {
    var db' := DeleteCluster(db, idParam).value;
    var id := Api.ParseId(idParam).value;
    forall i | 0 <= i < |db'.clusters|
      ensures db'.clusters[i].id != id
    {
      assert db'.clusters[i] in db'.clusters;
    }
  }
}

=== FILE: deploy.dfy ===
/** The deployment registry (internal/deploy/deploy.go): a component catalogue,
    per-host append-only lists of deployment records, and two FIFO queues, one
    for commands to agents and one for agents' responses. The service is
    modelled as an immutable `Registry` and each operation as a function from
    registry to registry. Clock reads are parameters; the asynchronous send and
    the delayed install confirmation become an immediate enqueue and a separate
    `HandleInstallResult` step. */
module Deploy {
  import opened Wrappers
  import opened GoInt
  import opened Protocol
  import Seqs
  import Maps

  datatype Component = Component(
    id: int,
    name: string,
    version: string,
    description: string,
    packageUrl: string,
    installPath: string)

  /** The four statuses a record's type admits; only two are ever written. */
  datatype DeployStatus = Pending | Installing | Installed | Failed

  /** `endTime` is `None` while Go's zero `time.Time` is stored. */
  datatype Deployment = Deployment(
    id: string,
    hostId: int,
    componentId: int,
    status: DeployStatus,
    startTime: int,
    endTime: Option<int>,
    errorMsg: string)

  datatype DeployError = ComponentNotFound

  datatype Registry = Registry(
    components: map<int, Component>,
    deployments: map<int, seq<Deployment>>,
    commands: seq<AgentCommand>,
    results: seq<AgentCommandResponse>)

  /** The registry after an operation, with the ID or error it returned. */
  datatype Outcome = Outcome(registry: Registry, result: Result<string, DeployError>)

  // ---------------------------------------------------------------------------
  // Invariant

  /** What every record the service writes looks like: filed under its own
      host, `PENDING` or `INSTALLED`, with an end time exactly when installed. */
  predicate RecordValid(d: Deployment, hostId: int) {
    && d.hostId == hostId
    && (d.status == Pending || d.status == Installed)
    && (d.endTime.Some? <==> d.status == Installed)
  }

  predicate Valid(r: Registry) {
    && (forall id :: id in r.components ==> r.components[id].id == id)
    && (forall h, i :: h in r.deployments && 0 <= i < |r.deployments[h]| ==>
          RecordValid(r.deployments[h][i], h))
  }

  // ---------------------------------------------------------------------------
  // Components

  function NewDeployService(): (r: Registry)
    ensures Valid(r)
    ensures forall id :: GetComponent(r, id) == Err(ComponentNotFound)
    ensures forall h :: GetDeployments(r, h) == []
    ensures r.commands == [] && r.results == []
  {
    Registry(map[], map[], [], [])
  }

  /** Lookup by ID; fails exactly for IDs never registered. */
  function GetComponent(r: Registry, id: int): (res: Result<Component, DeployError>)
    ensures res.Err? <==> id !in r.components
    ensures res.Err? ==> res.error == ComponentNotFound
  {
    if id in r.components then Ok(r.components[id]) else Err(ComponentNotFound)
  }

  /** Upsert keyed by the component's own ID. */
  function RegisterComponent(r: Registry, c: Component): (r': Registry)
    ensures GetComponent(r', c.id) == Ok(c)
    ensures forall id :: id != c.id ==> GetComponent(r', id) == GetComponent(r, id)
    ensures r'.deployments == r.deployments && r'.commands == r.commands && r'.results == r.results
  {
    r.(components := r.components[c.id := c])
  }

  /** Every registered component once, in the map's iteration order. */
  method GetAllComponents(r: Registry) returns (all: seq<Component>)
    ensures |all| == |r.components|
    ensures forall i :: 0 <= i < |all| ==> all[i] in r.components.Values
    ensures forall id :: id in r.components ==> r.components[id] in all
  {
    var ks := Maps.KeyOrder(r.components);
    all := [];
    var k := 0;
    while k < |ks|
      invariant 0 <= k <= |ks|
      invariant |all| == k
      invariant forall i :: 0 <= i < k ==> all[i] == r.components[ks[i]]
    {
      all := all + [r.components[ks[k]]];
      k := k + 1;
    }
    forall i | 0 <= i < |all|
      ensures all[i] in r.components.Values
    {
      assert ks[i] in r.components;
    }
    forall id | id in r.components
      ensures r.components[id] in all
    {
      var i :| 0 <= i < |ks| && ks[i] == id;
      assert all[i] == r.components[id];
    }
  }

  // ---------------------------------------------------------------------------
  // Deployments

  /** A host's records; a host never deployed to has none. */
  function GetDeployments(r: Registry, hostId: int): (ds: seq<Deployment>)
    ensures hostId !in r.deployments ==> ds == []
    ensures hostId in r.deployments ==> ds == r.deployments[hostId]
  {
    if hostId in r.deployments then r.deployments[hostId] else []
  }

  /** `<prefix>_<host>_<component>_<unix seconds>`, in decimal. */
  function CommandId(prefix: string, hostId: int, componentId: int, unixSec: int): string {
    prefix + "_" + IdFields(hostId, componentId, unixSec)
  }

  function IdFields(hostId: int, componentId: int, unixSec: int): string {
    Itoa(hostId) + "_" + Itoa(componentId) + "_" + Itoa(unixSec)
  }

  function InstallCommand(deploymentId: string, c: Component): AgentCommand {
    AgentCommand(deploymentId, INSTALL,
      map["component_id" := Number(c.id), "package_url" := Text(c.packageUrl)])
  }

  /** Deploys a registered component to a host: one new `PENDING` record for
      that host, one `INSTALL` command carrying the record's ID. */
  function Deploy(r: Registry, hostId: int, componentId: int, now: int): (o: Outcome)
    ensures o.result.Err? <==> componentId !in r.components
    ensures o.result.Err? ==> o.registry == r && o.result.error == ComponentNotFound
    ensures o.result.Ok? ==>
      var id := o.result.value;
      && id == CommandId("deploy", hostId, componentId, now)
      && GetDeployments(o.registry, hostId) ==
           GetDeployments(r, hostId) + [Deployment(id, hostId, componentId, Pending, now, None, "")]
      && (forall h :: h != hostId ==> GetDeployments(o.registry, h) == GetDeployments(r, h))
      && o.registry.commands == r.commands + [InstallCommand(id, r.components[componentId])]
      && o.registry.components == r.components
      && o.registry.results == r.results
  {
    match GetComponent(r, componentId)
    case Err(e) => Outcome(r, Err(e))
    case Ok(c) =>
      var id := CommandId("deploy", hostId, componentId, now);
      var record := Deployment(id, hostId, componentId, Pending, now, None, "");
      var r' := r.(deployments := r.deployments[hostId := GetDeployments(r, hostId) + [record]],
                   commands := r.commands + [InstallCommand(id, c)]);
      Outcome(r', Ok(id))
  }

  /** Position of the first record with the given ID, or `|ds|` if none. */
  function FirstIndexOf(ds: seq<Deployment>, id: string): (i: nat)
    ensures i <= |ds|
    ensures i < |ds| ==> ds[i].id == id
    ensures forall j :: 0 <= j < i ==> ds[j].id != id
  {
    Seqs.FirstIndex(ds, (d: Deployment) => d.id == id)
  }

  /** A record after a status change; the end time is stamped only for the
      two final statuses and otherwise kept. */
  function WithStatus(d: Deployment, status: DeployStatus, now: int): Deployment {
    d.(status := status, endTime := if status == Installed || status == Failed then Some(now) else d.endTime)
  }

  /** The loop that stops at the first record with a matching ID. */
  function UpdateFirst(ds: seq<Deployment>, id: string, status: DeployStatus, now: int): (ds': seq<Deployment>)
    ensures |ds'| == |ds|
    ensures forall j :: 0 <= j < |ds| && j != FirstIndexOf(ds, id) ==> ds'[j] == ds[j]
    ensures FirstIndexOf(ds, id) < |ds| ==>
      ds'[FirstIndexOf(ds, id)] == WithStatus(ds[FirstIndexOf(ds, id)], status, now)
  {
    if |ds| == 0 then []
    else if ds[0].id == id then [WithStatus(ds[0], status, now)] + ds[1..]
    else [ds[0]] + UpdateFirst(ds[1..], id, status, now)
  }

  /** Sets the status of the host's first record with that ID; changes nothing
      when no record matches, and never creates the host's list. */
  function UpdateDeploymentStatus(r: Registry, deploymentId: string, hostId: int, status: DeployStatus, now: int): (r': Registry)
    ensures r'.components == r.components && r'.commands == r.commands && r'.results == r.results
    ensures forall h :: h != hostId ==> GetDeployments(r', h) == GetDeployments(r, h)
    ensures r'.deployments.Keys == r.deployments.Keys
    ensures
      var ds := GetDeployments(r, hostId);
      var ds' := GetDeployments(r', hostId);
      var i := FirstIndexOf(ds, deploymentId);
      && |ds'| == |ds|
      && (forall j :: 0 <= j < |ds| && j != i ==> ds'[j] == ds[j])
      && (i < |ds| ==> ds'[i].status == status && ds'[i].id == deploymentId)
      && (i < |ds| ==> (ds'[i].endTime == if status in {Installed, Failed} then Some(now) else ds[i].endTime))
      && (i < |ds| ==> ds'[i] == ds[i].(status := ds'[i].status, endTime := ds'[i].endTime))
    ensures (forall j :: 0 <= j < |GetDeployments(r, hostId)| ==> GetDeployments(r, hostId)[j].id != deploymentId) ==> r' == r
  {
    if hostId in r.deployments then
      var ds := r.deployments[hostId];
      var ds' := UpdateFirst(ds, deploymentId, status, now);
      assert FirstIndexOf(ds, deploymentId) == |ds| ==> ds' == ds;
      r.(deployments := r.deployments[hostId := ds'])
    else r
  }

  /** The delayed confirmation `Deploy` schedules: it always reports success. */
  function HandleInstallResult(r: Registry, deploymentId: string, hostId: int, now: int): (r': Registry)
    ensures r'.components == r.components && r'.commands == r.commands && r'.results == r.results
    ensures
      var ds := GetDeployments(r, hostId);
      var i := FirstIndexOf(ds, deploymentId);
      && |GetDeployments(r', hostId)| == |ds|
      && (i < |ds| ==> GetDeployments(r', hostId)[i].status == Installed && GetDeployments(r', hostId)[i].endTime == Some(now))
      && (i < |ds| ==> GetDeployments(r', hostId)[i] == ds[i].(status := Installed, endTime := Some(now)))
      && (forall j :: 0 <= j < |ds| && j != i ==> GetDeployments(r', hostId)[j] == ds[j])
    ensures forall h :: h != hostId ==> GetDeployments(r', h) == GetDeployments(r, h)
    ensures r'.deployments.Keys == r.deployments.Keys
    ensures (forall j :: 0 <= j < |GetDeployments(r, hostId)| ==> GetDeployments(r, hostId)[j].id != deploymentId) ==> r' == r
  {
    UpdateDeploymentStatus(r, deploymentId, hostId, Installed, now)
  }

  // ---------------------------------------------------------------------------
  // Commands without records

  /** Enqueues one command and touches nothing else; never fails. */
  function SendCommand(r: Registry, prefix: string, kind: string, hostId: int, componentId: int, extra: Payload, now: int): (o: Outcome)
    ensures o.result == Ok(CommandId(prefix, hostId, componentId, now))
    ensures o.registry.commands ==
      r.commands + [AgentCommand(o.result.value, kind, extra["component_id" := Number(componentId)])]
    ensures o.registry.components == r.components && o.registry.deployments == r.deployments
    ensures o.registry.results == r.results
  {
    var id := CommandId(prefix, hostId, componentId, now);
    Outcome(r.(commands := r.commands + [AgentCommand(id, kind, extra["component_id" := Number(componentId)])]), Ok(id))
  }

  function StartComponent(r: Registry, hostId: int, componentId: int, now: int): (o: Outcome)
    ensures o.result == Ok(CommandId("start", hostId, componentId, now))
    ensures o.registry == r.(commands := r.commands + [AgentCommand(o.result.value, START, map["component_id" := Number(componentId)])])
  {
    SendCommand(r, "start", START, hostId, componentId, map[], now)
  }

  function StopComponent(r: Registry, hostId: int, componentId: int, now: int): (o: Outcome)
    ensures o.result == Ok(CommandId("stop", hostId, componentId, now))
    ensures o.registry == r.(commands := r.commands + [AgentCommand(o.result.value, STOP, map["component_id" := Number(componentId)])])
  {
    SendCommand(r, "stop", STOP, hostId, componentId, map[], now)
  }

  function ConfigureComponent(r: Registry, hostId: int, componentId: int, config: map<string, string>, now: int): (o: Outcome)
    ensures o.result == Ok(CommandId("config", hostId, componentId, now))
    ensures o.registry == r.(commands := r.commands +
      [AgentCommand(o.result.value, CONFIGURE, map["component_id" := Number(componentId), "config" := Settings(config)])])
  {
    var payload := map["config" := Settings(config)];
    assert payload["component_id" := Number(componentId)] == map["component_id" := Number(componentId), "config" := Settings(config)];
    SendCommand(r, "config", CONFIGURE, hostId, componentId, payload, now)
  }

  // ---------------------------------------------------------------------------
  // Responses

  /** The branch `ProcessCommandResult` takes on a response's command ID. */
  datatype ResultBranch = TooShort | DeployResult | StartResult | StopResult | ConfigResult | OtherPrefix

  /** IDs longer than 7 bytes are classified by their first 6 bytes. */
  function BranchOf(commandId: string): (b: ResultBranch)
    ensures b != StopResult
    ensures b == TooShort <==> |commandId| <= 7
  {
    if |commandId| > 7 then
      var prefix := commandId[..6];
      if prefix == "deploy" then DeployResult
      else if prefix == "start_" then StartResult
      else if prefix == "stop_" then StopResult
      else if prefix == "config" then ConfigResult
      else OtherPrefix
    else TooShort
  }

  /** Forwards the response to the result queue; every branch is empty, so
      nothing else changes. */
  function ProcessCommandResult(r: Registry, resp: AgentCommandResponse): (r': Registry)
    ensures r'.results == r.results + [resp]
    ensures r'.components == r.components && r'.deployments == r.deployments && r'.commands == r.commands
  {
    r.(results := r.results + [resp])
  }

  // ---------------------------------------------------------------------------
  // Whole-service properties

  datatype Op =
    | RegisterOp(c: Component)
    | DeployOp(hostId: int, componentId: int, now: int)
    | InstallDoneOp(deploymentId: string, hostId: int, now: int)
    | StartOp(hostId: int, componentId: int, now: int)
    | StopOp(hostId: int, componentId: int, now: int)
    | ConfigureOp(hostId: int, componentId: int, config: map<string, string>, now: int)
    | ResultOp(resp: AgentCommandResponse)

  /** Every state change the service can make. */
  function Apply(r: Registry, op: Op): Registry {
    match op
    case RegisterOp(c) => RegisterComponent(r, c)
    case DeployOp(h, c, now) => Deploy(r, h, c, now).registry
    case InstallDoneOp(id, h, now) => HandleInstallResult(r, id, h, now)
    case StartOp(h, c, now) => StartComponent(r, h, c, now).registry
    case StopOp(h, c, now) => StopComponent(r, h, c, now).registry
    case ConfigureOp(h, c, config, now) => ConfigureComponent(r, h, c, config, now).registry
    case ResultOp(resp) => ProcessCommandResult(r, resp)
  }

  function Run(r: Registry, ops: seq<Op>): Registry
    decreases |ops|
  {
    if |ops| == 0 then r else Run(Apply(r, ops[0]), ops[1..])
  }

  function Rank(s: DeployStatus): nat {
    match s
    case Pending => 0
    case Installing => 1
    case Installed => 2
    case Failed => 2
  }

  /** `r'` extends `r`: no host list shrinks, every existing record keeps its
      identity and start time, and no status moves backwards. */
  predicate Extends(r: Registry, r': Registry) {
    forall h :: h in r.deployments ==>
      && h in r'.deployments
      && |r.deployments[h]| <= |r'.deployments[h]|
      && forall i :: 0 <= i < |r.deployments[h]| ==> SameRecord(r.deployments[h][i], r'.deployments[h][i])
  }

  /** A record keeps its identity and does not move back in its life cycle. */
  predicate SameRecord(d: Deployment, d': Deployment) {
    && d'.id == d.id && d'.hostId == d.hostId && d'.componentId == d.componentId
    && d'.startTime == d.startTime
    && Rank(d.status) <= Rank(d'.status)
  }

  /** Every operation keeps the records well formed: `INSTALLING` and `FAILED`
      are never written, and only installed records carry an end time. */
  lemma ApplyValid(r: Registry, op: Op)
    requires Valid(r)
    ensures Valid(Apply(r, op))
    ensures Extends(r, Apply(r, op))
  {
    match op
    case InstallDoneOp(id, h, now) => InstallDoneValid(r, id, h, now);
    case DeployOp(h, c, now) => DeployValid(r, h, c, now);
    case _ =>
  }

  lemma InstallDoneValid(r: Registry, id: string, h: int, now: int)
    requires Valid(r)
    ensures Valid(HandleInstallResult(r, id, h, now))
    ensures Extends(r, HandleInstallResult(r, id, h, now))
  {
    var r' := HandleInstallResult(r, id, h, now);
    forall h2 | h2 in r.deployments
      ensures RecordsStep(r.deployments[h2], r'.deployments[h2], h2)
    {
      var ds, ds' := GetDeployments(r, h2), GetDeployments(r', h2);
      assert ds == r.deployments[h2] && ds' == r'.deployments[h2];
      if h2 == h {
        var k := FirstIndexOf(ds, id);
        forall i | 0 <= i < |ds'|
          ensures RecordValid(ds'[i], h2) && SameRecord(ds[i], ds'[i])
        {
          assert RecordValid(ds[i], h2);
        }
      } else {
        forall i | 0 <= i < |ds'|
          ensures RecordValid(ds'[i], h2) && SameRecord(ds[i], ds'[i])
        {
          assert RecordValid(ds[i], h2);
        }
      }
    }
  }

  /** One host's records after a status update: as many, all valid, each the
      same record as before. */
  predicate RecordsStep(ds: seq<Deployment>, ds': seq<Deployment>, h: int) {
    && |ds| == |ds'|
    && forall i :: 0 <= i < |ds'| ==> RecordValid(ds'[i], h) && SameRecord(ds[i], ds'[i])
  }

  lemma DeployValid(r: Registry, h: int, c: int, now: int)
    requires Valid(r)
    ensures Valid(Deploy(r, h, c, now).registry)
    ensures Extends(r, Deploy(r, h, c, now).registry)
  {
    var r' := Deploy(r, h, c, now).registry;
    forall h2, i | h2 in r'.deployments && 0 <= i < |r'.deployments[h2]|
      ensures RecordValid(r'.deployments[h2][i], h2)
    {
      assert GetDeployments(r', h2) == r'.deployments[h2];
      if h2 != h || c !in r.components {
        assert GetDeployments(r, h2) == r.deployments[h2];
      }
    }
    forall h2 | h2 in r.deployments
      ensures h2 in r'.deployments && |r.deployments[h2]| <= |r'.deployments[h2]|
    {
      assert GetDeployments(r, h2) == r.deployments[h2];
    }
  }

  /** From an empty service, any sequence of operations leaves only `PENDING`
      and `INSTALLED` records, each filed under its own host. */
  lemma {:induction false} RunValid(r: Registry, ops: seq<Op>)
    requires Valid(r)
    ensures Valid(Run(r, ops))
    decreases |ops|
  {
    if |ops| > 0 {
      ApplyValid(r, ops[0]);
      RunValid(Apply(r, ops[0]), ops[1..]);
    }
  }

  /** Two IDs built from the same prefix agree exactly when host, component
      and second agree: two deploys of one component to one host within one
      second share an ID. */
  lemma CommandIdInjective(prefix: string, h: int, c: int, t: int, h': int, c': int, t': int)
    requires '_' !in prefix
    requires IsInt64(h) && IsInt64(c) && IsInt64(t) && IsInt64(h') && IsInt64(c') && IsInt64(t')
    ensures CommandId(prefix, h, c, t) == CommandId(prefix, h', c', t') <==> h == h' && c == c' && t == t'
  {
    CommandIdSplits(prefix, h, c, t);
    CommandIdSplits(prefix, h', c', t');
    ItoaInjective(h, h');
    ItoaInjective(c, c');
    ItoaInjective(t, t');
  }

  lemma CommandIdSplits(prefix: string, h: int, c: int, t: int)
    requires '_' !in prefix
    ensures Seqs.Split(CommandId(prefix, h, c, t), '_') == [prefix, Itoa(h), Itoa(c), Itoa(t)]
  {
    ItoaAvoids(h, '_');
    ItoaAvoids(c, '_');
    ItoaAvoids(t, '_');
    SplitFour(prefix, Itoa(h), Itoa(c), Itoa(t));
  }

  lemma SplitFour(p: string, a: string, b: string, d: string)
    requires '_' !in p && '_' !in a && '_' !in b && '_' !in d
    ensures Seqs.Split(p + "_" + (a + "_" + b + "_" + d), '_') == [p, a, b, d]
  {
    RegroupFields(a, b, d);
    SplitThree(a, b, d);
    Seqs.SplitCons(p, '_', a + "_" + (b + "_" + d));
    assert [p] + [a, b, d] == [p, a, b, d];
  }

  lemma RegroupFields(a: string, b: string, d: string)
    ensures a + "_" + b + "_" + d == a + "_" + (b + "_" + d)
  {
  }

  lemma SplitThree(a: string, b: string, d: string)
    requires '_' !in a && '_' !in b && '_' !in d
    ensures Seqs.Split(a + "_" + (b + "_" + d), '_') == [a, b, d]
  {
    Seqs.SplitNoSep(d, '_');
    Seqs.SplitCons(b, '_', d);
    assert [b] + [d] == [b, d];
    Seqs.SplitCons(a, '_', b + "_" + d);
    assert [a] + [b, d] == [a, b, d];
  }

  /** The classifier recognises the IDs the service itself issues, except
      stop IDs: their 6-byte prefix is `stop_` plus a digit or minus sign. */
  lemma IssuedIdsClassify(h: int, c: int, t: int)
    ensures BranchOf(CommandId("deploy", h, c, t)) == DeployResult
    ensures BranchOf(CommandId("start", h, c, t)) == StartResult
    ensures BranchOf(CommandId("config", h, c, t)) == ConfigResult
    ensures BranchOf(CommandId("stop", h, c, t)) == OtherPrefix
  {
    var rest := IdFields(h, c, t);
    assert |rest| >= 5;
    PrefixClassify("deploy", rest);
    PrefixClassify("start", rest);
    PrefixClassify("config", rest);
    PrefixClassify("stop", rest);
  }

  lemma PrefixClassify(prefix: string, rest: string)
    requires |rest| >= 5
    requires prefix in {"deploy", "start", "config", "stop"}
    ensures BranchOf(prefix + "_" + rest) ==
      match prefix
      case "deploy" => DeployResult
      case "start" => StartResult
      case "config" => ConfigResult
      case _ => OtherPrefix
  {
    var id := prefix + "_" + rest;
    assert |id| > 7;
    if prefix == "stop" {
      assert id[..6] == "stop_" + [rest[0]];
      assert id[..6][0] == 's' && id[..6][2] == 'o';
    } else if prefix == "start" {
      assert id[..6] == "start_";
    } else {
      assert id[..6] == prefix;
    }
  }

  /** Two deploys of the same component to the same host in the same second
      produce two `PENDING` records with one ID; both confirmations then hit
      the first record, and the second stays `PENDING`. */
  lemma SameSecondRedeployStaysPending(c: Component, h: int, now: int)
    requires IsInt64(h) && IsInt64(c.id) && IsInt64(now)
    ensures
      var r0 := RegisterComponent(NewDeployService(), c);
      var o1 := Deploy(r0, h, c.id, now);
      var o2 := Deploy(o1.registry, h, c.id, now);
      var r3 := HandleInstallResult(HandleInstallResult(o2.registry, o1.result.value, h, now), o2.result.value, h, now);
      && o1.result == o2.result
      && |GetDeployments(r3, h)| == 2
      && GetDeployments(r3, h)[0].status == Installed
      && GetDeployments(r3, h)[1].status == Pending
  {
  }
}

=== FILE: deploy_handler.dfy ===
/** The deployment endpoints (internal/api/deploy_handler.go) in front of the
    deployment registry: request validation and the mapping of the
    registry's results to HTTP statuses. A refused request leaves the
    registry as it was. */
module DeployHandler {
  import opened Wrappers
  import Deploy
  import Protocol
  import Api
  import GoInt

  // ---------------------------------------------------------------------------
  // Registration

  /** Why `RegisterComponent` refuses a component; each is a 400. */
  datatype RegisterError = InvalidBody | EmptyName | EmptyVersion | EmptyPackageUrl

  /** `RegisterComponent`: name, then version, then package URL must be
      non-empty; a valid component is upserted and echoed. */
  function RegisterComponent(r: Deploy.Registry, body: Option<Deploy.Component>): (res: Result<(Deploy.Registry, Deploy.Component), RegisterError>)
    ensures body.None? ==> res == Err(InvalidBody)
    ensures body.Some? && body.value.name == "" ==> res == Err(EmptyName)
    ensures body.Some? && body.value.name != "" && body.value.version == "" ==> res == Err(EmptyVersion)
    ensures (body.Some? && body.value.name != "" && body.value.version != "" && body.value.packageUrl == "")
            ==> res == Err(EmptyPackageUrl)
    ensures res.Ok? <==> body.Some? && body.value.name != "" && body.value.version != "" && body.value.packageUrl != ""
    ensures res.Ok? ==>
      var (r', echoed) := res.value;
      && echoed == body.value
      && Deploy.GetComponent(r', echoed.id) == Ok(echoed)
      && (forall id :: id != echoed.id ==> Deploy.GetComponent(r', id) == Deploy.GetComponent(r, id))
      && r'.deployments == r.deployments && r'.commands == r.commands
  {
    match body
    case None => Err(InvalidBody)
    case Some(c) =>
      if c.name == "" then Err(EmptyName)
      else if c.version == "" then Err(EmptyVersion)
      else if c.packageUrl == "" then Err(EmptyPackageUrl)
      else Ok((Deploy.RegisterComponent(r, c), c))
  }

  // ---------------------------------------------------------------------------
  // Commands

  /** The `host_id`/`component_id` body shared by the deploy, start, stop and
      configure requests; both are `binding:"required"`, so zero is refused. */
  datatype Target = Target(hostId: int, componentId: int)

  predicate Bound(body: Option<Target>) {
    body.Some? && body.value.hostId != 0 && body.value.componentId != 0
  }

  /** The status of a registry error: a missing component is 404; the
      registry has no other error, which would be 500. */
  function DeployErrorCode(e: Deploy.DeployError): int {
    match e
    case ComponentNotFound => Api.STATUS_NOT_FOUND
  }

  /** `DeployComponent`: 400 for a body that does not bind, the registry's
      error as a status, or the id of the new deployment. */
  function DeployComponent(r: Deploy.Registry, body: Option<Target>, now: int): (res: (Deploy.Registry, Result<string, int>))
    ensures !Bound(body) ==> res == (r, Err(Api.STATUS_BAD_REQUEST))
    ensures Bound(body) && body.value.componentId !in r.components ==> res == (r, Err(Api.STATUS_NOT_FOUND))
    ensures res.1.Ok? <==> Bound(body) && body.value.componentId in r.components
    ensures res.1.Ok? ==>
      var (r', id) := (res.0, res.1.value);
      var ds := Deploy.GetDeployments(r', body.value.hostId);
      && |ds| > 0 && ds[|ds| - 1].id == id && ds[|ds| - 1].status == Deploy.Pending
      && ds[|ds| - 1].componentId == body.value.componentId
      && |r'.commands| > 0 && r'.commands[|r'.commands| - 1].commandId == id
      && r'.commands[|r'.commands| - 1].kind == Protocol.INSTALL
  {
    if !Bound(body) then (r, Err(Api.STATUS_BAD_REQUEST))
    else
      var o := Deploy.Deploy(r, body.value.hostId, body.value.componentId, now);
      match o.result
      case Err(e) => (o.registry, Err(DeployErrorCode(e)))
      case Ok(id) => (o.registry, Ok(id))
  }

  /** `GetDeployments`: `host_id` defaults to 0; one that does not parse is a
      400; otherwise the host's records. */
  function GetDeployments(r: Deploy.Registry, hostParam: Option<string>): (res: Result<seq<Deploy.Deployment>, int>)
    ensures res.Err? <==> GoInt.Atoi(Api.DefaultQuery(hostParam, "0")).Err?
    ensures res.Err? ==> res.error == Api.STATUS_BAD_REQUEST
    ensures res.Ok? ==> res.value == Deploy.GetDeployments(r, GoInt.Atoi(Api.DefaultQuery(hostParam, "0")).value)
  {
    match GoInt.Atoi(Api.DefaultQuery(hostParam, "0"))
    case Err(_) => Err(Api.STATUS_BAD_REQUEST)
    case Ok(hostId) => Ok(Deploy.GetDeployments(r, hostId))
  }

  /** Without a `host_id` the listing is host 0's, which no agent uses. */
  lemma GetDeploymentsDefault(r: Deploy.Registry)
    ensures GetDeployments(r, None) == Ok(Deploy.GetDeployments(r, 0))
  {
    GoInt.AtoiItoa(0);
  }

  /** The three command requests: which registry operation they call. */
  datatype CommandKind = StartCmd | StopCmd | ConfigureCmd

  function Send(r: Deploy.Registry, kind: CommandKind, t: Target, config: map<string, string>, now: int): Deploy.Outcome {
    match kind
    case StartCmd => Deploy.StartComponent(r, t.hostId, t.componentId, now)
    case StopCmd => Deploy.StopComponent(r, t.hostId, t.componentId, now)
    case ConfigureCmd => Deploy.ConfigureComponent(r, t.hostId, t.componentId, config, now)
  }

  function Prefix(kind: CommandKind): string {
    match kind
    case StartCmd => "start"
    case StopCmd => "stop"
    case ConfigureCmd => "config"
  }

  /** `StartComponent`, `StopComponent` and `ConfigureComponent`: 400 for a
      body that does not bind (the configuration is required too for
      `ConfigureComponent`); otherwise the command is queued and its id is
      returned unchanged. The registry never fails these calls, so the 500
      branch cannot be taken. */
  function CommandRequest(r: Deploy.Registry, kind: CommandKind, body: Option<Target>, config: Option<map<string, string>>, now: int)
    : (res: (Deploy.Registry, Result<string, int>))
    ensures res.1.Ok? <==> Bound(body) && (kind == ConfigureCmd ==> config.Some?)
    ensures res.1.Err? ==> res == (r, Err(Api.STATUS_BAD_REQUEST))
    ensures res.1.Ok? ==>
      && res.1.value == Deploy.CommandId(Prefix(kind), body.value.hostId, body.value.componentId, now)
      && |res.0.commands| == |r.commands| + 1
      && res.0.commands[..|r.commands|] == r.commands
      && res.0.commands[|r.commands|].commandId == res.1.value
      && res.0.components == r.components && res.0.deployments == r.deployments
  {
    if !Bound(body) || (kind == ConfigureCmd && config.None?) then (r, Err(Api.STATUS_BAD_REQUEST))
    else
      var o := Send(r, kind, body.value, if config.Some? then config.value else map[], now);
      assert o.registry.commands[..|r.commands|] == r.commands;
      (o.registry, Ok(o.result.value))
  }
}

=== FILE: goint.dfy ===
/** Go's machine integers and the `strconv` conversions the handlers and the
    deployment registry rely on: `fmt`'s `%d`, `strconv.Atoi`,
    `strconv.ParseUint(s, 10, 32)`, and 64-bit two's-complement wrap-around. */
module GoInt {
  import opened Wrappers

  const TWO_POW_64: int := 0x1_0000_0000_0000_0000
  const INT64_MIN: int := -0x8000_0000_0000_0000
  const INT64_MAX: int := 0x7fff_ffff_ffff_ffff
  const UINT64_MAX: int := 0xffff_ffff_ffff_ffff
  const UINT32_MAX: int := 0xffff_ffff
  const TWO_POW_32: int := 0x1_0000_0000
  const INT32_MIN: int := -0x8000_0000
  const INT32_MAX: int := 0x7fff_ffff

  predicate IsInt64(n: int) {
    INT64_MIN <= n <= INT64_MAX
  }

  /** The value Go's 64-bit `int` arithmetic leaves after overflow. */
  function Wrap64(n: int): (r: int)
    ensures IsInt64(r)
    ensures (n - r) % TWO_POW_64 == 0
    ensures IsInt64(n) ==> r == n
  {
    var m := n % TWO_POW_64;
    if m > INT64_MAX then m - TWO_POW_64 else m
  }

  predicate IsInt32(n: int) {
    INT32_MIN <= n <= INT32_MAX
  }

  /** Go's `int32(n)` conversion: the low 32 bits, read as two's complement. */
  function Wrap32(n: int): (r: int)
    ensures IsInt32(r)
    ensures (n - r) % TWO_POW_32 == 0
    ensures IsInt32(n) ==> r == n
  {
    var m := n % TWO_POW_32;
    if m > INT32_MAX then m - TWO_POW_32 else m
  }

  predicate IsDigit(c: char) {
    '0' <= c <= '9'
  }

  predicate AllDigits(s: string) {
    forall i :: 0 <= i < |s| ==> IsDigit(s[i])
  }

  function DigitValue(c: char): (d: nat)
    requires IsDigit(c)
    ensures d < 10
  {
    (c as int) - ('0' as int)
  }

  function DigitChar(d: nat): (c: char)
    requires d < 10
    ensures IsDigit(c) && DigitValue(c) == d
  {
    (('0' as int) + d) as char
  }

  /** The value a string of decimal digits denotes, read most-significant first. */
  function DecimalValue(s: string): nat
    requires AllDigits(s)
    decreases |s|
  {
    if |s| == 0 then 0 else DecimalValue(s[..|s| - 1]) * 10 + DigitValue(s[|s| - 1])
  }

  /** `%d` of a non-negative number: canonical digits (no leading zero) that denote `n`. */
  function NatToDecimal(n: nat): (s: string)
    ensures |s| >= 1 && AllDigits(s)
    ensures DecimalValue(s) == n
    ensures s[0] == '0' ==> n == 0
    decreases n
  {
    if n < 10 then [DigitChar(n)]
    else
      var t := NatToDecimal(n / 10);
      var s := t + [DigitChar(n % 10)];
      assert s[..|s| - 1] == t;
      s
  }

  /** `%d` / `strconv.Itoa`: a minus sign before the digits of a negative number. */
  function Itoa(n: int): (s: string)
    ensures |s| >= 1
    ensures n >= 0 ==> AllDigits(s)
    ensures n < 0 ==> s[0] == '-' && AllDigits(s[1..])
  {
    if n < 0 then "-" + NatToDecimal(-n) else NatToDecimal(n)
  }

  /** How a left-to-right digit scan ends in `strconv.ParseUint`. */
  datatype Scan = Value(n: nat) | BadSyntax | Overflow

  /** `strconv.ParseUint`'s loop: digits accumulate into `acc`; the first
      non-digit is a syntax error, and exceeding `max` is a range error even
      when a bad character follows, because Go reports whichever it meets first. */
  function ScanDigits(s: string, acc: nat, max: nat): Scan
    decreases |s|
  {
    if |s| == 0 then Value(acc)
    else if !IsDigit(s[0]) then BadSyntax
    else
      var n := acc * 10 + DigitValue(s[0]);
      if n > max then Overflow else ScanDigits(s[1..], n, max)
  }

  /** One more digit at the end of the input extends the scan by one step. */
  function Extend(r: Scan, d: nat, max: nat): Scan {
    match r
    case Value(v) => if v * 10 + d > max then Overflow else Value(v * 10 + d)
    case BadSyntax => BadSyntax
    case Overflow => Overflow
  }

  lemma {:induction false} ScanSnoc(t: string, c: char, acc: nat, max: nat)
    requires IsDigit(c)
    ensures ScanDigits(t + [c], acc, max) == Extend(ScanDigits(t, acc, max), DigitValue(c), max)
    decreases |t|
  {
    if |t| > 0 {
      assert (t + [c])[0] == t[0];
      assert (t + [c])[1..] == t[1..] + [c];
      if IsDigit(t[0]) {
        var n := acc * 10 + DigitValue(t[0]);
        if n <= max {
          ScanSnoc(t[1..], c, n, max);
        }
      }
    } else {
      assert t + [c] == [c];
    }
  }

  /** Scanning the canonical digits of any `n <= max` yields exactly `n`. */
  lemma {:induction false} ScanNatToDecimal(n: nat, max: nat)
    requires n <= max
    ensures ScanDigits(NatToDecimal(n), 0, max) == Value(n)
    decreases n
  {
    if n >= 10 {
      ScanNatToDecimal(n / 10, max);
      ScanSnoc(NatToDecimal(n / 10), DigitChar(n % 10), 0, max);
    }
  }

  /** Why a Go number conversion failed; a range error carries the clamped value Go returns with it. */
  datatype NumError = ErrSyntax | ErrRange(clamped: int)

  /** `strconv.ParseUint(s, 10, 64)` without the sign handling of `ParseInt`. */
  function ParseUint(s: string, max: nat): Scan {
    if |s| == 0 then BadSyntax else ScanDigits(s, 0, max)
  }

  /** `strconv.Atoi` on a 64-bit platform: an optional `+`/`-`, then at least one
      decimal digit; out-of-range values are reported together with the nearest
      representable bound. */
  function Atoi(s: string): (r: Result<int, NumError>)
    ensures r.Ok? ==> IsInt64(r.value)
    ensures r.Err? && r.error.ErrRange? ==> r.error.clamped in {INT64_MIN, INT64_MAX}
    ensures |s| == 0 ==> r == Err(ErrSyntax)
  {
    if |s| == 0 then Err(ErrSyntax)
    else
      var neg := s[0] == '-';
      var body := if s[0] == '+' || s[0] == '-' then s[1..] else s;
      match ParseUint(body, UINT64_MAX)
      case BadSyntax => Err(ErrSyntax)
      case Overflow => Err(ErrRange(if neg then INT64_MIN else INT64_MAX))
      case Value(u) =>
        if !neg && u > INT64_MAX then Err(ErrRange(INT64_MAX))
        else if neg && u > -INT64_MIN then Err(ErrRange(INT64_MIN))
        else
          var v: int := if neg then -(u as int) else u;
          Ok(v)
  }

  /** `n, _ := strconv.Atoi(s)`: the value Go leaves when the error is ignored. */
  function AtoiIgnoringError(s: string): (n: int)
    ensures IsInt64(n)
    ensures Atoi(s).Ok? ==> n == Atoi(s).value
    ensures Atoi(s) == Err(ErrSyntax) ==> n == 0
  {
    match Atoi(s)
    case Ok(v) => v
    case Err(ErrSyntax) => 0
    case Err(ErrRange(b)) => b
  }

  /** Round trip: `Atoi` reads back every 64-bit integer that `Itoa` prints. */
  lemma AtoiItoa(n: int)
    requires IsInt64(n)
    ensures Atoi(Itoa(n)) == Ok(n)
  {
    var m: nat := if n < 0 then -n else n;
    ScanNatToDecimal(m, UINT64_MAX);
    var s := Itoa(n);
    if n < 0 {
      assert s[1..] == NatToDecimal(m);
    } else {
      assert s == NatToDecimal(m);
      assert IsDigit(s[0]);
    }
  }

  lemma {:induction false} ScanBound(s: string, acc: nat, max: nat)
    requires acc <= max
    ensures ScanDigits(s, acc, max).Value? ==> ScanDigits(s, acc, max).n <= max
    decreases |s|
  {
    if |s| > 0 && IsDigit(s[0]) {
      var n := acc * 10 + DigitValue(s[0]);
      if n <= max {
        ScanBound(s[1..], n, max);
      }
    }
  }

  /** `strconv.ParseUint(s, 10, 32)`: digits only (no sign), value below 2^32. */
  function ParseUint32(s: string): (r: Option<nat>)
    ensures r.Some? ==> r.value <= UINT32_MAX
    ensures r.Some? ==> |s| >= 1
  {
    ScanBound(s, 0, UINT32_MAX);
    match ParseUint(s, UINT32_MAX)
    case Value(v) => Some(v)
    case _ => None
  }

  /** Round trip: every 32-bit unsigned value reads back from its decimal form. */
  lemma ParseUint32Decimal(n: nat)
    requires n <= UINT32_MAX
    ensures ParseUint32(NatToDecimal(n)) == Some(n)
  {
    ScanNatToDecimal(n, UINT32_MAX);
  }

  /** A printed integer holds only digits and a leading minus sign, so any
      other character can separate printed integers. */
  lemma ItoaAvoids(n: int, c: char)
    requires !IsDigit(c) && c != '-'
    ensures c !in Itoa(n)
  {
    var s := Itoa(n);
    forall i | 0 <= i < |s|
      ensures s[i] != c
    {
      if n < 0 && i > 0 {
        assert s[i] == s[1..][i - 1];
      }
    }
  }

  /** Distinct 64-bit integers print differently. */
  lemma ItoaInjective(a: int, b: int)
    requires IsInt64(a) && IsInt64(b)
    ensures Itoa(a) == Itoa(b) <==> a == b
  {
    AtoiItoa(a);
    AtoiItoa(b);
  }
}

=== FILE: host_handler.dfy ===
/** The host endpoints (internal/api/host_handler.go): the list query,
    creation and deletion guards, the status whitelist and the state an agent
    heartbeat writes. A failure leaves the database as it was. */
module HostHandler {
  import opened Wrappers
  import opened Store
  import Api
  import Protocol
  import Seqs

  /** Why a request is refused; `Code` gives the HTTP status. */
  datatype HostError =
    | InvalidId
    | InvalidBody
    | ClusterMissing
    | DuplicateHostname
    | HostNotFound
    | HasComponents
    | InvalidStatus

  function Code(e: HostError): int {
    match e
    case HostNotFound => Api.STATUS_NOT_FOUND
    case _ => Api.STATUS_BAD_REQUEST
  }

  // ---------------------------------------------------------------------------
  // Listing

  const CLUSTER_FILTER := Api.Condition("cluster_id", "=")
  const STATUS_FILTER := Api.Condition("status", "=")

  /** The WHERE clause of `GetHosts` for the `cluster_id` and `status` query
      parameters. */
  function HostWhere(clusterId: string, status: string): Api.Query {
    Api.NestedWhere2(CLUSTER_FILTER, clusterId, STATUS_FILTER, status)
  }

  /** The clause lists the non-empty filters in the order cluster, status. */
  lemma HostWhereCanonical(clusterId: string, status: string)
    ensures HostWhere(clusterId, status) == Api.Where(Api.TextFilter(CLUSTER_FILTER, clusterId) + Api.TextFilter(STATUS_FILTER, status))
  {
    Api.NestedWhere2Canonical(CLUSTER_FILTER, clusterId, STATUS_FILTER, status);
  }

  /** The clause has one placeholder per argument. */
  lemma HostWherePlaceholders(clusterId: string, status: string)
    ensures var q := HostWhere(clusterId, status);
      Api.Placeholders(q.where) == |q.args|
  {
    Api.ConditionPlaceholder("cluster_id", "=");
    Api.ConditionPlaceholder("status", "=");
    Api.NestedWhere2Placeholders(CLUSTER_FILTER, clusterId, STATUS_FILTER, status);
  }

  // ---------------------------------------------------------------------------
  // Creation and deletion

  predicate HostnameTaken(hosts: seq<Host>, hostname: string, clusterId: int) {
    exists i :: 0 <= i < |hosts| && hosts[i].hostname == hostname && hosts[i].clusterId == clusterId
  }

  /** `CreateHost`: the cluster must exist and the hostname must be free in it;
      the host is inserted `OFFLINE`, without a heartbeat. */
  function CreateHost(db: Db, body: Option<Host>, newId: int): (r: Result<(Db, Host), HostError>)
    ensures body.None? ==> r == Err(InvalidBody)
    ensures body.Some? && !ClusterExists(db, body.value.clusterId) ==> r == Err(ClusterMissing)
    ensures r.Ok? <==> body.Some? && ClusterExists(db, body.value.clusterId) && !HostnameTaken(db.hosts, body.value.hostname, body.value.clusterId)
    ensures r.Ok? ==>
      var (db', created) := r.value;
      && created.id == newId && created.status == OFFLINE && created.lastHeartbeat.None?
      && created.(id := body.value.id, status := body.value.status, lastHeartbeat := body.value.lastHeartbeat) == body.value
      && db' == db.(hosts := db.hosts + [created])
  {
    match body
    case None => Err(InvalidBody)
    case Some(h) =>
      if !ClusterExists(db, h.clusterId) then Err(ClusterMissing)
      else if HostnameTaken(db.hosts, h.hostname, h.clusterId) then Err(DuplicateHostname)
      else
        var created := Host(newId, h.hostname, h.ip, h.clusterId, h.cpuCores, h.memorySize, OFFLINE, None);
        Ok((db.(hosts := db.hosts + [created]), created))
  }

  /** Repeating a successful creation is refused: the hostname is now taken. */
  lemma CreateHostTwice(db: Db, body: Option<Host>, newId: int, nextId: int)
    requires CreateHost(db, body, newId).Ok?
    ensures CreateHost(CreateHost(db, body, newId).value.0, body, nextId) == Err(DuplicateHostname)
  {
    var db' := CreateHost(db, body, newId).value.0;
    assert db'.hosts[|db.hosts|] == CreateHost(db, body, newId).value.1;
    assert HostnameTaken(db'.hosts, body.value.hostname, body.value.clusterId);
  }

  /** `DeleteHost`: the host must exist (404) and carry no component (400);
      its metrics, its logs and the host row are removed. */
  function DeleteHost(db: Db, idParam: string): (r: Result<Db, HostError>)
    ensures Api.ParseId(idParam).None? ==> r == Err(InvalidId)
    ensures Api.ParseId(idParam).Some? && !HostExists(db, Api.ParseId(idParam).value) ==> r == Err(HostNotFound)
    ensures r.Ok? <==> (Api.ParseId(idParam).Some? && HostExists(db, Api.ParseId(idParam).value)
                        && forall i :: 0 <= i < |db.hostComponents| ==> db.hostComponents[i].hostId != Api.ParseId(idParam).value)
    ensures r.Ok? ==>
      var id := Api.ParseId(idParam).value;
      && !HostExists(r.value, id)
      && (forall h :: h in r.value.hosts <==> h in db.hosts && h.id != id)
      && (forall m :: m in r.value.metrics <==> m in db.metrics && m.hostId != id)
      && (forall l :: l in r.value.logs <==> l in db.logs && l.hostId != id)
      && r.value.(hosts := db.hosts, metrics := db.metrics, logs := db.logs) == db
  {
    match Api.ParseId(idParam)
    case None => Err(InvalidId)
    case Some(id) =>
      if !HostExists(db, id) then Err(HostNotFound)
      else if ComponentsOnHost(db.hostComponents, id) > 0 then Err(HasComponents)
      else
        var hosts := Seqs.Filter(db.hosts, (h: Host) => h.id != id);
        assert forall i :: 0 <= i < |hosts| ==> hosts[i].id != id by {
          assert forall i :: 0 <= i < |hosts| ==> hosts[i] in hosts;
        }
        Ok(db.(metrics := Seqs.Filter(db.metrics, (m: Metric) => m.hostId != id),
               logs := Seqs.Filter(db.logs, (l: LogRecord) => l.hostId != id),
               hosts := hosts))
  }

  // ---------------------------------------------------------------------------
  // Status

  /** The statuses `UpdateHostStatus` accepts. */
  predicate ValidHostStatus(status: string) {
    status == ONLINE || status == OFFLINE || status == MAINTENANCE
  }

  /** `UPDATE host SET status = ? WHERE id = ?`. */
  function SetHostStatus(hosts: seq<Host>, id: int, status: string): (r: seq<Host>)
    ensures |r| == |hosts|
    ensures forall i :: 0 <= i < |hosts| ==> r[i] == if hosts[i].id == id then hosts[i].(status := status) else hosts[i]
  {
    seq(|hosts|, i requires 0 <= i < |hosts| => if hosts[i].id == id then hosts[i].(status := status) else hosts[i])
  }

  /** `UpdateHostStatus`: the id must parse and the body must carry a non-empty
      status (binding); the status is checked against the whitelist before the
      host is looked up, so an invalid status is 400 even for an unknown
      host. */
  function UpdateHostStatus(db: Db, idParam: string, status: Option<string>): (r: Result<Db, HostError>)
    ensures Api.ParseId(idParam).None? ==> r == Err(InvalidId)
    ensures Api.ParseId(idParam).Some? && (status.None? || status == Some("")) ==> r == Err(InvalidBody)
    ensures Api.ParseId(idParam).Some? && status.Some? && status.value != "" && !ValidHostStatus(status.value) ==> r == Err(InvalidStatus)
    ensures r.Ok? <==> (Api.ParseId(idParam).Some? && status.Some? && ValidHostStatus(status.value)
                        && HostExists(db, Api.ParseId(idParam).value))
    ensures r.Ok? ==>
      && r.value.hosts == SetHostStatus(db.hosts, Api.ParseId(idParam).value, status.value)
      && r.value.(hosts := db.hosts) == db
  {
    match Api.ParseId(idParam)
    case None => Err(InvalidId)
    case Some(id) =>
      match status
      case None => Err(InvalidBody)
      case Some(st) =>
        if st == "" then Err(InvalidBody)
        else if !ValidHostStatus(st) then Err(InvalidStatus)
        else if !HostExists(db, id) then Err(HostNotFound)
        else Ok(db.(hosts := SetHostStatus(db.hosts, id, st)))
  }

  /** Every host status the handler writes is one of the three valid ones. */
  lemma UpdateHostStatusKeepsValid(db: Db, idParam: string, status: Option<string>)
    requires forall i :: 0 <= i < |db.hosts| ==> ValidHostStatus(db.hosts[i].status)
    requires UpdateHostStatus(db, idParam, status).Ok?
    ensures var hosts := UpdateHostStatus(db, idParam, status).value.hosts;
      forall i :: 0 <= i < |hosts| ==> ValidHostStatus(hosts[i].status)
  {
  }

  // ---------------------------------------------------------------------------
  // Heartbeats

  const CPU_USAGE := "cpu_usage"
  const MEMORY_USAGE := "memory_usage"
  const DISK_USAGE := "disk_usage"

  /** The response to a heartbeat: the commands for the agent to run. */
  datatype HeartbeatResponse = HeartbeatResponse(commands: seq<Protocol.AgentCommand>)

  /** `UPDATE host SET status = 'ONLINE', last_heartbeat = ? WHERE id = ?`. */
  function MarkOnline(hosts: seq<Host>, id: int, now: int): (r: seq<Host>)
    ensures |r| == |hosts|
    ensures forall i :: 0 <= i < |hosts| ==> r[i] == if hosts[i].id == id then hosts[i].(status := ONLINE, lastHeartbeat := Some(now)) else hosts[i]
  {
    seq(|hosts|, i requires 0 <= i < |hosts| => if hosts[i].id == id then hosts[i].(status := ONLINE, lastHeartbeat := Some(now)) else hosts[i])
  }

  /** The three usage samples, stamped with the server's clock, in the order
      cpu, memory, disk. */
  function BasicMetrics(req: Protocol.HeartbeatRequest, now: int): seq<Metric> {
    [ Metric(req.hostId, None, CPU_USAGE, now, req.cpuUsage),
      Metric(req.hostId, None, MEMORY_USAGE, now, req.memoryUsage),
      Metric(req.hostId, None, DISK_USAGE, now, req.diskUsage) ]
  }

  /** One row per reported metric, with the agent's own timestamp. */
  function CustomMetrics(req: Protocol.HeartbeatRequest): (ms: seq<Metric>)
    ensures |ms| == |req.metrics|
    ensures forall i :: 0 <= i < |ms| ==>
      ms[i] == Metric(req.hostId, None, req.metrics[i].name, req.metrics[i].timestamp, req.metrics[i].value)
  {
    seq(|req.metrics|, i requires 0 <= i < |req.metrics| =>
      Metric(req.hostId, None, req.metrics[i].name, req.metrics[i].timestamp, req.metrics[i].value))
  }

  /** `UPDATE host_component SET status = ?, process_id = ? WHERE host_id = ?
      AND component_id = ?` for one reported component. */
  function ApplyReport(hcs: seq<HostComponent>, hostId: int, report: Protocol.ComponentStatus): (r: seq<HostComponent>)
    ensures |r| == |hcs|
  {
    seq(|hcs|, i requires 0 <= i < |hcs| =>
      if hcs[i].hostId == hostId && hcs[i].componentId == report.componentId
      then hcs[i].(status := report.status, processId := Some(report.processId))
      else hcs[i])
  }

  /** The reports applied one after another, in the order received. */
  function ApplyReports(hcs: seq<HostComponent>, hostId: int, reports: seq<Protocol.ComponentStatus>): (r: seq<HostComponent>)
    ensures |r| == |hcs|
    decreases |reports|
  {
    if |reports| == 0 then hcs
    else ApplyReports(ApplyReport(hcs, hostId, reports[0]), hostId, reports[1..])
  }

  /** The last report about a component, if any. */
  function LastReport(reports: seq<Protocol.ComponentStatus>, componentId: int): Option<Protocol.ComponentStatus>
    decreases |reports|
  {
    if |reports| == 0 then None
    else if reports[|reports| - 1].componentId == componentId then Some(reports[|reports| - 1])
    else LastReport(reports[..|reports| - 1], componentId)
  }

  /** The row a deployment ends with after the reports: the last report about
      its component when it is on the reporting host, unchanged otherwise. */
  function Reported(hc: HostComponent, hostId: int, reports: seq<Protocol.ComponentStatus>): HostComponent {
    if hc.hostId != hostId then hc
    else match LastReport(reports, hc.componentId)
      case None => hc
      case Some(rep) => hc.(status := rep.status, processId := Some(rep.processId))
  }

  lemma {:induction false} ApplyReportsSnoc(hcs: seq<HostComponent>, hostId: int, reports: seq<Protocol.ComponentStatus>, rep: Protocol.ComponentStatus)
    ensures ApplyReports(hcs, hostId, reports + [rep]) == ApplyReport(ApplyReports(hcs, hostId, reports), hostId, rep)
    decreases |reports|
  {
    if |reports| == 0 {
      assert reports + [rep] == [rep];
    } else {
      assert (reports + [rep])[1..] == reports[1..] + [rep];
      ApplyReportsSnoc(ApplyReport(hcs, hostId, reports[0]), hostId, reports[1..], rep);
    }
  }

  /** Sequential updates amount to "last report wins" for every deployment of
      the reporting host; deployments on other hosts are untouched. */
  lemma {:induction false} ApplyReportsLastWins(hcs: seq<HostComponent>, hostId: int, reports: seq<Protocol.ComponentStatus>)
    ensures forall i :: 0 <= i < |hcs| ==> ApplyReports(hcs, hostId, reports)[i] == Reported(hcs[i], hostId, reports)
    decreases |reports|
  {
    if |reports| > 0 {
      var init, rep := reports[..|reports| - 1], reports[|reports| - 1];
      assert reports == init + [rep];
      ApplyReportsLastWins(hcs, hostId, init);
      ApplyReportsSnoc(hcs, hostId, init, rep);
    }
  }

  /** `ProcessHeartbeat`: an unknown host is 404 and nothing is written.
      Otherwise, in one transaction, the host goes `ONLINE` with the server's
      time as its last heartbeat, the three basic metrics and then the custom
      ones are appended, and the reported components are updated; the
      response carries no commands. */
  function ProcessHeartbeat(db: Db, body: Option<Protocol.HeartbeatRequest>, now: int): (r: Result<(Db, HeartbeatResponse), HostError>)
    ensures body.None? ==> r == Err(InvalidBody)
    ensures body.Some? ==> (r.Ok? <==> HostExists(db, body.value.hostId))
    ensures body.Some? && !HostExists(db, body.value.hostId) ==> r == Err(HostNotFound)
    ensures r.Ok? ==>
      var req := body.value;
      var (db', resp) := r.value;
      && resp.commands == []
      && |db'.metrics| == |db.metrics| + 3 + |req.metrics|
      && db'.metrics[..|db.metrics|] == db.metrics
      && db'.metrics[|db.metrics|..|db.metrics| + 3] == BasicMetrics(req, now)
      && db'.metrics[|db.metrics| + 3..] == CustomMetrics(req)
      && |db'.hosts| == |db.hosts|
      && (forall i :: 0 <= i < |db.hosts| && db.hosts[i].id == req.hostId ==>
            db'.hosts[i].status == ONLINE && db'.hosts[i].lastHeartbeat == Some(now))
      && (forall i :: 0 <= i < |db.hosts| && db.hosts[i].id != req.hostId ==> db'.hosts[i] == db.hosts[i])
      && |db'.hostComponents| == |db.hostComponents|
      && (forall i :: 0 <= i < |db.hostComponents| ==>
            db'.hostComponents[i] == Reported(db.hostComponents[i], req.hostId, req.components))
      && db'.(hosts := db.hosts, metrics := db.metrics, hostComponents := db.hostComponents) == db
  {
    match body
    case None => Err(InvalidBody)
    case Some(req) =>
      if !HostExists(db, req.hostId) then Err(HostNotFound)
      else
        var metrics := db.metrics + BasicMetrics(req, now) + CustomMetrics(req);
        assert metrics[..|db.metrics|] == db.metrics;
        assert metrics[|db.metrics|..|db.metrics| + 3] == BasicMetrics(req, now);
        assert metrics[|db.metrics| + 3..] == CustomMetrics(req);
        ApplyReportsLastWins(db.hostComponents, req.hostId, req.components);
        Ok((db.(hosts := MarkOnline(db.hosts, req.hostId, now),
                metrics := metrics,
                hostComponents := ApplyReports(db.hostComponents, req.hostId, req.components)),
            HeartbeatResponse([])))
  }
}

=== FILE: log_handler.dfy ===
/** The log endpoints (internal/api/log_handler.go): the filters of the log
    query, the batch upload and the window of the statistics. RFC 3339
    parsing is a parameter: `parseTime(s)` is `None` when `time.Parse`
    fails and the instant otherwise. */
module LogHandler {
  import opened Wrappers
  import opened Store
  import Api
  import GoInt

  /** Every refusal of these handlers is a 400. */
  datatype LogError =
    | BadStartTime
    | BadEndTime
    | BadHostId
    | BadServiceId
    | BadComponentId
    | InvalidBody
    | HostMissing
    | NoLogs
    | TooManyLogs

  function Code(e: LogError): int {
    Api.STATUS_BAD_REQUEST
  }

  // ---------------------------------------------------------------------------
  // Query filters

  /** The filter parameters of `GetLogs`; an absent parameter is `""`. */
  datatype LogQuery = LogQuery(
    startTime: string,
    endTime: string,
    hostId: string,
    serviceId: string,
    componentId: string,
    logLevel: string,
    keyword: string)

  const START_FILTER := Api.Condition("timestamp", ">=")
  const END_FILTER := Api.Condition("timestamp", "<=")
  const HOST_FILTER := Api.Condition("host_id", "=")
  const SERVICE_FILTER := Api.Condition("service_id", "=")
  const COMPONENT_FILTER := Api.Condition("component_id", "=")
  const LEVEL_FILTER := Api.Condition("log_level", "=")
  const KEYWORD_FILTER := Api.Condition("message", "LIKE")

  /** A time bound: no filter when empty, `e` when it does not parse. */
  function TimeFilter(param: string, condition: string, parseTime: string -> Option<int>, e: LogError): Result<seq<Api.Filter>, LogError> {
    if param == "" then Ok([])
    else match parseTime(param)
      case None => Err(e)
      case Some(t) => Ok([Api.Filter(condition, Api.Time(t))])
  }

  /** An id filter: no filter when empty, `e` when `strconv.Atoi` fails. */
  function IdFilter(param: string, condition: string, e: LogError): Result<seq<Api.Filter>, LogError> {
    if param == "" then Ok([])
    else match GoInt.Atoi(param)
      case Err(_) => Err(e)
      case Ok(n) => Ok([Api.Filter(condition, Api.Int(n))])
  }

  /** The keyword matches anywhere in the message. */
  function KeywordFilter(keyword: string): seq<Api.Filter> {
    if keyword == "" then [] else [Api.Filter(KEYWORD_FILTER, Api.Text("%" + keyword + "%"))]
  }

  predicate StartBad(q: LogQuery, parseTime: string -> Option<int>) {
    q.startTime != "" && parseTime(q.startTime).None?
  }

  predicate EndBad(q: LogQuery, parseTime: string -> Option<int>) {
    q.endTime != "" && parseTime(q.endTime).None?
  }

  predicate IdBad(param: string) {
    param != "" && GoInt.Atoi(param).Err?
  }

  /** The conditions a query carries, in the order `GetLogs` appends them:
      one per non-empty parameter, whatever its value. */
  function Active(q: LogQuery): seq<string> {
    (if q.startTime != "" then [START_FILTER] else [])
    + (if q.endTime != "" then [END_FILTER] else [])
    + (if q.hostId != "" then [HOST_FILTER] else [])
    + (if q.serviceId != "" then [SERVICE_FILTER] else [])
    + (if q.componentId != "" then [COMPONENT_FILTER] else [])
    + (if q.logLevel != "" then [LEVEL_FILTER] else [])
    + (if q.keyword != "" then [KEYWORD_FILTER] else [])
  }

  lemma ConditionsConcat(a: seq<Api.Filter>, b: seq<Api.Filter>)
    ensures Api.Conditions(a + b) == Api.Conditions(a) + Api.Conditions(b)
  {
    assert forall i :: 0 <= i < |a + b| ==> (a + b)[i] == if i < |a| then a[i] else b[i - |a|];
  }

  /** Two steps of the handler in sequence: the first failure wins,
      otherwise the filters accumulate. */
  function Then(a: Result<seq<Api.Filter>, LogError>, b: Result<seq<Api.Filter>, LogError>): (r: Result<seq<Api.Filter>, LogError>)
    ensures r.Ok? <==> a.Ok? && b.Ok?
    ensures a.Err? ==> r == a
    ensures a.Ok? && b.Err? ==> r == b
    ensures r.Ok? ==> Api.Conditions(r.value) == Api.Conditions(a.value) + Api.Conditions(b.value)
  {
    if a.Err? then a
    else if b.Err? then b
    else
      ConditionsConcat(a.value, b.value);
      Ok(a.value + b.value)
  }

  /** The filters of `GetLogs`, checked in the order start time, end time,
      host, service, component; the first parameter that does not parse is
      the error. */
  function LogFilters(q: LogQuery, parseTime: string -> Option<int>): (r: Result<seq<Api.Filter>, LogError>)
    ensures r == Err(BadStartTime) <==> StartBad(q, parseTime)
    ensures r == Err(BadEndTime) <==> !StartBad(q, parseTime) && EndBad(q, parseTime)
    ensures r == Err(BadHostId) <==> !StartBad(q, parseTime) && !EndBad(q, parseTime) && IdBad(q.hostId)
    ensures r == Err(BadServiceId) <==>
      !StartBad(q, parseTime) && !EndBad(q, parseTime) && !IdBad(q.hostId) && IdBad(q.serviceId)
    ensures r == Err(BadComponentId) <==>
      !StartBad(q, parseTime) && !EndBad(q, parseTime) && !IdBad(q.hostId) && !IdBad(q.serviceId) && IdBad(q.componentId)
    ensures r.Ok? <==>
      !StartBad(q, parseTime) && !EndBad(q, parseTime) && !IdBad(q.hostId) && !IdBad(q.serviceId) && !IdBad(q.componentId)
  {
    Then(Then(Then(Then(Then(
      TimeFilter(q.startTime, START_FILTER, parseTime, BadStartTime),
      TimeFilter(q.endTime, END_FILTER, parseTime, BadEndTime)),
      IdFilter(q.hostId, HOST_FILTER, BadHostId)),
      IdFilter(q.serviceId, SERVICE_FILTER, BadServiceId)),
      IdFilter(q.componentId, COMPONENT_FILTER, BadComponentId)),
      Ok(Api.TextFilter(LEVEL_FILTER, q.logLevel) + KeywordFilter(q.keyword)))
  }

  lemma TimeFilterConditions(param: string, condition: string, parseTime: string -> Option<int>, e: LogError)
    requires TimeFilter(param, condition, parseTime, e).Ok?
    ensures Api.Conditions(TimeFilter(param, condition, parseTime, e).value) == if param != "" then [condition] else []
  {
  }

  lemma IdFilterConditions(param: string, condition: string, e: LogError)
    requires IdFilter(param, condition, e).Ok?
    ensures Api.Conditions(IdFilter(param, condition, e).value) == if param != "" then [condition] else []
  {
  }

  lemma TailConditions(level: string, keyword: string)
    ensures Api.Conditions(Api.TextFilter(LEVEL_FILTER, level) + KeywordFilter(keyword))
         == (if level != "" then [LEVEL_FILTER] else []) + (if keyword != "" then [KEYWORD_FILTER] else [])
  {
    ConditionsConcat(Api.TextFilter(LEVEL_FILTER, level), KeywordFilter(keyword));
  }

  /** The conditions depend only on which parameters are present. */
  lemma LogFiltersConditions(q: LogQuery, parseTime: string -> Option<int>)
    requires LogFilters(q, parseTime).Ok?
    ensures Api.Conditions(LogFilters(q, parseTime).value) == Active(q)
  {
    var t1 := TimeFilter(q.startTime, START_FILTER, parseTime, BadStartTime);
    var t2 := TimeFilter(q.endTime, END_FILTER, parseTime, BadEndTime);
    var t3 := IdFilter(q.hostId, HOST_FILTER, BadHostId);
    var t4 := IdFilter(q.serviceId, SERVICE_FILTER, BadServiceId);
    var t5 := IdFilter(q.componentId, COMPONENT_FILTER, BadComponentId);
    var t6 := Ok(Api.TextFilter(LEVEL_FILTER, q.logLevel) + KeywordFilter(q.keyword));
    var r2 := Then(t1, t2);
    var r3 := Then(r2, t3);
    var r4 := Then(r3, t4);
    var r5 := Then(r4, t5);
    var r := Then(r5, t6);
    assert r == LogFilters(q, parseTime);
    assert r5.Ok? && r4.Ok? && r3.Ok? && r2.Ok?;
    TimeFilterConditions(q.startTime, START_FILTER, parseTime, BadStartTime);
    TimeFilterConditions(q.endTime, END_FILTER, parseTime, BadEndTime);
    IdFilterConditions(q.hostId, HOST_FILTER, BadHostId);
    IdFilterConditions(q.serviceId, SERVICE_FILTER, BadServiceId);
    IdFilterConditions(q.componentId, COMPONENT_FILTER, BadComponentId);
    TailConditions(q.logLevel, q.keyword);
    var level := if q.logLevel != "" then [LEVEL_FILTER] else [];
    var keyword := if q.keyword != "" then [KEYWORD_FILTER] else [];
    var c5 := Api.Conditions(r5.value);
    assert Api.Conditions(r.value) == c5 + (level + keyword);
    assert c5 + (level + keyword) == (c5 + level) + keyword;
  }

  /** A keyword is the last argument, wrapped in `%` for `LIKE`. */
  lemma LogFiltersKeyword(q: LogQuery, parseTime: string -> Option<int>)
    requires LogFilters(q, parseTime).Ok? && q.keyword != ""
    ensures var fs := LogFilters(q, parseTime).value;
      |fs| > 0 && fs[|fs| - 1].arg == Api.Text("%" + q.keyword + "%")
  {
  }

  /** Every condition `GetLogs` may use has exactly one placeholder. */
  lemma ActivePlaceholders(q: LogQuery)
    ensures forall i :: 0 <= i < |Active(q)| ==> Api.OnePlaceholder(Active(q)[i])
  {
    FilterPlaceholders();
    var c1 := Optional(q.startTime != "", START_FILTER);
    var c2 := Optional(q.endTime != "", END_FILTER);
    var c3 := Optional(q.hostId != "", HOST_FILTER);
    var c4 := Optional(q.serviceId != "", SERVICE_FILTER);
    var c5 := Optional(q.componentId != "", COMPONENT_FILTER);
    var c6 := Optional(q.logLevel != "", LEVEL_FILTER);
    var c7 := Optional(q.keyword != "", KEYWORD_FILTER);
    assert Active(q) == c1 + c2 + c3 + c4 + c5 + c6 + c7;
    OptionalPlaceholder(q.startTime != "", START_FILTER);
    OptionalPlaceholder(q.endTime != "", END_FILTER);
    OptionalPlaceholder(q.hostId != "", HOST_FILTER);
    OptionalPlaceholder(q.serviceId != "", SERVICE_FILTER);
    OptionalPlaceholder(q.componentId != "", COMPONENT_FILTER);
    OptionalPlaceholder(q.logLevel != "", LEVEL_FILTER);
    OptionalPlaceholder(q.keyword != "", KEYWORD_FILTER);
    OnePlaceholderEach(c1, c2);
    OnePlaceholderEach(c1 + c2, c3);
    OnePlaceholderEach(c1 + c2 + c3, c4);
    OnePlaceholderEach(c1 + c2 + c3 + c4, c5);
    OnePlaceholderEach(c1 + c2 + c3 + c4 + c5, c6);
    OnePlaceholderEach(c1 + c2 + c3 + c4 + c5 + c6, c7);
  }

  /** A condition the handler adds only when its parameter is present. */
  function Optional(present: bool, condition: string): seq<string> {
    if present then [condition] else []
  }

  lemma OptionalPlaceholder(present: bool, condition: string)
    requires Api.OnePlaceholder(condition)
    ensures AllOnePlaceholder(Optional(present, condition))
  {
  }

  /** Each of the handler's conditions has one placeholder. */
  lemma FilterPlaceholders()
    ensures Api.OnePlaceholder(START_FILTER) && Api.OnePlaceholder(END_FILTER)
    ensures Api.OnePlaceholder(HOST_FILTER) && Api.OnePlaceholder(SERVICE_FILTER) && Api.OnePlaceholder(COMPONENT_FILTER)
    ensures Api.OnePlaceholder(LEVEL_FILTER) && Api.OnePlaceholder(KEYWORD_FILTER)
  {
    Api.ConditionPlaceholder("timestamp", ">=");
    Api.ConditionPlaceholder("timestamp", "<=");
    Api.ConditionPlaceholder("host_id", "=");
    Api.ConditionPlaceholder("service_id", "=");
    Api.ConditionPlaceholder("component_id", "=");
    Api.ConditionPlaceholder("log_level", "=");
    Api.ConditionPlaceholder("message", "LIKE");
  }

  /** Every condition of a list has one placeholder. */
  predicate AllOnePlaceholder(cs: seq<string>) {
    forall i :: 0 <= i < |cs| ==> Api.OnePlaceholder(cs[i])
  }

  lemma OnePlaceholderEach(a: seq<string>, b: seq<string>)
    requires AllOnePlaceholder(a) && AllOnePlaceholder(b)
    ensures AllOnePlaceholder(a + b)
  {
    forall i | 0 <= i < |a + b|
      ensures Api.OnePlaceholder((a + b)[i])
    {
      if i < |a| {
        assert (a + b)[i] == a[i];
      } else {
        assert (a + b)[i] == b[i - |a|];
      }
    }
  }

  /** The WHERE clause and arguments of `GetLogs`, the clause joined by the
      handler's loop; it fails exactly when `LogFilters` does, and the clause
      has one placeholder per argument. */
  method LogWhere(q: LogQuery, parseTime: string -> Option<int>) returns (r: Result<Api.Query, LogError>)
    ensures r.Err? <==> LogFilters(q, parseTime).Err?
    ensures r.Err? ==> r.error == LogFilters(q, parseTime).error
    ensures r.Ok? ==> r.value.where == Api.WhereClause(Active(q))
    ensures r.Ok? ==> |r.value.args| == |Active(q)|
    ensures r.Ok? ==> Api.Placeholders(r.value.where) == |r.value.args|
  {
    match LogFilters(q, parseTime)
    case Err(e) =>
      r := Err(e);
    case Ok(fs) =>
      var clause := Api.BuildWhere(Api.Conditions(fs));
      LogFiltersConditions(q, parseTime);
      ActivePlaceholders(q);
      Api.WherePlaceholders(fs);
      r := Ok(Api.Query(clause, Api.Args(fs)));
  }

  // ---------------------------------------------------------------------------
  // Upload

  /** One uploaded record; its own service and component ids are used when
      positive. */
  datatype LogInput = LogInput(serviceId: int, componentId: int, logLevel: string, timestamp: int, message: string)

  /** The upload body; the request's service and component ids are the
      fallback for records without their own. */
  datatype UploadRequest = UploadRequest(hostId: int, serviceId: int, componentId: int, logs: seq<LogInput>)

  const MAX_UPLOAD := 1000

  /** The id a column receives: the record's own when positive; otherwise the
      request's, passed as `sql.NullInt32` and so valid when positive but
      converted with `int32(...)`; NULL when neither is positive. */
  function ColumnId(own: int, fallback: int): (r: Option<int>)
    ensures own > 0 ==> r == Some(own)
    ensures own <= 0 && fallback <= 0 ==> r == None
    ensures own <= 0 && 0 < fallback <= GoInt.INT32_MAX ==> r == Some(fallback)
    ensures r.Some? ==> r.value == own || (r.value - fallback) % GoInt.TWO_POW_32 == 0
  {
    if own > 0 then Some(own)
    else if fallback > 0 then Some(GoInt.Wrap32(fallback))
    else None
  }

  /** A fallback id beyond 32 bits is stored truncated: 2^32 becomes 0. */
  lemma ColumnIdTruncates()
    ensures ColumnId(0, GoInt.TWO_POW_32) == Some(0)
  {
  }

  function Row(req: UploadRequest, log: LogInput): LogRecord {
    LogRecord(req.hostId, ColumnId(log.serviceId, req.serviceId), ColumnId(log.componentId, req.componentId),
              log.logLevel, log.timestamp, log.message)
  }

  function Rows(req: UploadRequest): (rows: seq<LogRecord>)
    ensures |rows| == |req.logs|
  {
    seq(|req.logs|, i requires 0 <= i < |req.logs| => Row(req, req.logs[i]))
  }

  /** `UploadLogs`: the body must bind with a non-zero host id, the host must
      exist, and the batch must hold 1 to 1000 records; they are inserted in
      one transaction under the request's host, and the count is returned. */
  function UploadLogs(db: Db, body: Option<UploadRequest>): (r: Result<(Db, int), LogError>)
    ensures body.None? || body.value.hostId == 0 ==> r == Err(InvalidBody)
    ensures body.Some? && body.value.hostId != 0 && !HostExists(db, body.value.hostId) ==> r == Err(HostMissing)
    ensures (body.Some? && body.value.hostId != 0 && HostExists(db, body.value.hostId) && |body.value.logs| == 0)
            ==> r == Err(NoLogs)
    ensures (body.Some? && body.value.hostId != 0 && HostExists(db, body.value.hostId) && |body.value.logs| > MAX_UPLOAD)
            ==> r == Err(TooManyLogs)
    ensures r.Ok? <==> (body.Some? && body.value.hostId != 0 && HostExists(db, body.value.hostId)
                        && 1 <= |body.value.logs| <= MAX_UPLOAD)
    ensures r.Ok? ==>
      var req := body.value;
      var (db', count) := r.value;
      && count == |req.logs|
      && |db'.logs| == |db.logs| + count
      && db'.logs[..|db.logs|] == db.logs
      && (forall i :: 0 <= i < count ==>
            var row := db'.logs[|db.logs| + i];
            && row.hostId == req.hostId
            && row.serviceId == ColumnId(req.logs[i].serviceId, req.serviceId)
            && row.componentId == ColumnId(req.logs[i].componentId, req.componentId)
            && row.message == req.logs[i].message
            && row.logLevel == req.logs[i].logLevel
            && row.timestamp == req.logs[i].timestamp)
      && db'.(logs := db.logs) == db
  {
    match body
    case None => Err(InvalidBody)
    case Some(req) =>
      if req.hostId == 0 then Err(InvalidBody)
      else if !HostExists(db, req.hostId) then Err(HostMissing)
      else if |req.logs| == 0 then Err(NoLogs)
      else if |req.logs| > MAX_UPLOAD then Err(TooManyLogs)
      else
        var logs := db.logs + Rows(req);
        assert logs[..|db.logs|] == db.logs;
        Ok((db.(logs := logs), |req.logs|))
  }

  // ---------------------------------------------------------------------------
  // Statistics

  /** The window of `GetLogStats` in days: `days` read with the error
      ignored, 7 when it is outside 1..30. */
  function LogStatsDays(param: Option<string>): (d: int)
    ensures 1 <= d <= 30
    ensures var n := GoInt.Atoi(Api.DefaultQuery(param, "7"));
      n.Ok? && 1 <= n.value <= 30 ==> d == n.value
    ensures var n := GoInt.Atoi(Api.DefaultQuery(param, "7"));
      (n.Err? || n.value < 1 || n.value > 30) ==> d == 7
  {
    var n := GoInt.AtoiIgnoringError(Api.DefaultQuery(param, "7"));
    if n < 1 || n > 30 then 7 else n
  }
}

=== FILE: logger.dfy ===
/** The decisions of the file logger in internal/log/log.go: configuration
    defaults, the level filter, the line format, when the file is rotated and
    which backups are pruned. Opening, renaming, stat-ing and removing files
    are inputs and outputs of the model. */
module Logger {
  import opened Wrappers
  import GoInt
  import Seqs

  const LEVEL_DEBUG: int := 0
  const LEVEL_INFO: int := 1
  const LEVEL_WARN: int := 2
  const LEVEL_ERROR: int := 3
  const LEVEL_FATAL: int := 4

  /** 100 MiB. */
  const DEFAULT_MAX_SIZE: int := 100 * 1024 * 1024
  const DEFAULT_MAX_BACKUPS: int := 10

  predicate KnownLevel(level: int) {
    LEVEL_DEBUG <= level <= LEVEL_FATAL
  }

  /** The `levelNames` table; a level outside it reads Go's zero value "". */
  function LevelName(level: int): (name: string)
    ensures KnownLevel(level) <==> name != ""
    ensures '[' !in name && ']' !in name
  {
    if level == LEVEL_DEBUG then "DEBUG"
    else if level == LEVEL_INFO then "INFO"
    else if level == LEVEL_WARN then "WARN"
    else if level == LEVEL_ERROR then "ERROR"
    else if level == LEVEL_FATAL then "FATAL"
    else ""
  }

  /** No two levels share a name, so a line's level can be read back. */
  lemma LevelNamesDistinct(a: int, b: int)
    requires KnownLevel(a) && KnownLevel(b) && a != b
    ensures LevelName(a) != LevelName(b)
  {
  }

  // ---------------------------------------------------------------------------
  // Configuration

  datatype LogConfig = LogConfig(level: int, filename: string, maxSize: int, maxBackups: int, console: bool)

  /** A configuration every field of which is usable. */
  predicate Usable(c: LogConfig) {
    KnownLevel(c.level) && c.maxSize > 0 && c.maxBackups > 0
  }

  /** The defaulting in `NewLogger`: an unknown level becomes Info, a
      non-positive size 100 MiB, a non-positive backup count 10. */
  function WithDefaults(c: LogConfig): (r: LogConfig)
    ensures Usable(r)
    ensures r.filename == c.filename && r.console == c.console
    ensures KnownLevel(c.level) ==> r.level == c.level
    ensures !KnownLevel(c.level) ==> r.level == LEVEL_INFO
    ensures c.maxSize > 0 ==> r.maxSize == c.maxSize
    ensures c.maxSize <= 0 ==> r.maxSize == DEFAULT_MAX_SIZE
    ensures c.maxBackups > 0 ==> r.maxBackups == c.maxBackups
    ensures c.maxBackups <= 0 ==> r.maxBackups == DEFAULT_MAX_BACKUPS
  {
    c.(level := if KnownLevel(c.level) then c.level else LEVEL_INFO,
       maxSize := if c.maxSize <= 0 then DEFAULT_MAX_SIZE else c.maxSize,
       maxBackups := if c.maxBackups <= 0 then DEFAULT_MAX_BACKUPS else c.maxBackups)
  }

  /** Defaults touch only what is unusable: a usable configuration is kept. */
  lemma DefaultsKeepUsable(c: LogConfig)
    ensures Usable(c) <==> WithDefaults(c) == c
  {
  }

  lemma DefaultsIdempotent(c: LogConfig)
    ensures WithDefaults(WithDefaults(c)) == WithDefaults(c)
  {
    DefaultsKeepUsable(WithDefaults(c));
  }

  /** Where lines go. */
  datatype Sink = LogFile | Stdout

  datatype LoggerState = LoggerState(config: LogConfig, fileOpen: bool, sinks: seq<Sink>)

  /** `NewLogger`: a named file is opened (its failure, given as `openError`,
      is the result); the file and the console are the sinks, stdout when
      neither is. */
  function NewLogger(c: LogConfig, openError: Option<string>): (r: Result<LoggerState, string>)
    ensures c.filename != "" && openError.Some? <==> r.Err?
    ensures r.Err? ==> r.error == openError.value
    ensures r.Ok? ==> r.value.config == WithDefaults(c) && (r.value.fileOpen <==> c.filename != "")
    ensures r.Ok? ==> |r.value.sinks| >= 1
    ensures r.Ok? ==> (LogFile in r.value.sinks <==> c.filename != "")
    ensures r.Ok? ==> (Stdout in r.value.sinks <==> c.console || c.filename == "")
  {
    if c.filename != "" && openError.Some? then Err(openError.value)
    else
      var hasFile := c.filename != "";
      var writers := (if hasFile then [LogFile] else []) + (if c.console then [Stdout] else []);
      Ok(LoggerState(WithDefaults(c), hasFile, if |writers| == 0 then [Stdout] else writers))
  }

  // ---------------------------------------------------------------------------
  // Filtering and formatting

  /** `log` drops a message below the configured level. */
  predicate Emits(configLevel: int, level: int) {
    level >= configLevel
  }

  /** A level that is emitted makes every higher one emitted. */
  lemma EmitsUpward(configLevel: int, level: int, higher: int)
    requires Emits(configLevel, level) && level <= higher
    ensures Emits(configLevel, higher)
  {
  }

  /** Whatever level was configured, Fatal messages are always written. */
  lemma FatalAlwaysEmitted(c: LogConfig)
    ensures Emits(WithDefaults(c).level, LEVEL_FATAL)
  {
  }

  /** The run of slashes at the end of a path removed. */
  function TrimTrailingSlashes(p: string): (r: string)
    ensures |r| <= |p| && r == p[..|r|]
    ensures r == "" || r[|r| - 1] != '/'
    ensures forall k :: |r| <= k < |p| ==> p[k] == '/'
    decreases |p|
  {
    if |p| > 0 && p[|p| - 1] == '/' then TrimTrailingSlashes(p[..|p| - 1]) else p
  }

  /** The longest slash-free suffix of `q`. */
  function LastElement(q: string): (r: string)
    ensures '/' !in r
    ensures |r| <= |q| && r == q[|q| - |r|..]
    ensures |r| < |q| ==> q[|q| - |r| - 1] == '/'
    decreases |q|
  {
    if |q| == 0 || q[|q| - 1] == '/' then ""
    else
      var r := LastElement(q[..|q| - 1]) + [q[|q| - 1]];
      assert q[..|q| - 1][|q| - |r|..] + [q[|q| - 1]] == q[|q| - |r|..];
      r
  }

  /** `filepath.Base` on slash-separated paths: "." for the empty path, "/"
      for one made of slashes only, else the last element. */
  function Base(p: string): (r: string)
    ensures r != ""
    ensures p == "" ==> r == "."
  {
    if p == "" then "."
    else
      var q := TrimTrailingSlashes(p);
      if q == "" then "/" else LastElement(q)
  }

  /** The base of `dir/name` is `name`, for any directory. */
  lemma BaseOfJoin(dir: string, name: string)
    requires name != "" && '/' !in name
    ensures Base(dir + "/" + name) == name
  {
    var p := dir + "/" + name;
    assert p[|p| - 1] == name[|name| - 1];
    assert TrimTrailingSlashes(p) == p;
    var r := LastElement(p);
    assert p[|p| - |name|..] == name;
    assert p[|p| - |name| - 1] == '/';
    assert |r| == |name|;
  }

  /** What `runtime.Caller(2)` reports: whether it succeeded, file and line. */
  datatype Caller = Caller(ok: bool, file: string, line: int)

  /** The `file:line` prefix: the base name and line, or "???" and 0. */
  function Site(c: Caller): string {
    if c.ok then Base(c.file) + ":" + GoInt.Itoa(c.line) else "???:0"
  }

  /** `<time> [<LEVEL>] <file>:<line>: <msg>`. */
  function FormatLine(timeStr: string, level: int, caller: Caller, msg: string): (line: string)
    ensures |line| >= |timeStr| + |msg|
    ensures line[..|timeStr|] == timeStr
    ensures line[|line| - |msg|..] == msg
  {
    timeStr + " [" + LevelName(level) + "] " + Site(caller) + ": " + msg
  }

  predicate IsOpenBracket(c: char) {
    c == '['
  }

  predicate IsCloseBracket(c: char) {
    c == ']'
  }

  /** A reader's view of a line: the text between its first '[' and the
      next ']'. */
  function LevelField(line: string): Option<string> {
    var i := Seqs.FirstIndex(line, IsOpenBracket);
    if i == |line| then None
    else
      var rest := line[i + 1..];
      var j := Seqs.FirstIndex(rest, IsCloseBracket);
      if j == |rest| then None else Some(rest[..j])
  }

  /** A bracketed field after a prefix without '[' is what `LevelField`
      reads, when the field itself has no ']'. */
  lemma BracketedField(prefix: string, field: string, rest: string)
    requires '[' !in prefix && ']' !in field
    ensures LevelField(prefix + "[" + field + "]" + rest) == Some(field)
  {
    var line := prefix + "[" + field + "]" + rest;
    var afterField := "]" + rest;
    var afterPrefix := "[" + (field + afterField);
    assert line == prefix + afterPrefix;
    forall k | 0 <= k < |prefix|
      ensures !IsOpenBracket(prefix[k])
    {
      assert prefix[k] in prefix;
    }
    Seqs.FirstIndexConcat(prefix, afterPrefix, IsOpenBracket);
    assert Seqs.FirstIndex(afterPrefix, IsOpenBracket) == 0;
    assert line[|prefix| + 1..] == field + afterField;
    forall k | 0 <= k < |field|
      ensures !IsCloseBracket(field[k])
    {
      assert field[k] in field;
    }
    Seqs.FirstIndexConcat(field, afterField, IsCloseBracket);
    assert Seqs.FirstIndex(afterField, IsCloseBracket) == 0;
    assert (field + afterField)[..|field|] == field;
  }

  /** The level name written into a line is the one read back from it, as
      long as the time stamp has no '[' (the layout used has none). */
  lemma FormatLineLevel(timeStr: string, level: int, caller: Caller, msg: string)
    requires '[' !in timeStr
    ensures LevelField(FormatLine(timeStr, level, caller, msg)) == Some(LevelName(level))
  {
    var prefix := timeStr + " ";
    var rest := " " + Site(caller) + ": " + msg;
    assert FormatLine(timeStr, level, caller, msg) == prefix + "[" + LevelName(level) + "]" + rest;
    assert '[' !in prefix by {
      assert forall c :: c in prefix ==> c in timeStr || c == ' ';
    }
    BracketedField(prefix, LevelName(level), rest);
  }

  datatype LogOutcome = Filtered | Written(line: string, exits: bool)

  /** `log` after rotation: a message below the level is dropped; otherwise
      the formatted line is written, and a Fatal one ends the process. */
  function Log(l: LoggerState, level: int, timeStr: string, caller: Caller, msg: string): (o: LogOutcome)
    ensures o.Written? <==> Emits(l.config.level, level)
    ensures o.Written? ==> (o.exits <==> level == LEVEL_FATAL)
    ensures o.Written? && '[' !in timeStr ==> LevelField(o.line) == Some(LevelName(level))
  {
    if !Emits(l.config.level, level) then Filtered
    else
      assert '[' !in timeStr ==> LevelField(FormatLine(timeStr, level, caller, msg)) == Some(LevelName(level)) by {
        if '[' !in timeStr {
          FormatLineLevel(timeStr, level, caller, msg);
        }
      }
      Written(FormatLine(timeStr, level, caller, msg), level == LEVEL_FATAL)
  }

  // ---------------------------------------------------------------------------
  // Rotation

  /** The backup a rotation renames the file to. */
  function BackupName(filename: string, timestamp: string): string {
    filename + "." + timestamp
  }

  /** The glob `<filename>.*`: the name, a dot, then anything without a
      path separator. */
  predicate MatchesBackupPattern(filename: string, path: string) {
    |path| > |filename| && path[..|filename| + 1] == filename + "." && '/' !in path[|filename| + 1..]
  }

  /** Every backup a rotation creates is one the pruning sees, and the live
      file itself never is. */
  lemma BackupIsPruneCandidate(filename: string, timestamp: string)
    requires '/' !in timestamp
    ensures MatchesBackupPattern(filename, BackupName(filename, timestamp))
    ensures !MatchesBackupPattern(filename, filename)
  {
    var b := BackupName(filename, timestamp);
    assert b[..|filename| + 1] == filename + ".";
    assert b[|filename| + 1..] == timestamp;
  }

  datatype RotateStep = NoFile | StatFailed | UnderLimit | RenameFailed(backup: string) | Rotated(backup: string)

  /** The decision part of `rotateFile`: nothing without an open file, the
      stat error, no rotation below `maxSize`, else the rename to the
      timestamped backup (which may fail). */
  function RotateDecision(c: LogConfig, fileOpen: bool, size: Option<int>, renameOk: bool, timestamp: string): (r: RotateStep)
    ensures r.Rotated? <==> fileOpen && size.Some? && size.value >= c.maxSize && renameOk
    ensures r.UnderLimit? <==> fileOpen && size.Some? && size.value < c.maxSize
    ensures (r.Rotated? || r.RenameFailed?) ==> r.backup == BackupName(c.filename, timestamp)
  {
    if !fileOpen then NoFile
    else if size.None? then StatFailed
    else if size.value < c.maxSize then UnderLimit
    else if !renameOk then RenameFailed(BackupName(c.filename, timestamp))
    else Rotated(BackupName(c.filename, timestamp))
  }

  // ---------------------------------------------------------------------------
  // Pruning backups

  datatype FileInfo = FileInfo(path: string, modTime: int)

  /** The files whose stat succeeded, in glob order; the others are skipped. */
  function StatAll(matches: seq<string>, modTimes: map<string, int>): (files: seq<FileInfo>)
    ensures |files| <= |matches|
    ensures forall f :: f in files <==> f.path in matches && f.path in modTimes && f.modTime == modTimes[f.path]
    decreases |matches|
  {
    if |matches| == 0 then []
    else
      var rest := StatAll(matches[1..], modTimes);
      assert forall x :: x in matches <==> x == matches[0] || x in matches[1..];
      if matches[0] in modTimes then [FileInfo(matches[0], modTimes[matches[0]])] + rest else rest
  }

  predicate SortedByModTime(s: seq<FileInfo>) {
    forall a, b :: 0 <= a < b < |s| ==> s[a].modTime <= s[b].modTime
  }

  function Swap(s: seq<FileInfo>, i: nat, j: nat): (r: seq<FileInfo>)
    requires i < |s| && j < |s|
    ensures |r| == |s|
    ensures r[i] == s[j] && r[j] == s[i]
    ensures forall k :: 0 <= k < |s| && k != i && k != j ==> r[k] == s[k]
  {
    s[i := s[j]][j := s[i]]
  }

  lemma SwapPermutes(s: seq<FileInfo>, i: nat, j: nat)
    requires i < |s| && j < |s|
    ensures multiset(Swap(s, i, j)) == multiset(s)
  {
  }

  /** A swap of two positions at or after `i` keeps everything before `i`
      sorted and no later than what follows. */
  lemma SwapKeepsPrefix(s: seq<FileInfo>, i: nat, j: nat)
    requires i < j < |s|
    requires forall a, b :: 0 <= a < b < |s| && a < i ==> s[a].modTime <= s[b].modTime
    ensures var r := Swap(s, i, j);
      forall a, b :: 0 <= a < b < |r| && a < i ==> r[a].modTime <= r[b].modTime
  {
    var r := Swap(s, i, j);
    forall a, b | 0 <= a < b < |r| && a < i
      ensures r[a].modTime <= r[b].modTime
    {
      assert r[a] == s[a];
      if b == i {
        assert s[a].modTime <= s[j].modTime;
      } else if b == j {
        assert s[a].modTime <= s[i].modTime;
      } else {
        assert r[b] == s[b];
      }
    }
  }

  /** The nested loop of `cleanBackups`: position `i` is swapped with every
      later file that is strictly older, so after the inner loop it holds the
      oldest remaining file. */
  method SortByModTime(files: seq<FileInfo>) returns (s: seq<FileInfo>)
    ensures multiset(s) == multiset(files)
    ensures SortedByModTime(s)
  {
    s := files;
    var n := |s|;
    var i := 0;
    while i < n - 1
      invariant |s| == n
      invariant n == 0 || i <= n - 1
      invariant multiset(s) == multiset(files)
      invariant forall a, b :: 0 <= a < b < n && a < i ==> s[a].modTime <= s[b].modTime
    {
      var j := i + 1;
      while j < n
        invariant i < j <= n && |s| == n
        invariant multiset(s) == multiset(files)
        invariant forall a, b :: 0 <= a < b < n && a < i ==> s[a].modTime <= s[b].modTime
        invariant forall k :: i < k < j ==> s[i].modTime <= s[k].modTime
      {
        if s[i].modTime > s[j].modTime {
          SwapPermutes(s, i, j);
          SwapKeepsPrefix(s, i, j);
          s := Swap(s, i, j);
        }
        j := j + 1;
      }
      i := i + 1;
    }
  }

  /** `cleanBackups`: on a glob error (`None`) nothing is removed, and nothing
      either while the glob found at most `maxBackups` files. Otherwise the
      files that could be stat-ed are sorted oldest first and the first
      `len(files) - maxBackups` of them are removed. Returns the removed
      paths and the sorted list (empty when it returned early). */
  method CleanBackups(globbed: Option<seq<string>>, modTimes: map<string, int>, maxBackups: int)
    returns (removed: seq<string>, sorted: seq<FileInfo>)
    requires maxBackups > 0
    ensures globbed.None? || |globbed.value| <= maxBackups ==> removed == [] && sorted == []
    ensures globbed.Some? && |globbed.value| > maxBackups ==>
      && multiset(sorted) == multiset(StatAll(globbed.value, modTimes))
      && SortedByModTime(sorted)
      && |removed| == (if |sorted| > maxBackups then |sorted| - maxBackups else 0)
      && |sorted| - |removed| <= maxBackups
    ensures |removed| <= |sorted|
    ensures forall k :: 0 <= k < |removed| ==> removed[k] == sorted[k].path
    ensures forall a, b :: 0 <= a < |removed| <= b < |sorted| ==> sorted[a].modTime <= sorted[b].modTime
  {
    if globbed.None? || |globbed.value| <= maxBackups {
      return [], [];
    }
    var files := StatAll(globbed.value, modTimes);
    sorted := SortByModTime(files);
    var toDelete := |sorted| - maxBackups;
    removed := [];
    var i := 0;
    while i < toDelete
      invariant 0 <= i && (toDelete <= 0 ==> i == 0) && (toDelete > 0 ==> i <= toDelete)
      invariant |removed| == i
      invariant forall k :: 0 <= k < i ==> removed[k] == sorted[k].path
    {
      removed := removed + [sorted[i].path];
      i := i + 1;
    }
  }

  // ---------------------------------------------------------------------------
  // The logger's mutex across a rotation

  /** Lock steps on the logger's one `sync.Mutex`. */
  datatype LockOp = Acquire | Release

  /** Running a series of lock steps from a given state: `None` when a step
      can never complete (acquiring a mutex already held by the same caller,
      which `sync.Mutex` does not allow, or releasing one not held, which is
      a fatal error). */
  function RunMutex(held: bool, ops: seq<LockOp>): (r: Option<bool>)
    decreases |ops|
  {
    if |ops| == 0 then Some(held)
    else if ops[0] == Acquire && held then None
    else if ops[0] == Release && !held then None
    else RunMutex(ops[0] == Acquire, ops[1..])
  }

  /** The lock steps of one `log` call as written: `log` takes the mutex and
      holds it across `rotateFile`; after a rotation, a glob failure inside
      `cleanBackups` logs through `log` again (when Error passes the filter)
      and `openFile` takes the mutex again. */
  function LogLockStepsAsWritten(emits: bool, rotated: bool, globFails: bool, errorEmits: bool): seq<LockOp> {
    if !emits then []
    else
      var nested := if rotated && globFails && errorEmits then [Acquire, Release] else [];
      var reopen := if rotated then [Acquire, Release] else [];
      [Acquire] + nested + reopen + [Release]
  }

  /** The same call with the rotation done entirely under the lock `log`
      already holds: the file is reopened without locking again and the glob
      failure is reported without going through `log`. */
  function LogLockStepsCorrected(emits: bool, rotated: bool): seq<LockOp> {
    if !emits then [] else [Acquire, Release]
  }

  /** As written, every write that rotates the file never returns: the
      second acquisition waits on the mutex its own caller holds. */
  lemma RotationBlocksAsWritten(globFails: bool, errorEmits: bool)
    ensures RunMutex(false, LogLockStepsAsWritten(true, true, globFails, errorEmits)) == None
  {
    var ops := LogLockStepsAsWritten(true, true, globFails, errorEmits);
    assert ops[0] == Acquire && ops[1] == Acquire;
    assert RunMutex(false, ops) == RunMutex(true, ops[1..]);
  }

  /** As written, a write without rotation does complete and releases the
      mutex. */
  lemma NoRotationCompletes(emits: bool, globFails: bool, errorEmits: bool)
    ensures RunMutex(false, LogLockStepsAsWritten(emits, false, globFails, errorEmits)) == Some(false)
  {
    var ops := LogLockStepsAsWritten(emits, false, globFails, errorEmits);
    if emits {
      assert ops == [Acquire, Release];
      assert RunMutex(false, ops) == RunMutex(true, [Release]);
      assert RunMutex(true, [Release]) == RunMutex(false, []);
    }
  }

  /** With the correction every call completes and leaves the mutex free. */
  lemma CorrectedAlwaysCompletes(emits: bool, rotated: bool)
    ensures RunMutex(false, LogLockStepsCorrected(emits, rotated)) == Some(false)
  {
    var ops := LogLockStepsCorrected(emits, rotated);
    if emits {
      assert RunMutex(false, ops) == RunMutex(true, [Release]);
      assert RunMutex(true, [Release]) == RunMutex(false, []);
    }
  }

  // ---------------------------------------------------------------------------
  // Whole sessions of writes

  /** One call of `log`, as far as the mutex is concerned: whether the level
      passes the filter, what `rotateFile` decides (`RotateDecision`: only
      `Rotated`, the file at its size limit and renamed, goes on to reopen
      it; a failed rename returns first), and, after a rotation, whether the
      backup glob fails and the resulting error passes the filter. */
  datatype Write = Write(emits: bool, step: RotateStep, globFails: bool, errorEmits: bool)

  /** A write that reaches the reopening: the one that re-locks the mutex. */
  predicate Rotates(w: Write) {
    w.emits && w.step.Rotated?
  }

  /** The lock steps of consecutive writes, as written. */
  function SessionAsWritten(ws: seq<Write>): seq<LockOp>
    decreases |ws|
  {
    if |ws| == 0 then []
    else LogLockStepsAsWritten(ws[0].emits, ws[0].step.Rotated?, ws[0].globFails, ws[0].errorEmits) + SessionAsWritten(ws[1..])
  }

  /** The lock steps of consecutive writes with the correction. */
  function SessionCorrected(ws: seq<Write>): seq<LockOp>
    decreases |ws|
  {
    if |ws| == 0 then []
    else LogLockStepsCorrected(ws[0].emits, ws[0].step.Rotated?) + SessionCorrected(ws[1..])
  }

  /** Running two series of steps is running the first, then the second from
      where the first left the mutex. */
  lemma {:induction false} RunMutexConcat(held: bool, a: seq<LockOp>, b: seq<LockOp>)
    ensures RunMutex(held, a + b) == (match RunMutex(held, a) case None => None case Some(h) => RunMutex(h, b))
    decreases |a|
  {
    if |a| == 0 {
      assert a + b == b;
    } else {
      assert (a + b)[0] == a[0];
      assert (a + b)[1..] == a[1..] + b;
      RunMutexConcat(a[0] == Acquire, a[1..], b);
    }
  }

  /** As written, a session of writes hangs exactly when one of its writes
      rotates the file; a session without rotation ends with the mutex free. */
  lemma {:induction false} SessionBlocksAsWritten(ws: seq<Write>)
    ensures RunMutex(false, SessionAsWritten(ws)).None? <==> exists i :: 0 <= i < |ws| && Rotates(ws[i])
    ensures RunMutex(false, SessionAsWritten(ws)).Some? ==> RunMutex(false, SessionAsWritten(ws)) == Some(false)
    decreases |ws|
  {
    if |ws| > 0 {
      var w := ws[0];
      var first := LogLockStepsAsWritten(w.emits, w.step.Rotated?, w.globFails, w.errorEmits);
      RunMutexConcat(false, first, SessionAsWritten(ws[1..]));
      SessionBlocksAsWritten(ws[1..]);
      if Rotates(w) {
        RotationBlocksAsWritten(w.globFails, w.errorEmits);
      } else {
        if w.emits {
          NoRotationCompletes(w.emits, w.globFails, w.errorEmits);
        } else {
          assert first == [];
        }
        if exists j :: 0 <= j < |ws[1..]| && Rotates(ws[1..][j]) {
          var j :| 0 <= j < |ws[1..]| && Rotates(ws[1..][j]);
          assert Rotates(ws[j + 1]);
        }
        if exists i :: 0 <= i < |ws| && Rotates(ws[i]) {
          var i :| 0 <= i < |ws| && Rotates(ws[i]);
          assert ws[1..][i - 1] == ws[i];
        }
      }
    }
  }

  /** With the correction every session completes and leaves the mutex free,
      whatever its writes are. */
  lemma {:induction false} SessionCorrectedCompletes(ws: seq<Write>)
    ensures RunMutex(false, SessionCorrected(ws)) == Some(false)
    decreases |ws|
  {
    if |ws| > 0 {
      RunMutexConcat(false, LogLockStepsCorrected(ws[0].emits, ws[0].step.Rotated?), SessionCorrected(ws[1..]));
      CorrectedAlwaysCompletes(ws[0].emits, ws[0].step.Rotated?);
      SessionCorrectedCompletes(ws[1..]);
    }
  }
}

=== FILE: maps.dfy ===
/** Go's `for k, v := range m` visits keys in an unspecified order. The model
    makes that order explicit: `KeyOrder` picks one, and every loop over a map
    is a function of the order it was given. */
module Maps {

  /** `ks` lists every key of `keys` exactly once. */
  predicate IsKeyOrder<K>(ks: seq<K>, keys: set<K>) {
    && (forall i, j :: 0 <= i < j < |ks| ==> ks[i] != ks[j])
    && (forall i :: 0 <= i < |ks| ==> ks[i] in keys)
    && (forall k :: k in keys ==> k in ks)
  }

  /** Some iteration order of the keys of `m`; which one is left unspecified. */
  method KeyOrder<K, V>(m: map<K, V>) returns (ks: seq<K>)
    ensures IsKeyOrder(ks, m.Keys)
    ensures |ks| == |m|
  {
    var rest := m.Keys;
    ks := [];
    while rest != {}
      invariant rest <= m.Keys
      invariant forall i :: 0 <= i < |ks| ==> ks[i] in m.Keys && ks[i] !in rest
      invariant forall i, j :: 0 <= i < j < |ks| ==> ks[i] != ks[j]
      invariant forall k :: k in m.Keys ==> k in rest || k in ks
      invariant |ks| + |rest| == |m.Keys|
      decreases |rest|
    {
      var k :| k in rest;
      ks := ks + [k];
      rest := rest - {k};
    }
  }
}

=== FILE: middleware.dfy ===
/** The request middleware (internal/api/middleware.go): bearer-token
    authentication, the privilege check and the CORS pre-flight short cut.
    Token verification and the privilege lookup are parameters: JWT parsing
    and the role tables are not part of this model. */
module Middleware {
  import opened Wrappers
  import Api
  import Seqs

  /** What a middleware does with the request: pass it on, or abort it with
      a status code. */
  datatype Outcome = Next | Abort(code: int)

  // ---------------------------------------------------------------------------
  // Authentication

  /** The claims a valid token carries. */
  datatype Claims = Claims(userId: int, username: string)

  datatype AuthError = MissingHeader | BadFormat | BadToken

  const BEARER := "Bearer"

  /** `strings.SplitN(s, sep, 2)`: the whole string when `sep` does not occur,
      otherwise the parts before and after its first occurrence. */
  function SplitOnce(s: string, sep: char): (parts: seq<string>)
    ensures sep !in s ==> parts == [s]
    ensures sep in s ==> |parts| == 2 && parts[0] + [sep] + parts[1] == s && sep !in parts[0]
  {
    var i := Seqs.FirstIndex(s, (c: char) => c == sep);
    if i == |s| then [s]
    else
      assert s[..i] + [sep] + s[i + 1..] == s by {
        assert s == s[..i] + s[i..] && s[i..] == [s[i]] + s[i + 1..];
      }
      [s[..i], s[i + 1..]]
  }

  /** `JWTAuthMiddleware`: the `Authorization` header must be `Bearer`, one
      space, then the token; `parseToken` is `auth.ParseToken`. Every
      failure is a 401. */
  function Authenticate(header: string, parseToken: string -> Option<Claims>): (r: Result<Claims, AuthError>)
    ensures header == "" ==> r == Err(MissingHeader)
    ensures r == Err(BadFormat) <==> header != "" && !HasBearerPrefix(header)
    ensures HasBearerPrefix(header) ==> r == (match parseToken(header[7..]) case None => Err(BadToken) case Some(c) => Ok(c))
  {
    if header == "" then Err(MissingHeader)
    else
      var parts := SplitOnce(header, ' ');
      BearerSplit(header);
      if !(|parts| == 2 && parts[0] == BEARER) then Err(BadFormat)
      else match parseToken(parts[1])
        case None => Err(BadToken)
        case Some(claims) => Ok(claims)
  }

  /** The header starts with `Bearer ` exactly, case included. */
  predicate HasBearerPrefix(header: string) {
    |header| >= 7 && header[..7] == BEARER + " "
  }

  /** Splitting at the first space yields `Bearer` and a remainder exactly
      when the header starts with `Bearer `, and the remainder is everything
      after that space. */
  lemma BearerSplit(header: string)
    ensures var parts := SplitOnce(header, ' ');
      (|parts| == 2 && parts[0] == BEARER) <==> HasBearerPrefix(header)
    ensures HasBearerPrefix(header) ==> SplitOnce(header, ' ')[1] == header[7..]
  {
    var parts := SplitOnce(header, ' ');
    if |parts| == 2 && parts[0] == BEARER {
      assert header == BEARER + [' '] + parts[1];
      assert header[..7] == BEARER + " ";
      assert header[7..] == parts[1];
    }
    if HasBearerPrefix(header) {
      assert header[6] == ' ';
      assert ' ' in header;
      assert |parts| == 2;
      var p0, p1 := parts[0], parts[1];
      assert header == p0 + [' '] + p1;
      assert ' ' !in BEARER;
      if |p0| != 6 {
        assert false;
      }
      assert p0 == header[..6] == BEARER;
      assert p1 == header[7..];
    }
  }

  /** Round trip: the token of `Bearer <t>` is `t`, spaces inside it
      included. */
  lemma BearerToken(t: string, parseToken: string -> Option<Claims>)
    requires parseToken(t).Some?
    ensures Authenticate(BEARER + " " + t, parseToken) == Ok(parseToken(t).value)
  {
    var header := BEARER + " " + t;
    assert HasBearerPrefix(header) && header[7..] == t;
  }

  /** The status of an authentication failure. */
  function AuthCode(e: AuthError): int {
    Api.STATUS_UNAUTHORIZED
  }

  // ---------------------------------------------------------------------------
  // Privileges

  /** `auth.CheckUserPrivilege`: the scan of the user's privilege names. */
  method HasPrivilege(privileges: seq<string>, required: string) returns (b: bool)
    ensures b <==> required in privileges
  {
    var i := 0;
    while i < |privileges|
      invariant 0 <= i <= |privileges|
      invariant required !in privileges[..i]
    {
      if privileges[i] == required {
        return true;
      }
      i := i + 1;
    }
    assert privileges[..i] == privileges;
    return false;
  }

  /** `PrivilegeMiddleware`: an unauthenticated request is 401, a failed
      lookup 500, a missing privilege 403. `lookup(user)` is `None` when
      the privilege query fails. */
  method CheckPrivilege(userId: Option<int>, lookup: int -> Option<seq<string>>, required: string) returns (o: Outcome)
    ensures userId.None? ==> o == Abort(Api.STATUS_UNAUTHORIZED)
    ensures userId.Some? && lookup(userId.value).None? ==> o == Abort(Api.STATUS_INTERNAL_SERVER_ERROR)
    ensures userId.Some? && lookup(userId.value).Some? && required !in lookup(userId.value).value ==> o == Abort(Api.STATUS_FORBIDDEN)
    ensures o == Next <==> userId.Some? && lookup(userId.value).Some? && required in lookup(userId.value).value
  {
    match userId
    case None =>
      o := Abort(Api.STATUS_UNAUTHORIZED);
    case Some(user) =>
      match lookup(user)
      case None =>
        o := Abort(Api.STATUS_INTERNAL_SERVER_ERROR);
      case Some(privileges) =>
        var ok := HasPrivilege(privileges, required);
        o := if ok then Next else Abort(Api.STATUS_FORBIDDEN);
  }

  // ---------------------------------------------------------------------------
  // CORS

  /** `CORSMiddleware`: a pre-flight `OPTIONS` request ends here with 204;
      every other method continues. The response headers it sets are
      constants and are not modelled. */
  function Cors(httpMethod: string): (o: Outcome)
    ensures o == Next <==> httpMethod != "OPTIONS"
    ensures o != Next ==> o.code == Api.STATUS_NO_CONTENT
  {
    if httpMethod == "OPTIONS" then Abort(Api.STATUS_NO_CONTENT) else Next
  }
}

=== FILE: monitor.dfy ===
/** The in-memory monitor (internal/monitor/monitor.go, types in
    pkg/model/monitor.go): per-host metric series, a rule list, and an alert
    list filled by a simple three-operator check on the latest sample.
    Times are nanoseconds on one clock; `now` is a parameter. */
module Monitor {
  import opened Wrappers
  import opened GoInt
  import opened Protocol
  import Seqs
  import Maps
  import AlertService

  const MINUTE: int := 60_000_000_000
  const HOUR: int := 3_600_000_000_000
  const DEFAULT_RETENTION_HOURS: int := 24
  /** `CheckAlerts` looks only at samples newer than this. */
  const RECENT_WINDOW: int := 5 * MINUTE

  datatype MonitorRule = MonitorRule(
    id: int,
    metricName: string,
    operator: string,
    threshold: real,
    message: string,
    severity: string,
    createdAt: int)

  datatype AlertMonitor = AlertMonitor(
    id: int,
    ruleId: int,
    hostId: int,
    metricName: string,
    value: real,
    threshold: real,
    message: string,
    severity: string,
    timestamp: int,
    status: string)

  datatype MonitorState = MonitorState(
    metrics: map<int, seq<MetricData>>,
    alerts: seq<AlertMonitor>,
    rules: seq<MonitorRule>,
    retention: int)

  /** A new service; a non-positive retention means 24 hours. The product
      with one hour is `time.Duration` arithmetic and wraps at 64 bits. */
  function NewMonitorService(retentionHours: int): (m: MonitorState)
    ensures m.metrics == map[] && m.alerts == [] && m.rules == []
    ensures retentionHours <= 0 ==> m.retention == DEFAULT_RETENTION_HOURS * HOUR
    ensures 0 < retentionHours <= INT64_MAX / HOUR ==> m.retention == retentionHours * HOUR
    ensures IsInt64(m.retention)
  {
    var hours := if retentionHours <= 0 then DEFAULT_RETENTION_HOURS else retentionHours;
    MonitorState(map[], [], [], Wrap64(hours * HOUR))
  }

  /** Samples stored for a host; none for an unknown host. */
  function HostMetrics(m: MonitorState, hostId: int): seq<MetricData> {
    if hostId in m.metrics then m.metrics[hostId] else []
  }

  /** Appends a batch to the host's series; the host's entry exists afterwards
      even when the batch is empty. */
  function StoreMetrics(m: MonitorState, hostId: int, batch: seq<MetricData>): (m': MonitorState)
    ensures hostId in m'.metrics
    ensures HostMetrics(m', hostId) == HostMetrics(m, hostId) + batch
    ensures forall h :: h != hostId ==> HostMetrics(m', h) == HostMetrics(m, h)
    ensures m'.metrics.Keys == m.metrics.Keys + {hostId}
    ensures m'.alerts == m.alerts && m'.rules == m.rules && m'.retention == m.retention
  {
    m.(metrics := m.metrics[hostId := HostMetrics(m, hostId) + batch])
  }

  /** Both window bounds are exclusive (`After(start) && Before(end)`). */
  predicate InWindow(t: int, start: int, end: int) {
    start < t < end
  }

  /** `GetMetrics`' sample filter: an empty name matches every metric. */
  function Selects(name: string, start: int, end: int): MetricData -> bool {
    (x: MetricData) => (name == "" || x.name == name) && InWindow(x.timestamp, start, end)
  }

  /** A sample is selected from one host's series iff that host is stored,
      the sample is in its series and it passes the name and window test. */
  lemma HostSelection(m: MonitorState, hostId: int, name: string, start: int, end: int, x: MetricData)
    ensures x in Seqs.Filter(HostMetrics(m, hostId), Selects(name, start, end)) <==>
      hostId in m.metrics && x in m.metrics[hostId] && (name == "" || x.name == name) && start < x.timestamp < end
  {
    Seqs.FilterMember(HostMetrics(m, hostId), Selects(name, start, end), x);
  }

  /** `getRecentMetrics`' filter: the name must match exactly. */
  function IsRecent(name: string, start: int, end: int): MetricData -> bool {
    (x: MetricData) => x.name == name && InWindow(x.timestamp, start, end)
  }

  /** The order-preserving subsequence of samples of one metric inside the window. */
  function GetRecentMetrics(ms: seq<MetricData>, name: string, start: int, end: int): (r: seq<MetricData>)
    ensures forall i :: 0 <= i < |r| ==> r[i] in ms && r[i].name == name && start < r[i].timestamp < end
    ensures forall i :: 0 <= i < |ms| && ms[i].name == name && start < ms[i].timestamp < end ==> ms[i] in r
  {
    Seqs.Filter(ms, IsRecent(name, start, end))
  }

  /** For a named metric the two filters agree. */
  lemma RecentMatchesSelects(ms: seq<MetricData>, name: string, start: int, end: int)
    requires name != ""
    ensures GetRecentMetrics(ms, name, start, end) == Seqs.Filter(ms, Selects(name, start, end))
  {
    assert forall x :: IsRecent(name, start, end)(x) == Selects(name, start, end)(x);
    FilterSamePredicate(ms, IsRecent(name, start, end), Selects(name, start, end));
  }

  lemma {:induction false} FilterSamePredicate<T>(s: seq<T>, p: T -> bool, q: T -> bool)
    requires forall x :: p(x) == q(x)
    ensures Seqs.Filter(s, p) == Seqs.Filter(s, q)
    decreases |s|
  {
    if |s| > 0 {
      FilterSamePredicate(s[1..], p, q);
    }
  }

  /** The selected samples of the hosts in `order`, host after host. */
  function SelectAll(metrics: map<int, seq<MetricData>>, order: seq<int>, p: MetricData -> bool): seq<MetricData>
    requires forall i :: 0 <= i < |order| ==> order[i] in metrics
    decreases |order|
  {
    if |order| == 0 then []
    else SelectAll(metrics, order[..|order| - 1], p) + Seqs.Filter(metrics[order[|order| - 1]], p)
  }

  /** A sample is in the aggregate iff it passes the filter and belongs to one
      of the listed hosts. */
  lemma {:induction false} SelectAllMembers(metrics: map<int, seq<MetricData>>, order: seq<int>, p: MetricData -> bool, x: MetricData)
    requires forall i :: 0 <= i < |order| ==> order[i] in metrics
    ensures x in SelectAll(metrics, order, p) <==> p(x) && exists i :: 0 <= i < |order| && x in metrics[order[i]]
    decreases |order|
  {
    if |order| > 0 {
      var last := order[|order| - 1];
      SelectAllMembers(metrics, order[..|order| - 1], p, x);
      Seqs.FilterMultiset(metrics[last], p, x);
      if p(x) && x in metrics[last] {
        assert x in multiset(Seqs.Filter(metrics[last], p));
      }
      if x in SelectAll(metrics, order, p) && !(x in SelectAll(metrics, order[..|order| - 1], p)) {
        assert x in Seqs.Filter(metrics[last], p);
        assert x in metrics[last];
      }
      if exists i :: 0 <= i < |order| && x in metrics[order[i]] {
        var i :| 0 <= i < |order| && x in metrics[order[i]];
        if i < |order| - 1 {
          assert order[..|order| - 1][i] == order[i];
        }
      }
    }
  }

  /** `GetMetrics`: one host's matching samples in stored order, or, for host 0,
      every host's matching samples with hosts visited in map order. An
      unknown host yields nothing. */
  method GetMetrics(m: MonitorState, hostId: int, name: string, start: int, end: int) returns (result: seq<MetricData>, order: seq<int>)
    ensures hostId != 0 ==> result == Seqs.Filter(HostMetrics(m, hostId), Selects(name, start, end))
    ensures hostId != 0 && hostId !in m.metrics ==> result == []
    ensures hostId == 0 ==> Maps.IsKeyOrder(order, m.metrics.Keys)
    ensures hostId == 0 ==> result == SelectAll(m.metrics, order, Selects(name, start, end))
    ensures hostId == 0 ==> forall x :: x in result <==>
      Selects(name, start, end)(x) && exists h :: h in m.metrics && x in m.metrics[h]
  {
    var p := Selects(name, start, end);
    if hostId != 0 {
      order := [];
      if hostId !in m.metrics {
        return [], order;
      }
      result := Seqs.Filter(m.metrics[hostId], p);
      return;
    }
    order := Maps.KeyOrder(m.metrics);
    result := [];
    var k := 0;
    while k < |order|
      invariant 0 <= k <= |order|
      invariant result == SelectAll(m.metrics, order[..k], p)
    {
      assert order[..k + 1][..k] == order[..k];
      result := result + Seqs.Filter(m.metrics[order[k]], p);
      k := k + 1;
    }
    assert order[..k] == order;
    forall x
      ensures x in result <==> p(x) && exists h :: h in m.metrics && x in m.metrics[h]
    {
      SelectAllHosts(m.metrics, order, p, x);
    }
  }

  /** Over a full key order, the aggregate holds exactly the selected samples
      of every host. */
  lemma SelectAllHosts(metrics: map<int, seq<MetricData>>, order: seq<int>, p: MetricData -> bool, x: MetricData)
    requires Maps.IsKeyOrder(order, metrics.Keys)
    ensures x in SelectAll(metrics, order, p) <==> p(x) && exists h :: h in metrics && x in metrics[h]
  {
    SelectAllMembers(metrics, order, p, x);
    if exists h :: h in metrics && x in metrics[h] {
      var h :| h in metrics && x in metrics[h];
      var i :| 0 <= i < |order| && order[i] == h;
    }
  }

  function AddAlertRule(m: MonitorState, rule: MonitorRule): (m': MonitorState)
    ensures m'.rules == m.rules + [rule]
    ensures m'.metrics == m.metrics && m'.alerts == m.alerts && m'.retention == m.retention
  {
    m.(rules := m.rules + [rule])
  }

  function AlertAt(start: int, end: int): AlertMonitor -> bool {
    (a: AlertMonitor) => InWindow(a.timestamp, start, end)
  }

  /** Alerts strictly inside the window, in recorded order. */
  function GetAlerts(m: MonitorState, start: int, end: int): (r: seq<AlertMonitor>)
    ensures forall i :: 0 <= i < |r| ==> r[i] in m.alerts && start < r[i].timestamp < end
    ensures forall i :: 0 <= i < |m.alerts| && start < m.alerts[i].timestamp < end ==> m.alerts[i] in r
  {
    Seqs.Filter(m.alerts, AlertAt(start, end))
  }

  /** The alerts returned keep their recorded order: they are exactly the
      alerts inside the window, at ascending positions of the stored list. */
  lemma GetAlertsKeepsOrder(m: MonitorState, start: int, end: int)
    ensures Seqs.KeptInOrder(GetAlerts(m, start, end), m.alerts, AlertAt(start, end), Seqs.FilterIndices(m.alerts, AlertAt(start, end)))
  {
    Seqs.FilterKeptInOrder(m.alerts, AlertAt(start, end));
  }

  // ---------------------------------------------------------------------------
  // Alert check

  /** The monitor's own comparison: `>`, `<` and `=` only. */
  predicate MonitorFires(op: string, value: real, threshold: real) {
    (op == ">" && value > threshold) || (op == "<" && value < threshold) || (op == "=" && value == threshold)
  }

  /** The two engines agree on `>` and `<`; the monitor's `=` is the other
      engine's `==`, which in turn never fires on `=`. Operators outside the
      monitor's three never fire here. */
  lemma EnginesCompared(op: string, value: real, threshold: real)
    ensures op in {">", "<"} ==> MonitorFires(op, value, threshold) == AlertService.EvaluateRule(op, value, threshold)
    ensures MonitorFires("=", value, threshold) == AlertService.EvaluateRule("==", value, threshold)
    ensures !AlertService.EvaluateRule("=", value, threshold)
    ensures op !in {">", "<", "="} ==> !MonitorFires(op, value, threshold)
  {
  }

  /** The last stored sample of the metric in the five minutes before `now`
      (the last in stored order, not the one with the greatest timestamp). */
  function Latest(ms: seq<MetricData>, name: string, now: int): (r: Option<MetricData>)
    ensures r.Some? ==> r.value in ms && r.value.name == name && now - RECENT_WINDOW < r.value.timestamp < now
    ensures r.None? <==> forall i :: 0 <= i < |ms| ==> !(ms[i].name == name && now - RECENT_WINDOW < ms[i].timestamp < now)
    ensures r.Some? ==> exists j :: 0 <= j < |ms| && ms[j] == r.value && NoneAfter(ms, j, name, now - RECENT_WINDOW, now)
  {
    var start := now - RECENT_WINDOW;
    var recent := GetRecentMetrics(ms, name, start, now);
    assert recent == Seqs.Filter(ms, IsRecent(name, start, now));
    if |recent| == 0 then None
    else
      var last := recent[|recent| - 1];
      assert exists j :: 0 <= j < |ms| && ms[j] == last && NoneAfter(ms, j, name, start, now) by {
        var j := RecentLast(ms, name, start, now);
        assert ms[j] == last;
      }
      Some(last)
  }

  /** No sample of the metric inside the window is stored after position `j`. */
  predicate NoneAfter(ms: seq<MetricData>, j: nat, name: string, start: int, end: int) {
    forall k :: j < k < |ms| ==> !(ms[k].name == name && start < ms[k].timestamp < end)
  }

  /** The last sample `getRecentMetrics` returns (the window filter below)
      has no matching sample stored after it. */
  lemma RecentLast(ms: seq<MetricData>, name: string, start: int, end: int) returns (j: nat)
    requires |Seqs.Filter(ms, IsRecent(name, start, end))| > 0
    ensures var recent := Seqs.Filter(ms, IsRecent(name, start, end));
      j < |ms| && ms[j] == recent[|recent| - 1]
    ensures NoneAfter(ms, j, name, start, end)
  {
    j := Seqs.FilterLast(ms, IsRecent(name, start, end));
    RecentNoneAfter(ms, j, name, start, end);
  }

  lemma RecentNoneAfter(ms: seq<MetricData>, j: nat, name: string, start: int, end: int)
    requires forall k :: j < k < |ms| ==> !IsRecent(name, start, end)(ms[k])
    ensures NoneAfter(ms, j, name, start, end)
  {
  }

  /** The alert one (rule, host) pair raises, if any. */
  function AlertFor(rule: MonitorRule, hostId: int, ms: seq<MetricData>, now: int): (a: Option<AlertMonitor>)
    ensures a.Some? ==>
      && Latest(ms, rule.metricName, now).Some?
      && MonitorFires(rule.operator, Latest(ms, rule.metricName, now).value.value, rule.threshold)
      && a.value.status == "ACTIVE" && a.value.timestamp == now
      && a.value.ruleId == rule.id && a.value.hostId == hostId && a.value.metricName == rule.metricName
      && a.value.value == Latest(ms, rule.metricName, now).value.value
      && a.value.threshold == rule.threshold && a.value.severity == rule.severity
      && a.value.message == rule.message && a.value.id == 0
    ensures Latest(ms, rule.metricName, now).Some? && MonitorFires(rule.operator, Latest(ms, rule.metricName, now).value.value, rule.threshold)
            ==> a.Some?
  {
    match Latest(ms, rule.metricName, now)
    case None => None
    case Some(x) =>
      if MonitorFires(rule.operator, x.value, rule.threshold) then
        Some(AlertMonitor(0, rule.id, hostId, rule.metricName, x.value, rule.threshold, rule.message, rule.severity, now, "ACTIVE"))
      else None
  }

  /** Alerts of one rule over the hosts in `order`, host after host. */
  function HostAlerts(rule: MonitorRule, metrics: map<int, seq<MetricData>>, order: seq<int>, now: int): (r: seq<AlertMonitor>)
    requires forall i :: 0 <= i < |order| ==> order[i] in metrics
    ensures |r| <= |order|
    decreases |order|
  {
    if |order| == 0 then []
    else
      var h := order[0];
      var rest := HostAlerts(rule, metrics, order[1..], now);
      match AlertFor(rule, h, metrics[h], now)
      case Some(a) => [a] + rest
      case None => rest
  }

  /** Each alert of the batch comes from one of the listed hosts, and every
      listed host the rule fires on contributes its alert. */
  lemma HostAlertsSpec(rule: MonitorRule, metrics: map<int, seq<MetricData>>, order: seq<int>, now: int)
    requires forall i :: 0 <= i < |order| ==> order[i] in metrics
    ensures forall a :: a in HostAlerts(rule, metrics, order, now) ==> FromSomeHost(rule, metrics, order, now, a)
    ensures forall i :: 0 <= i < |order| && AlertFor(rule, order[i], metrics[order[i]], now).Some? ==>
      AlertFor(rule, order[i], metrics[order[i]], now).value in HostAlerts(rule, metrics, order, now)
  {
    HostAlertsSound(rule, metrics, order, now);
    HostAlertsComplete(rule, metrics, order, now);
  }

  /** `a` is the alert the rule raises for one of the hosts in `order`. */
  ghost predicate FromSomeHost(rule: MonitorRule, metrics: map<int, seq<MetricData>>, order: seq<int>, now: int, a: AlertMonitor)
    requires forall i :: 0 <= i < |order| ==> order[i] in metrics
  {
    exists i :: 0 <= i < |order| && AlertFor(rule, order[i], metrics[order[i]], now) == Some(a)
  }

  lemma {:induction false} HostAlertsSound(rule: MonitorRule, metrics: map<int, seq<MetricData>>, order: seq<int>, now: int)
    requires forall i :: 0 <= i < |order| ==> order[i] in metrics
    ensures forall a :: a in HostAlerts(rule, metrics, order, now) ==> FromSomeHost(rule, metrics, order, now, a)
    decreases |order|
  {
    if |order| > 0 {
      var tail := order[1..];
      HostAlertsSound(rule, metrics, tail, now);
      var rest := HostAlerts(rule, metrics, tail, now);
      var first := AlertFor(rule, order[0], metrics[order[0]], now);
      assert HostAlerts(rule, metrics, order, now) == (if first.Some? then [first.value] else []) + rest;
      forall a | a in HostAlerts(rule, metrics, order, now)
        ensures FromSomeHost(rule, metrics, order, now, a)
      {
        if a in rest {
          assert FromSomeHost(rule, metrics, tail, now, a);
          var j :| 0 <= j < |tail| && AlertFor(rule, tail[j], metrics[tail[j]], now) == Some(a);
          assert tail[j] == order[j + 1];
        } else {
          assert first == Some(a);
        }
      }
    }
  }

  lemma {:induction false} HostAlertsComplete(rule: MonitorRule, metrics: map<int, seq<MetricData>>, order: seq<int>, now: int)
    requires forall i :: 0 <= i < |order| ==> order[i] in metrics
    ensures forall i :: 0 <= i < |order| && AlertFor(rule, order[i], metrics[order[i]], now).Some? ==>
      AlertFor(rule, order[i], metrics[order[i]], now).value in HostAlerts(rule, metrics, order, now)
    decreases |order|
  {
    if |order| > 0 {
      var tail := order[1..];
      HostAlertsComplete(rule, metrics, tail, now);
      var rest := HostAlerts(rule, metrics, tail, now);
      var first := AlertFor(rule, order[0], metrics[order[0]], now);
      assert HostAlerts(rule, metrics, order, now) == (if first.Some? then [first.value] else []) + rest;
      forall i | 0 <= i < |order| && AlertFor(rule, order[i], metrics[order[i]], now).Some?
        ensures AlertFor(rule, order[i], metrics[order[i]], now).value in HostAlerts(rule, metrics, order, now)
      {
        if i > 0 {
          assert order[i] == tail[i - 1];
        }
      }
    }
  }

  /** An alert the check may raise: some rule fires on some host's latest sample. */
  ghost predicate Raised(m: MonitorState, now: int, a: AlertMonitor) {
    exists r, h :: 0 <= r < |m.rules| && h in m.metrics && AlertFor(m.rules[r], h, m.metrics[h], now) == Some(a)
  }

  /** `CheckAlerts`: for every rule and every host (in map order), an `ACTIVE`
      alert when the latest recent sample satisfies the rule. New alerts are
      appended without looking at the existing ones. */
  method CheckAlerts(m: MonitorState, now: int) returns (m': MonitorState)
    ensures m'.metrics == m.metrics && m'.rules == m.rules && m'.retention == m.retention
    ensures |m.alerts| <= |m'.alerts| && m'.alerts[..|m.alerts|] == m.alerts
    ensures forall k :: |m.alerts| <= k < |m'.alerts| ==> Raised(m, now, m'.alerts[k])
    ensures forall r, h :: 0 <= r < |m.rules| && h in m.metrics && AlertFor(m.rules[r], h, m.metrics[h], now).Some? ==>
      AlertFor(m.rules[r], h, m.metrics[h], now).value in m'.alerts[|m.alerts|..]
  {
    var raised: seq<AlertMonitor> := [];
    var r := 0;
    while r < |m.rules|
      invariant 0 <= r <= |m.rules|
      invariant forall a :: a in raised ==> Raised(m, now, a)
      invariant forall r', h :: 0 <= r' < r && h in m.metrics && AlertFor(m.rules[r'], h, m.metrics[h], now).Some? ==>
        AlertFor(m.rules[r'], h, m.metrics[h], now).value in raised
    {
      var order := Maps.KeyOrder(m.metrics);
      var batch := HostAlerts(m.rules[r], m.metrics, order, now);
      BatchRaised(m, now, r, order);
      CollectStep(m, now, r, raised, batch);
      raised := raised + batch;
      r := r + 1;
    }
    m' := m.(alerts := m.alerts + raised);
    assert m'.alerts[..|m.alerts|] == m.alerts;
    assert m'.alerts[|m.alerts|..] == raised;
  }

  /** Appending rule `r`'s batch extends the coverage from rules `0..r-1` to `0..r`. */
  lemma CollectStep(m: MonitorState, now: int, r: nat, raised: seq<AlertMonitor>, batch: seq<AlertMonitor>)
    requires r < |m.rules|
    requires forall r', h :: 0 <= r' < r && h in m.metrics && AlertFor(m.rules[r'], h, m.metrics[h], now).Some? ==>
      AlertFor(m.rules[r'], h, m.metrics[h], now).value in raised
    requires forall h :: h in m.metrics && AlertFor(m.rules[r], h, m.metrics[h], now).Some? ==>
      AlertFor(m.rules[r], h, m.metrics[h], now).value in batch
    ensures forall r', h :: 0 <= r' <= r && h in m.metrics && AlertFor(m.rules[r'], h, m.metrics[h], now).Some? ==>
      AlertFor(m.rules[r'], h, m.metrics[h], now).value in raised + batch
  {
    forall r', h | 0 <= r' <= r && h in m.metrics && AlertFor(m.rules[r'], h, m.metrics[h], now).Some?
      ensures AlertFor(m.rules[r'], h, m.metrics[h], now).value in raised + batch
    {
      var a := AlertFor(m.rules[r'], h, m.metrics[h], now).value;
      if r' < r {
        assert a in raised;
      } else {
        assert a in batch;
      }
    }
  }

  /** One rule's batch over a full host order: every alert in it is raised,
      and every host the rule fires on contributes. */
  lemma BatchRaised(m: MonitorState, now: int, r: nat, order: seq<int>)
    requires r < |m.rules| && Maps.IsKeyOrder(order, m.metrics.Keys)
    ensures forall a :: a in HostAlerts(m.rules[r], m.metrics, order, now) ==> Raised(m, now, a)
    ensures forall h :: h in m.metrics && AlertFor(m.rules[r], h, m.metrics[h], now).Some? ==>
      AlertFor(m.rules[r], h, m.metrics[h], now).value in HostAlerts(m.rules[r], m.metrics, order, now)
  {
    var batch := HostAlerts(m.rules[r], m.metrics, order, now);
    HostAlertsSpec(m.rules[r], m.metrics, order, now);
    forall a | a in batch
      ensures Raised(m, now, a)
    {
      assert FromSomeHost(m.rules[r], m.metrics, order, now, a);
      var i :| 0 <= i < |order| && AlertFor(m.rules[r], order[i], m.metrics[order[i]], now) == Some(a);
    }
    forall h | h in m.metrics && AlertFor(m.rules[r], h, m.metrics[h], now).Some?
      ensures AlertFor(m.rules[r], h, m.metrics[h], now).value in batch
    {
      var i :| 0 <= i < |order| && order[i] == h;
    }
  }

  // ---------------------------------------------------------------------------
  // Retention

  function After(cutoff: int): MetricData -> bool {
    (x: MetricData) => x.timestamp > cutoff
  }

  /** An alert survives cleanup unless it is resolved and older than the cutoff. */
  function KeepAlert(cutoff: int): AlertMonitor -> bool {
    (a: AlertMonitor) => !(a.status == "RESOLVED" && a.timestamp < cutoff)
  }

  /** The alert list after cleanup, in recorded order. */
  function CleanAlerts(alerts: seq<AlertMonitor>, cutoff: int): (r: seq<AlertMonitor>)
    ensures forall a :: a in r <==> a in alerts && !(a.status == "RESOLVED" && a.timestamp < cutoff)
  {
    Seqs.Filter(alerts, KeepAlert(cutoff))
  }

  lemma CleanAlertsFixed(alerts: seq<AlertMonitor>, cutoff: int)
    requires AlertsClean(alerts, cutoff)
    ensures CleanAlerts(alerts, cutoff) == alerts
  {
    assert forall i :: 0 <= i < |alerts| ==> KeepAlert(cutoff)(alerts[i]) by {
      forall i | 0 <= i < |alerts|
        ensures KeepAlert(cutoff)(alerts[i])
      {
        assert alerts[i] in alerts;
      }
    }
    Seqs.FilterAll(alerts, KeepAlert(cutoff));
  }

  /** A series holds a sample newer than the cutoff. */
  predicate HasRecent(ms: seq<MetricData>, cutoff: int) {
    exists i :: 0 <= i < |ms| && ms[i].timestamp > cutoff
  }

  /** The samples of one series that survive the cutoff, in stored order. */
  function KeepSamples(ms: seq<MetricData>, cutoff: int): (r: seq<MetricData>)
    ensures forall x :: x in r <==> x in ms && x.timestamp > cutoff
    ensures |r| > 0 <==> HasRecent(ms, cutoff)
  {
    var r := Seqs.Filter(ms, After(cutoff));
    assert |r| > 0 <==> HasRecent(ms, cutoff) by {
      if HasRecent(ms, cutoff) {
        var i :| 0 <= i < |ms| && ms[i].timestamp > cutoff;
        assert After(cutoff)(ms[i]);
      }
      if |r| > 0 {
        assert r[0] in ms;
      }
    }
    r
  }

  /** The metric map after cleanup: hosts left without samples are deleted. */
  function CleanMetrics(metrics: map<int, seq<MetricData>>, cutoff: int): map<int, seq<MetricData>> {
    map h | h in metrics && |KeepSamples(metrics[h], cutoff)| > 0 :: KeepSamples(metrics[h], cutoff)
  }

  /** A host survives iff it has a sample newer than the cutoff, and a sample
      survives iff it is newer than the cutoff. */
  lemma CleanMetricsMembers(metrics: map<int, seq<MetricData>>, cutoff: int)
    ensures forall h :: h in CleanMetrics(metrics, cutoff) <==> h in metrics && HasRecent(metrics[h], cutoff)
    ensures forall h, x :: h in CleanMetrics(metrics, cutoff) && x in CleanMetrics(metrics, cutoff)[h] <==>
      h in metrics && x in metrics[h] && x.timestamp > cutoff
  {
  }

  /** The instant before which data expires: `now` less the retention period. */
  function Cutoff(m: MonitorState, now: int): int {
    now - m.retention
  }

  /** `cleanupExpiredData` at time `now`: keep samples newer than
      `now - retention`, drop hosts left without samples, and drop resolved
      alerts older than the cutoff. */
  function CleanupExpiredData(m: MonitorState, now: int): (m': MonitorState)
    ensures forall h :: h in m'.metrics <==> h in m.metrics && HasRecent(m.metrics[h], Cutoff(m, now))
    ensures forall h, x :: h in m'.metrics && x in m'.metrics[h] <==>
      h in m.metrics && x in m.metrics[h] && x.timestamp > Cutoff(m, now)
    ensures forall a :: a in m'.alerts <==> a in m.alerts && !(a.status == "RESOLVED" && a.timestamp < Cutoff(m, now))
    ensures m'.rules == m.rules && m'.retention == m.retention
  {
    CleanMetricsMembers(m.metrics, Cutoff(m, now));
    MonitorState(CleanMetrics(m.metrics, Cutoff(m, now)), CleanAlerts(m.alerts, Cutoff(m, now)), m.rules, m.retention)
  }

  /** Cleanup keeps the survivors in their recorded order: the alerts left are
      exactly the kept ones at ascending positions of the old list, and so
      are the samples left for each host. */
  lemma CleanupKeepsOrder(m: MonitorState, now: int)
    ensures var m' := CleanupExpiredData(m, now);
      var cutoff := Cutoff(m, now);
      && Seqs.KeptInOrder(m'.alerts, m.alerts, KeepAlert(cutoff), Seqs.FilterIndices(m.alerts, KeepAlert(cutoff)))
      && forall h :: h in m'.metrics ==>
           Seqs.KeptInOrder(m'.metrics[h], m.metrics[h], After(cutoff), Seqs.FilterIndices(m.metrics[h], After(cutoff)))
  {
    var cutoff := Cutoff(m, now);
    CleanupParts(m, now);
    CleanAlertsKeepOrder(m.alerts, cutoff);
    CleanMetricsAllKeepOrder(m.metrics, cutoff);
  }

  lemma CleanMetricsAllKeepOrder(metrics: map<int, seq<MetricData>>, cutoff: int)
    ensures forall h :: h in CleanMetrics(metrics, cutoff) ==>
      Seqs.KeptInOrder(CleanMetrics(metrics, cutoff)[h], metrics[h], After(cutoff), Seqs.FilterIndices(metrics[h], After(cutoff)))
  {
    forall h | h in CleanMetrics(metrics, cutoff)
      ensures Seqs.KeptInOrder(CleanMetrics(metrics, cutoff)[h], metrics[h], After(cutoff), Seqs.FilterIndices(metrics[h], After(cutoff)))
    {
      CleanMetricsKeepOrder(metrics, cutoff, h);
    }
  }

  lemma CleanupParts(m: MonitorState, now: int)
    ensures CleanupExpiredData(m, now).alerts == CleanAlerts(m.alerts, Cutoff(m, now))
    ensures CleanupExpiredData(m, now).metrics == CleanMetrics(m.metrics, Cutoff(m, now))
  {
  }

  lemma CleanAlertsKeepOrder(alerts: seq<AlertMonitor>, cutoff: int)
    ensures Seqs.KeptInOrder(CleanAlerts(alerts, cutoff), alerts, KeepAlert(cutoff), Seqs.FilterIndices(alerts, KeepAlert(cutoff)))
  {
    Seqs.FilterKeptInOrder(alerts, KeepAlert(cutoff));
  }

  lemma CleanMetricsKeepOrder(metrics: map<int, seq<MetricData>>, cutoff: int, h: int)
    requires h in CleanMetrics(metrics, cutoff)
    ensures h in metrics
    ensures Seqs.KeptInOrder(CleanMetrics(metrics, cutoff)[h], metrics[h], After(cutoff), Seqs.FilterIndices(metrics[h], After(cutoff)))
  {
    assert CleanMetrics(metrics, cutoff)[h] == Seqs.Filter(metrics[h], After(cutoff));
    Seqs.FilterKeptInOrder(metrics[h], After(cutoff));
  }

  /** Nothing left to clean: every stored host has a sample newer than the
      cutoff, every sample is newer than it, and no resolved alert is older. */
  predicate IsClean(m: MonitorState, cutoff: int) {
    MetricsClean(m.metrics, cutoff) && AlertsClean(m.alerts, cutoff)
  }

  predicate MetricsClean(metrics: map<int, seq<MetricData>>, cutoff: int) {
    && (forall h :: h in metrics ==> |metrics[h]| > 0)
    && (forall h, i :: h in metrics && 0 <= i < |metrics[h]| ==> metrics[h][i].timestamp > cutoff)
  }

  predicate AlertsClean(alerts: seq<AlertMonitor>, cutoff: int) {
    forall a :: a in alerts ==> !(a.status == "RESOLVED" && a.timestamp < cutoff)
  }

  lemma CleanupLeavesClean(m: MonitorState, now: int)
    ensures IsClean(CleanupExpiredData(m, now), Cutoff(m, now))
  {
  }

  lemma CleanMetricsFixed(metrics: map<int, seq<MetricData>>, cutoff: int)
    requires MetricsClean(metrics, cutoff)
    ensures CleanMetrics(metrics, cutoff) == metrics
  {
    var c := CleanMetrics(metrics, cutoff);
    CleanMetricsKeepsClean(metrics, cutoff);
    assert forall h :: h in c.Keys <==> h in metrics.Keys;
    assert c.Keys == metrics.Keys;
    assert forall h :: h in c ==> c[h] == metrics[h];
  }

  /** On clean data every host survives with its series whole. */
  lemma CleanMetricsKeepsClean(metrics: map<int, seq<MetricData>>, cutoff: int)
    requires MetricsClean(metrics, cutoff)
    ensures forall h :: h in metrics ==> h in CleanMetrics(metrics, cutoff) && CleanMetrics(metrics, cutoff)[h] == metrics[h]
    ensures forall h :: h in CleanMetrics(metrics, cutoff) ==> h in metrics
  {
    forall h | h in metrics
      ensures h in CleanMetrics(metrics, cutoff) && CleanMetrics(metrics, cutoff)[h] == metrics[h]
    {
      KeepSamplesFixed(metrics[h], cutoff);
    }
  }

  /** A non-empty series with every sample newer than the cutoff is kept whole. */
  lemma KeepSamplesFixed(ms: seq<MetricData>, cutoff: int)
    requires |ms| > 0
    requires forall i :: 0 <= i < |ms| ==> ms[i].timestamp > cutoff
    ensures KeepSamples(ms, cutoff) == ms
    ensures HasRecent(ms, cutoff)
  {
    Seqs.FilterAll(ms, After(cutoff));
    assert ms[0].timestamp > cutoff;
  }

  /** Cleanup changes nothing on a clean state. */
  lemma CleanupFixed(m: MonitorState, now: int)
    requires IsClean(m, Cutoff(m, now))
    ensures CleanupExpiredData(m, now) == m
  {
    CleanMetricsFixed(m.metrics, Cutoff(m, now));
    CleanAlertsFixed(m.alerts, Cutoff(m, now));
    CleanupFromParts(m, now);
  }

  /** Cleanup returns the state it is given once neither part changes. */
  lemma CleanupFromParts(m: MonitorState, now: int)
    requires CleanMetrics(m.metrics, Cutoff(m, now)) == m.metrics
    requires CleanAlerts(m.alerts, Cutoff(m, now)) == m.alerts
    ensures CleanupExpiredData(m, now) == m
  {
    CleanupParts(m, now);
  }

  /** Cleaning twice at the same instant changes nothing the second time. */
  lemma CleanupIdempotent(m: MonitorState, now: int)
    ensures CleanupExpiredData(CleanupExpiredData(m, now), now) == CleanupExpiredData(m, now)
  {
    CleanupLeavesClean(m, now);
    CleanupFixed(CleanupExpiredData(m, now), now);
  }
}

=== FILE: monitor_handler.dfy ===
/** The monitor endpoints (internal/api/monitor_handler.go) in front of the
    in-memory monitor: the default time windows of the metric and alert
    queries and the validation of a new alert rule. `now` is the server's
    clock in nanoseconds and `parseTime` is RFC 3339 parsing (`None` on
    failure). */
module MonitorHandler {
  import opened Wrappers
  import opened Protocol
  import Monitor
  import Api
  import GoInt
  import Seqs
  import Maps

  /** Why a monitor request is refused; each is a 400. */
  datatype MonitorError = BadHostId | BadStartTime | BadEndTime | InvalidBody | EmptyMetricName | BadOperator

  // ---------------------------------------------------------------------------
  // Time windows

  const METRICS_SPAN: int := Monitor.HOUR
  const ALERTS_SPAN: int := 24 * Monitor.HOUR

  /** The `[start, end]` pair of a query: an empty start is `span` before
      `now`, an empty end is `now`; a bound that does not parse is refused,
      the start first. */
  function Window(startParam: string, endParam: string, span: int, now: int, parseTime: string -> Option<int>): (r: Result<(int, int), MonitorError>)
    ensures startParam != "" && parseTime(startParam).None? ==> r == Err(BadStartTime)
    ensures r.Ok? <==> (startParam == "" || parseTime(startParam).Some?) && (endParam == "" || parseTime(endParam).Some?)
    ensures r.Err? ==> r.error == BadStartTime || r.error == BadEndTime
    ensures r.Ok? ==> r.value.0 == (if startParam == "" then now - span else parseTime(startParam).value)
    ensures r.Ok? ==> r.value.1 == (if endParam == "" then now else parseTime(endParam).value)
  {
    var start := if startParam == "" then Some(now - span) else parseTime(startParam);
    var end := if endParam == "" then Some(now) else parseTime(endParam);
    if start.None? then Err(BadStartTime)
    else if end.None? then Err(BadEndTime)
    else Ok((start.value, end.value))
  }

  /** `GetMetrics`: `host_id` defaults to 0 (every host) and must parse; the
      window defaults to the last hour. The samples are those the monitor
      returns for the host, name and window; for host 0 `order` is the map
      order the monitor visited the hosts in. */
  method GetMetrics(m: Monitor.MonitorState, hostParam: Option<string>, name: string, startParam: string, endParam: string,
                    now: int, parseTime: string -> Option<int>)
    returns (r: Result<seq<MetricData>, MonitorError>, order: seq<int>)
    ensures GoInt.Atoi(Api.DefaultQuery(hostParam, "0")).Err? ==> r == Err(BadHostId)
    ensures r.Ok? <==> GoInt.Atoi(Api.DefaultQuery(hostParam, "0")).Ok? && Window(startParam, endParam, METRICS_SPAN, now, parseTime).Ok?
    ensures r.Ok? ==>
      var hostId := GoInt.Atoi(Api.DefaultQuery(hostParam, "0")).value;
      var (start, end) := Window(startParam, endParam, METRICS_SPAN, now, parseTime).value;
      forall x :: x in r.value <==>
        start < x.timestamp < end && (name == "" || x.name == name)
        && exists h :: h in m.metrics && (hostId == 0 || h == hostId) && x in m.metrics[h]
    ensures r.Ok? && GoInt.Atoi(Api.DefaultQuery(hostParam, "0")).value != 0 ==>
      var (start, end) := Window(startParam, endParam, METRICS_SPAN, now, parseTime).value;
      r.value == Seqs.Filter(Monitor.HostMetrics(m, GoInt.Atoi(Api.DefaultQuery(hostParam, "0")).value), Monitor.Selects(name, start, end))
    ensures r.Ok? && GoInt.Atoi(Api.DefaultQuery(hostParam, "0")).value == 0 ==>
      var (start, end) := Window(startParam, endParam, METRICS_SPAN, now, parseTime).value;
      Maps.IsKeyOrder(order, m.metrics.Keys) && r.value == Monitor.SelectAll(m.metrics, order, Monitor.Selects(name, start, end))
  {
    order := [];
    match GoInt.Atoi(Api.DefaultQuery(hostParam, "0"))
    case Err(_) =>
      r := Err(BadHostId);
    case Ok(hostId) =>
      match Window(startParam, endParam, METRICS_SPAN, now, parseTime)
      case Err(e) =>
        r := Err(e);
      case Ok(w) =>
        var samples: seq<MetricData>;
        samples, order := Monitor.GetMetrics(m, hostId, name, w.0, w.1);
        forall x
          ensures x in samples <==>
            (w.0 < x.timestamp < w.1 && (name == "" || x.name == name)
             && exists h :: h in m.metrics && (hostId == 0 || h == hostId) && x in m.metrics[h])
        {
          if hostId != 0 {
            Monitor.HostSelection(m, hostId, name, w.0, w.1, x);
          }
        }
        r := Ok(samples);
  }

  /** `GetAlerts`: the window defaults to the last 24 hours; the alerts are
      the recorded ones strictly inside it, in recorded order. */
  function GetAlerts(m: Monitor.MonitorState, startParam: string, endParam: string, now: int, parseTime: string -> Option<int>)
    : (r: Result<seq<Monitor.AlertMonitor>, MonitorError>)
    ensures r.Ok? <==> Window(startParam, endParam, ALERTS_SPAN, now, parseTime).Ok?
    ensures r.Ok? ==>
      var (start, end) := Window(startParam, endParam, ALERTS_SPAN, now, parseTime).value;
      && r.value == Monitor.GetAlerts(m, start, end)
      && forall a :: a in r.value <==> a in m.alerts && start < a.timestamp < end
    ensures r.Ok? && startParam == "" && endParam == "" ==>
      forall a :: a in r.value <==> a in m.alerts && now - ALERTS_SPAN < a.timestamp < now
  {
    match Window(startParam, endParam, ALERTS_SPAN, now, parseTime)
    case Err(e) => Err(e)
    case Ok(w) =>
      var alerts := Monitor.GetAlerts(m, w.0, w.1);
      assert forall a :: a in alerts <==> a in m.alerts && w.0 < a.timestamp < w.1 by {
        forall a
          ensures a in alerts <==> a in m.alerts && w.0 < a.timestamp < w.1
        {
          Seqs.FilterMember(m.alerts, Monitor.AlertAt(w.0, w.1), a);
        }
      }
      Ok(alerts)
  }

  // ---------------------------------------------------------------------------
  // Alert rules

  /** The operators `CreateAlertRule` accepts. */
  predicate AcceptedOperator(op: string) {
    op == ">" || op == "<" || op == "="
  }

  /** `CreateAlertRule`: the metric name must be non-empty and the operator
      one of `>`, `<`, `=`; the rule takes its id from one clock read
      (`UnixNano`, `idClock`) and its creation time from a second one
      (`createdClock`), and is appended to the monitor's rules. */
  function CreateAlertRule(m: Monitor.MonitorState, body: Option<Monitor.MonitorRule>, idClock: int, createdClock: int)
    : (r: Result<(Monitor.MonitorState, Monitor.MonitorRule), MonitorError>)
    ensures body.None? ==> r == Err(InvalidBody)
    ensures body.Some? && body.value.metricName == "" ==> r == Err(EmptyMetricName)
    ensures body.Some? && body.value.metricName != "" && !AcceptedOperator(body.value.operator) ==> r == Err(BadOperator)
    ensures r.Ok? <==> body.Some? && body.value.metricName != "" && AcceptedOperator(body.value.operator)
    ensures r.Ok? ==>
      var (m', rule) := r.value;
      && rule == body.value.(id := idClock, createdAt := createdClock)
      && m'.rules == m.rules + [rule]
      && m'.metrics == m.metrics && m'.alerts == m.alerts && m'.retention == m.retention
  {
    match body
    case None => Err(InvalidBody)
    case Some(rule) =>
      if rule.metricName == "" then Err(EmptyMetricName)
      else if !AcceptedOperator(rule.operator) then Err(BadOperator)
      else
        var stored := rule.(id := idClock, createdAt := createdClock);
        Ok((Monitor.AddAlertRule(m, stored), stored))
  }

  /** The whitelist is exactly the set of operators the monitor's check can
      fire on: every accepted operator fires for some sample, and every
      refused one (`>=` among them) never would. */
  lemma AcceptedOperatorsFire(op: string)
    ensures AcceptedOperator(op) <==> exists v: real, t: real :: Monitor.MonitorFires(op, v, t)
  {
    if op == ">" {
      assert Monitor.MonitorFires(op, 1.0, 0.0);
    } else if op == "<" {
      assert Monitor.MonitorFires(op, 0.0, 1.0);
    } else if op == "=" {
      assert Monitor.MonitorFires(op, 0.0, 0.0);
    }
  }
}

=== FILE: protocol.dfy ===
/** The messages exchanged between the server and an agent
    (pkg/model/models.go): heartbeats carrying metrics and component states,
    commands sent to an agent, and the agent's responses. */
module Protocol {

  /** A metric sample; `timestamp` is a point in time on one fixed clock. */
  datatype MetricData = MetricData(name: string, value: real, timestamp: int)

  /** One component's state as reported by an agent. */
  datatype ComponentStatus = ComponentStatus(componentId: int, status: string, processId: int, message: string)

  /** The periodic report an agent sends about its host. */
  datatype HeartbeatRequest = HeartbeatRequest(
    hostId: int,
    timestamp: int,
    cpuUsage: real,
    memoryUsage: real,
    diskUsage: real,
    metrics: seq<MetricData>,
    components: seq<ComponentStatus>)

  /** The values a command payload carries. A number is held as the integer
      the agent reads from it; JSON numbers arrive as floating point and the
      agent truncates them, which is not modelled. */
  datatype PayloadValue =
    | Number(n: int)
    | Text(s: string)
    | Settings(entries: map<string, string>)

  type Payload = map<string, PayloadValue>

  const INSTALL := "INSTALL"
  const START := "START"
  const STOP := "STOP"
  const CONFIGURE := "CONFIGURE"

  /** A command for an agent. It names no host: whoever reads the queue runs it. */
  datatype AgentCommand = AgentCommand(commandId: string, kind: string, payload: Payload)

  /** The optional `result` object of a response. */
  datatype CommandResult = NoResult | ProcessId(pid: int)

  datatype AgentCommandResponse = AgentCommandResponse(
    commandId: string,
    success: bool,
    message: string,
    result: CommandResult)
}

=== FILE: seqs.dfy ===
/** Generic sequence helpers: order-preserving filter, `strings.Split` on one
    separator, and its inverse `Join`. */
module Seqs {

  /** Keeps, in order, the elements of `s` that satisfy `p` (Go's append-in-a-loop idiom). */
  function Filter<T>(s: seq<T>, p: T -> bool): (r: seq<T>)
    ensures |r| <= |s|
    ensures forall i :: 0 <= i < |r| ==> r[i] in s && p(r[i])
    ensures forall i :: 0 <= i < |s| && p(s[i]) ==> s[i] in r
    ensures multiset(r) <= multiset(s)
    decreases |s|
  {
    if |s| == 0 then []
    else
      var rest := Filter(s[1..], p);
      assert s == [s[0]] + s[1..];
      if p(s[0]) then [s[0]] + rest else rest
  }

  /** `idx` lists, ascending, the positions from `i` on that `Filter` keeps
      of `s[i..]`: reading `s` at them gives the filtered sequence, and every
      position from `i` on whose element satisfies `p` is listed. */
  ghost predicate KeptAt<T>(s: seq<T>, p: T -> bool, i: nat, idx: seq<nat>)
    requires i <= |s|
  {
    && |idx| == |Filter(s[i..], p)|
    && (forall k :: 0 <= k < |idx| ==> i <= idx[k] < |s| && p(s[idx[k]]) && Filter(s[i..], p)[k] == s[idx[k]])
    && (forall k, l :: 0 <= k < l < |idx| ==> idx[k] < idx[l])
    && (forall j {:trigger Listed(idx, j)} :: i <= j < |s| && p(s[j]) ==> Listed(idx, j))
  }

  /** `r` is `s` with exactly the elements satisfying `p` kept, in their
      original order: `idx` lists, ascending, the position in `s` of each
      element of `r`, and every position whose element satisfies `p`. */
  ghost predicate KeptInOrder<T>(r: seq<T>, s: seq<T>, p: T -> bool, idx: seq<nat>) {
    && |idx| == |r|
    && (forall k :: 0 <= k < |idx| ==> idx[k] < |s| && p(s[idx[k]]) && r[k] == s[idx[k]])
    && (forall k, l :: 0 <= k < l < |idx| ==> idx[k] < idx[l])
    && (forall j {:trigger Listed(idx, j)} :: 0 <= j < |s| && p(s[j]) ==> Listed(idx, j))
  }

  /** `j` is one of the positions in `idx`. */
  predicate Listed(idx: seq<nat>, j: int) {
    exists k :: 0 <= k < |idx| && idx[k] == j
  }

  /** The positions `Filter` keeps, ascending, from position `i` on. */
  function IndicesFrom<T>(s: seq<T>, p: T -> bool, i: nat): (idx: seq<nat>)
    requires i <= |s|
    ensures KeptAt(s, p, i, idx)
    decreases |s| - i
  {
    if i == |s| then []
    else
      var rest := IndicesFrom(s, p, i + 1);
      var idx := (if p(s[i]) then [i] else []) + rest;
      KeptAtStep(s, p, i, rest, idx);
      idx
  }

  /** The positions `Filter` keeps, ascending: the filtered sequence is `s`
      read at these positions, and every position whose element satisfies
      `p` is among them. So `Filter` keeps the order of `s`. */
  function FilterIndices<T>(s: seq<T>, p: T -> bool): (idx: seq<nat>)
    ensures |idx| == |Filter(s, p)|
    ensures forall k :: 0 <= k < |idx| ==> idx[k] < |s| && p(s[idx[k]]) && Filter(s, p)[k] == s[idx[k]]
    ensures forall k, l :: 0 <= k < l < |idx| ==> idx[k] < idx[l]
    ensures forall j {:trigger Listed(idx, j)} :: 0 <= j < |s| && p(s[j]) ==> Listed(idx, j)
  {
    assert s[0..] == s;
    IndicesFrom(s, p, 0)
  }

  /** The step of `IndicesFrom`: position `i` in front when it is kept. */
  lemma {:induction false} KeptAtStep<T>(s: seq<T>, p: T -> bool, i: nat, rest: seq<nat>, idx: seq<nat>)
    requires i < |s| && KeptAt(s, p, i + 1, rest)
    requires idx == (if p(s[i]) then [i] else []) + rest
    ensures KeptAt(s, p, i, idx)
  {
    assert s[i..][1..] == s[i + 1..];
    var d := if p(s[i]) then 1 else 0;
    var f, f1 := Filter(s[i..], p), Filter(s[i + 1..], p);
    assert f == (if p(s[i]) then [s[i]] else []) + f1;
    forall k | 0 <= k < |idx|
      ensures i <= idx[k] < |s| && p(s[idx[k]]) && f[k] == s[idx[k]]
    {
      KeptAtStepRead(s, p, i, rest, idx, d, f, f1, k);
    }
    KeptAtStepAscending(i, rest, idx, d);
    KeptAtStepCovers(s, p, i, rest, idx, d);
  }

  lemma {:induction false} KeptAtStepRead<T>(s: seq<T>, p: T -> bool, i: nat, rest: seq<nat>, idx: seq<nat>, d: nat,
                                             f: seq<T>, f1: seq<T>, k: nat)
    requires i < |s| && d == (if p(s[i]) then 1 else 0)
    requires f == (if p(s[i]) then [s[i]] else []) + f1
    requires idx == (if p(s[i]) then [i] else []) + rest
    requires |rest| == |f1| && k < |idx|
    requires d <= k ==> i + 1 <= rest[k - d] < |s| && p(s[rest[k - d]]) && f1[k - d] == s[rest[k - d]]
    ensures i <= idx[k] < |s| && p(s[idx[k]]) && f[k] == s[idx[k]]
  {
  }

  lemma {:induction false} KeptAtStepAscending(i: nat, rest: seq<nat>, idx: seq<nat>, d: nat)
    requires forall k :: 0 <= k < |rest| ==> i < rest[k]
    requires forall k, l :: 0 <= k < l < |rest| ==> rest[k] < rest[l]
    requires d <= 1 && idx == (if d == 1 then [i] else []) + rest
    ensures forall k, l :: 0 <= k < l < |idx| ==> idx[k] < idx[l]
  {
  }

  lemma {:induction false} KeptAtStepCovers<T>(s: seq<T>, p: T -> bool, i: nat, rest: seq<nat>, idx: seq<nat>, d: nat)
    requires i < |s| && d == (if p(s[i]) then 1 else 0)
    requires idx == (if p(s[i]) then [i] else []) + rest
    requires forall j {:trigger Listed(rest, j)} :: i + 1 <= j < |s| && p(s[j]) ==> Listed(rest, j)
    ensures forall j {:trigger Listed(idx, j)} :: i <= j < |s| && p(s[j]) ==> Listed(idx, j)
  {
    forall j | i <= j < |s| && p(s[j])
      ensures Listed(idx, j)
    {
      if j == i {
        assert idx[0] == i;
      } else {
        assert Listed(rest, j);
        var k :| 0 <= k < |rest| && rest[k] == j;
        assert idx[k + d] == j;
      }
    }
  }

  /** The last element `Filter` keeps is the last element of `s` that
      satisfies `p`. */
  lemma {:induction false} FilterLast<T>(s: seq<T>, p: T -> bool) returns (j: nat)
    requires |Filter(s, p)| > 0
    ensures j < |s| && s[j] == Filter(s, p)[|Filter(s, p)| - 1] && p(s[j])
    ensures forall k :: j < k < |s| ==> !p(s[k])
  {
    var idx := FilterIndices(s, p);
    j := idx[|idx| - 1];
    LastIsGreatest(idx);
    forall k | j < k < |s|
      ensures !p(s[k])
    {
      assert !Listed(idx, k);
    }
  }

  lemma LastIsGreatest(idx: seq<nat>)
    requires |idx| > 0
    requires forall k, l :: 0 <= k < l < |idx| ==> idx[k] < idx[l]
    ensures forall l :: 0 <= l < |idx| ==> idx[l] <= idx[|idx| - 1]
  {
  }

  lemma {:induction false} FilterConcat<T>(a: seq<T>, b: seq<T>, p: T -> bool)
    ensures Filter(a + b, p) == Filter(a, p) + Filter(b, p)
    decreases |a|
  {
    if |a| == 0 {
      assert a + b == b;
    } else {
      assert (a + b)[1..] == a[1..] + b;
      FilterConcat(a[1..], b, p);
    }
  }

  /** Filtering twice with the same predicate changes nothing the second time. */
  lemma {:induction false} FilterIdempotent<T>(s: seq<T>, p: T -> bool)
    ensures Filter(Filter(s, p), p) == Filter(s, p)
    decreases |s|
  {
    if |s| > 0 {
      FilterIdempotent(s[1..], p);
      if p(s[0]) {
        var r := Filter(s, p);
        assert r == [s[0]] + Filter(s[1..], p);
        assert r[1..] == Filter(s[1..], p);
      }
    }
  }

  /** When every element already satisfies `p`, `Filter` is the identity. */
  lemma {:induction false} FilterAll<T>(s: seq<T>, p: T -> bool)
    requires forall i :: 0 <= i < |s| ==> p(s[i])
    ensures Filter(s, p) == s
    decreases |s|
  {
    if |s| > 0 {
      FilterAll(s[1..], p);
      assert s == [s[0]] + s[1..];
    }
  }

  /** An element is kept iff it occurs in `s` and satisfies `p`. */
  lemma FilterMember<T>(s: seq<T>, p: T -> bool, x: T)
    ensures x in Filter(s, p) <==> x in s && p(x)
  {
    var r := Filter(s, p);
    if x in r {
      var i :| 0 <= i < |r| && r[i] == x;
    }
    if x in s && p(x) {
      var i :| 0 <= i < |s| && s[i] == x;
    }
  }

  /** How often `x` survives filtering: all its copies when it satisfies `p`, none otherwise. */
  lemma {:induction false} FilterMultiset<T>(s: seq<T>, p: T -> bool, x: T)
    ensures multiset(Filter(s, p))[x] == if p(x) then multiset(s)[x] else 0
    decreases |s|
  {
    if |s| > 0 {
      var r := Filter(s, p);
      var rest := Filter(s[1..], p);
      FilterMultiset(s[1..], p, x);
      ConsCount(s, x);
      if p(s[0]) {
        assert r == [s[0]] + rest;
        ConsCount(r, x);
        assert r[0] == s[0] && r[1..] == rest;
      } else {
        assert r == rest;
      }
    }
  }

  /** The count of `x` in a non-empty sequence splits at the head. */
  lemma ConsCount<T>(s: seq<T>, x: T)
    requires |s| > 0
    ensures multiset(s)[x] == (if s[0] == x then 1 else 0) + multiset(s[1..])[x]
  {
    assert s == [s[0]] + s[1..];
  }

  /** Nothing survives a filter no element satisfies. */
  lemma {:induction false} FilterNone<T>(s: seq<T>, p: T -> bool)
    requires forall i :: 0 <= i < |s| ==> !p(s[i])
    ensures Filter(s, p) == []
    decreases |s|
  {
    if |s| > 0 {
      FilterNone(s[1..], p);
    }
  }

  /** Filtering a single element keeps it iff it matches. */
  lemma FilterOne<T>(x: T, p: T -> bool)
    ensures Filter([x], p) == if p(x) then [x] else []
  {
    assert [x][1..] == [];
  }

  /** `Filter` keeps exactly the matching elements, in order. */
  lemma FilterKeptInOrder<T>(s: seq<T>, p: T -> bool)
    ensures KeptInOrder(Filter(s, p), s, p, FilterIndices(s, p))
  {
  }

  /** Position of the first element satisfying `p`, or `|s|` when none does. */
  function FirstIndex<T>(s: seq<T>, p: T -> bool): (i: nat)
    ensures i <= |s|
    ensures i < |s| ==> p(s[i])
    ensures forall j :: 0 <= j < i ==> !p(s[j])
    decreases |s|
  {
    if |s| == 0 then 0
    else if p(s[0]) then 0
    else 1 + FirstIndex(s[1..], p)
  }

  /** Searching past a prefix with no match adds the prefix length. */
  lemma {:induction false} FirstIndexConcat<T>(a: seq<T>, b: seq<T>, p: T -> bool)
    requires forall k :: 0 <= k < |a| ==> !p(a[k])
    ensures FirstIndex(a + b, p) == |a| + FirstIndex(b, p)
    decreases |a|
  {
    if |a| > 0 {
      assert (a + b)[0] == a[0];
      assert (a + b)[1..] == a[1..] + b;
      FirstIndexConcat(a[1..], b, p);
    } else {
      assert a + b == b;
    }
  }

  /** Number of occurrences of `x` in `s`. */
  function Count<T(==)>(s: seq<T>, x: T): (n: nat)
    ensures n == multiset(s)[x]
    ensures n <= |s|
    decreases |s|
  {
    if |s| == 0 then 0
    else
      assert s == [s[0]] + s[1..];
      (if s[0] == x then 1 else 0) + Count(s[1..], x)
  }

  /** The positions of `s` whose element satisfies `p`. */
  ghost function Matching<T>(s: seq<T>, p: T -> bool): set<int> {
    set i | 0 <= i < |s| && p(s[i])
  }

  /** Number of elements of `s` that satisfy `p`: a `SELECT COUNT(*)` with
      `p` as its `WHERE` clause. */
  function CountWhere<T>(s: seq<T>, p: T -> bool): (n: nat)
    ensures n == |Matching(s, p)|
    ensures n == 0 <==> forall i :: 0 <= i < |s| ==> !p(s[i])
    decreases |s|
  {
    if |s| == 0 then 0
    else
      var init := s[..|s| - 1];
      var n0 := CountWhere(init, p);
      assert Matching(s, p) == Matching(init, p) + (if p(s[|s| - 1]) then {|s| - 1} else {});
      n0 + (if p(s[|s| - 1]) then 1 else 0)
  }

  /** Go's `strings.Split(s, sep)` for a one-character separator: the pieces
      between separators, always at least one (the empty string splits into [""]). */
  function Split(s: string, sep: char): (parts: seq<string>)
    ensures |parts| >= 1
    ensures |parts| == Count(s, sep) + 1
    ensures forall i :: 0 <= i < |parts| ==> sep !in parts[i]
    decreases |s|
  {
    if |s| == 0 then [""]
    else
      var rest := Split(s[1..], sep);
      assert s == [s[0]] + s[1..];
      if s[0] == sep then [""] + rest
      else [[s[0]] + rest[0]] + rest[1..]
  }

  /** Go's `strings.Join(parts, sep)`. */
  function Join(parts: seq<string>, sep: char): string
    decreases |parts|
  {
    if |parts| == 0 then ""
    else if |parts| == 1 then parts[0]
    else parts[0] + [sep] + Join(parts[1..], sep)
  }

  lemma {:induction false} SplitNoSep(s: string, sep: char)
    requires sep !in s
    ensures Split(s, sep) == [s]
    decreases |s|
  {
    if |s| > 0 {
      SplitNoSep(s[1..], sep);
      assert s == [s[0]] + s[1..];
    }
  }

  /** Splitting a piece followed by the separator peels that piece off the front. */
  lemma {:induction false} SplitCons(p: string, sep: char, t: string)
    requires sep !in p
    ensures Split(p + [sep] + t, sep) == [p] + Split(t, sep)
    decreases |p|
  {
    if |p| == 0 {
      var s := p + [sep] + t;
      SplitStep(s, sep);
      assert s[0] == sep && s[1..] == t;
    } else {
      assert sep !in p[1..] by {
        assert forall c :: c in p[1..] ==> c in p;
      }
      SplitCons(p[1..], sep, t);
      SplitConsStep(p, sep, t);
    }
  }

  lemma {:induction false} SplitConsStep(p: string, sep: char, t: string)
    requires |p| > 0 && p[0] != sep
    requires Split(p[1..] + [sep] + t, sep) == [p[1..]] + Split(t, sep)
    ensures Split(p + [sep] + t, sep) == [p] + Split(t, sep)
  {
    var s := p + [sep] + t;
    assert s[0] == p[0] && s[1..] == p[1..] + [sep] + t;
    SplitStep(s, sep);
    PrependFirst(p, Split(s[1..], sep), Split(t, sep));
  }

  /** Putting back the first character of the first piece. */
  lemma PrependFirst(p: string, rest: seq<string>, tail: seq<string>)
    requires |p| > 0 && rest == [p[1..]] + tail
    ensures [[p[0]] + rest[0]] + rest[1..] == [p] + tail
  {
    assert rest[0] == p[1..] && rest[1..] == tail;
    assert [p[0]] + p[1..] == p;
  }

  /** `Split` undoes `Join` when no piece contains the separator. */
  lemma {:induction false} SplitJoin(parts: seq<string>, sep: char)
    requires |parts| >= 1
    requires forall i :: 0 <= i < |parts| ==> sep !in parts[i]
    ensures Split(Join(parts, sep), sep) == parts
    decreases |parts|
  {
    if |parts| == 1 {
      SplitNoSep(parts[0], sep);
    } else {
      SplitJoin(parts[1..], sep);
      SplitCons(parts[0], sep, Join(parts[1..], sep));
      assert parts == [parts[0]] + parts[1..];
    }
  }

  /** Prepending a character to the first piece prepends it to the joined string. */
  lemma JoinPrepend(c: char, parts: seq<string>, sep: char)
    requires |parts| >= 1
    ensures Join([[c] + parts[0]] + parts[1..], sep) == [c] + Join(parts, sep)
  {
    var q := [[c] + parts[0]] + parts[1..];
    assert q[1..] == parts[1..];
    if |parts| > 1 {
      assert Join(q, sep) == ([c] + parts[0]) + [sep] + Join(parts[1..], sep);
      assert Join(parts, sep) == parts[0] + [sep] + Join(parts[1..], sep);
    }
  }

  /** `Join` undoes `Split`: splitting loses nothing. */
  lemma {:induction false} JoinSplit(s: string, sep: char)
    ensures Join(Split(s, sep), sep) == s
    decreases |s|
  {
    if |s| > 0 {
      JoinSplit(s[1..], sep);
      if s[0] == sep {
        JoinSplitAtSep(s, sep);
      } else {
        JoinSplitAtChar(s, sep);
      }
    }
  }

  lemma JoinSplitAtSep(s: string, sep: char)
    requires |s| > 0 && s[0] == sep
    requires Join(Split(s[1..], sep), sep) == s[1..]
    ensures Join(Split(s, sep), sep) == s
  {
    var rest := Split(s[1..], sep);
    SplitStep(s, sep);
    JoinCons("", rest, sep);
    assert "" + [sep] + s[1..] == s;
  }

  /** Joining a piece in front of at least one more adds the piece and a separator. */
  lemma JoinCons(x: string, rest: seq<string>, sep: char)
    requires |rest| >= 1
    ensures Join([x] + rest, sep) == x + [sep] + Join(rest, sep)
  {
    assert ([x] + rest)[1..] == rest;
  }

  lemma JoinSplitAtChar(s: string, sep: char)
    requires |s| > 0 && s[0] != sep
    requires Join(Split(s[1..], sep), sep) == s[1..]
    ensures Join(Split(s, sep), sep) == s
  {
    var rest := Split(s[1..], sep);
    assert Split(s, sep) == [[s[0]] + rest[0]] + rest[1..];
    JoinPrepend(s[0], rest, sep);
    assert s == [s[0]] + s[1..];
  }

  /** A string that splits into exactly two pieces is those pieces around one separator. */
  lemma SplitTwo(s: string, sep: char)
    requires |Split(s, sep)| == 2
    ensures s == Split(s, sep)[0] + [sep] + Split(s, sep)[1]
  {
    JoinSplit(s, sep);
    var parts := Split(s, sep);
    assert parts[1..] == [parts[1]];
  }

  /** One step of `Split`: a leading separator opens an empty part, any other
      character joins the first part of the rest. */
  lemma SplitStep(s: string, sep: char)
    requires |s| > 0
    ensures s[0] == sep ==> Split(s, sep) == [""] + Split(s[1..], sep)
    ensures s[0] != sep ==> Split(s, sep) == [[s[0]] + Split(s[1..], sep)[0]] + Split(s[1..], sep)[1..]
  {
  }

  /** `n` copies of `c` (Go's `strings.Repeat` on a one-byte string). */
  function Repeat(c: char, n: nat): (r: string)
    ensures |r| == n
    ensures forall i :: 0 <= i < n ==> r[i] == c
  {
    seq(n, _ => c)
  }
}

=== FILE: service_handler.dfy ===
/** The service endpoints (internal/api/service_handler.go): the list query,
    creation, the start/stop/delete status guards, the component endpoints
    and the all-or-nothing deployment of a component to a batch of hosts.
    A handler maps the database and the request to either a failure or the
    database after its transaction commits; a failure leaves the database as
    it was, which is what the handlers' rollbacks achieve. */
module ServiceHandler {
  import opened Wrappers
  import opened Store
  import Api
  import GoInt
  import Seqs

  /** Why a request is refused; `Code` gives the HTTP status. */
  datatype ServiceError =
    | InvalidId
    | InvalidBody
    | ClusterMissing
    | DuplicateName
    | ServiceNotFound
    | NotStopped
    | NotRunning
    | StillRunning
    | DuplicateComponentType
    | ComponentNotFound
    | ComponentDeployed
    | HostMissing(hostId: int)
    | AlreadyDeployed(hostId: int)

  function Code(e: ServiceError): int {
    match e
    case ServiceNotFound | ComponentNotFound => Api.STATUS_NOT_FOUND
    case _ => Api.STATUS_BAD_REQUEST
  }

  const INSTALL_SERVICE := "INSTALL_SERVICE"
  const START_SERVICE := "START_SERVICE"
  const STOP_SERVICE := "STOP_SERVICE"
  const INSTALL_COMPONENT := "INSTALL_COMPONENT"
  const SERVICE := "SERVICE"
  const COMPONENT := "COMPONENT"

  // ---------------------------------------------------------------------------
  // Listing

  const CLUSTER_FILTER := Api.Condition("s.cluster_id", "=")
  const TYPE_FILTER := Api.Condition("s.service_type", "=")
  const STATUS_FILTER := Api.Condition("s.status", "=")

  /** The WHERE clause of `GetServices` for the `cluster_id`, `service_type`
      and `status` query parameters. */
  function ServiceWhere(clusterId: string, serviceType: string, status: string): Api.Query {
    Api.NestedWhere3(CLUSTER_FILTER, clusterId, TYPE_FILTER, serviceType, STATUS_FILTER, status)
  }

  /** The clause lists the non-empty filters in the order cluster, type,
      status. */
  lemma ServiceWhereCanonical(clusterId: string, serviceType: string, status: string)
    ensures ServiceWhere(clusterId, serviceType, status)
         == Api.Where(Api.TextFilter(CLUSTER_FILTER, clusterId) + Api.TextFilter(TYPE_FILTER, serviceType) + Api.TextFilter(STATUS_FILTER, status))
  {
    Api.NestedWhere3Canonical(CLUSTER_FILTER, clusterId, TYPE_FILTER, serviceType, STATUS_FILTER, status);
  }

  /** The clause has one placeholder per argument. */
  lemma ServiceWherePlaceholders(clusterId: string, serviceType: string, status: string)
    ensures var q := ServiceWhere(clusterId, serviceType, status);
      Api.Placeholders(q.where) == |q.args|
  {
    Api.ConditionPlaceholder("s.cluster_id", "=");
    Api.ConditionPlaceholder("s.service_type", "=");
    Api.ConditionPlaceholder("s.status", "=");
    Api.NestedWhere3Placeholders(CLUSTER_FILTER, clusterId, TYPE_FILTER, serviceType, STATUS_FILTER, status);
  }

  // ---------------------------------------------------------------------------
  // Creation

  predicate NameTaken(services: seq<Service>, name: string, clusterId: int) {
    exists i :: 0 <= i < |services| && services[i].serviceName == name && services[i].clusterId == clusterId
  }

  /** `CreateService`: the body must bind, the cluster must exist and the name
      must be free in that cluster; the service is inserted as `INSTALLING`
      under the auto-increment id together with a pending install task. */
  function CreateService(db: Db, body: Option<Service>, newId: int): (r: Result<(Db, Service), ServiceError>)
    ensures body.None? ==> r == Err(InvalidBody)
    ensures body.Some? && !ClusterExists(db, body.value.clusterId) ==> r == Err(ClusterMissing)
    ensures body.Some? && ClusterExists(db, body.value.clusterId) && NameTaken(db.services, body.value.serviceName, body.value.clusterId)
      ==> r == Err(DuplicateName)
    ensures r.Ok? <==> body.Some? && ClusterExists(db, body.value.clusterId) && !NameTaken(db.services, body.value.serviceName, body.value.clusterId)
    ensures r.Ok? ==>
      var (db', created) := r.value;
      && created.id == newId && created.status == INSTALLING
      && created.(id := body.value.id, status := body.value.status) == body.value
      && db'.services == db.services + [created]
      && db'.tasks == db.tasks + [Task(INSTALL_SERVICE, newId, SERVICE, PENDING)]
      && db'.(services := db.services, tasks := db.tasks) == db
  {
    match body
    case None => Err(InvalidBody)
    case Some(s) =>
      if !ClusterExists(db, s.clusterId) then Err(ClusterMissing)
      else if NameTaken(db.services, s.serviceName, s.clusterId) then Err(DuplicateName)
      else
        var created := Service(newId, s.clusterId, s.serviceType, s.serviceName, s.version, INSTALLING);
        Ok((db.(services := db.services + [created], tasks := db.tasks + [Task(INSTALL_SERVICE, newId, SERVICE, PENDING)]), created))
  }

  /** Repeating a successful creation is refused: the name is now taken. */
  lemma CreateServiceTwice(db: Db, body: Option<Service>, newId: int, nextId: int)
    requires CreateService(db, body, newId).Ok?
    ensures CreateService(CreateService(db, body, newId).value.0, body, nextId) == Err(DuplicateName)
  {
    var db' := CreateService(db, body, newId).value.0;
    var created := CreateService(db, body, newId).value.1;
    assert db'.services[|db.services|] == created;
    assert NameTaken(db'.services, body.value.serviceName, body.value.clusterId);
    assert db'.clusters == db.clusters;
  }

  // ---------------------------------------------------------------------------
  // Start, stop, delete

  /** `StartService`: allowed only from `STOPPED`; sets `RUNNING` and queues a
      pending start task. */
  function StartService(db: Db, idParam: string): (r: Result<Db, ServiceError>)
    ensures Api.ParseId(idParam).None? ==> r == Err(InvalidId)
    ensures r.Ok? <==> Api.ParseId(idParam).Some? && ServiceStatus(db.services, Api.ParseId(idParam).value) == Some(STOPPED)
    ensures Api.ParseId(idParam).Some? && ServiceStatus(db.services, Api.ParseId(idParam).value).None? ==> r == Err(ServiceNotFound)
    ensures (Api.ParseId(idParam).Some? && ServiceStatus(db.services, Api.ParseId(idParam).value).Some?
             && ServiceStatus(db.services, Api.ParseId(idParam).value) != Some(STOPPED)) ==> r == Err(NotStopped)
    ensures r.Ok? ==>
      var id := Api.ParseId(idParam).value;
      && r.value.services == SetServiceStatus(db.services, id, RUNNING)
      && r.value.tasks == db.tasks + [Task(START_SERVICE, id, SERVICE, PENDING)]
      && r.value.(services := db.services, tasks := db.tasks) == db
  {
    match Api.ParseId(idParam)
    case None => Err(InvalidId)
    case Some(id) =>
      match ServiceStatus(db.services, id)
      case None => Err(ServiceNotFound)
      case Some(status) =>
        if status != STOPPED then Err(NotStopped)
        else Ok(db.(services := SetServiceStatus(db.services, id, RUNNING), tasks := db.tasks + [Task(START_SERVICE, id, SERVICE, PENDING)]))
  }

  /** `StopService`: allowed only from `RUNNING`; sets `STOPPED` and queues a
      pending stop task. */
  function StopService(db: Db, idParam: string): (r: Result<Db, ServiceError>)
    ensures Api.ParseId(idParam).None? ==> r == Err(InvalidId)
    ensures r.Ok? <==> Api.ParseId(idParam).Some? && ServiceStatus(db.services, Api.ParseId(idParam).value) == Some(RUNNING)
    ensures Api.ParseId(idParam).Some? && ServiceStatus(db.services, Api.ParseId(idParam).value).None? ==> r == Err(ServiceNotFound)
    ensures (Api.ParseId(idParam).Some? && ServiceStatus(db.services, Api.ParseId(idParam).value).Some?
             && ServiceStatus(db.services, Api.ParseId(idParam).value) != Some(RUNNING)) ==> r == Err(NotRunning)
    ensures r.Ok? ==>
      var id := Api.ParseId(idParam).value;
      && r.value.services == SetServiceStatus(db.services, id, STOPPED)
      && r.value.tasks == db.tasks + [Task(STOP_SERVICE, id, SERVICE, PENDING)]
      && r.value.(services := db.services, tasks := db.tasks) == db
  {
    match Api.ParseId(idParam)
    case None => Err(InvalidId)
    case Some(id) =>
      match ServiceStatus(db.services, id)
      case None => Err(ServiceNotFound)
      case Some(status) =>
        if status != RUNNING then Err(NotRunning)
        else Ok(db.(services := SetServiceStatus(db.services, id, STOPPED), tasks := db.tasks + [Task(STOP_SERVICE, id, SERVICE, PENDING)]))
  }

  /** Start and stop are never both allowed on the same state. */
  lemma StartStopExclusive(db: Db, idParam: string)
    ensures !(StartService(db, idParam).Ok? && StopService(db, idParam).Ok?)
  {
  }

  /** A started service can be stopped again, which restores its status; the
      two tasks are queued in order. */
  lemma StartThenStop(db: Db, idParam: string)
    requires StartService(db, idParam).Ok?
    ensures var db1 := StartService(db, idParam).value;
      && StopService(db1, idParam).Ok?
      && var db2 := StopService(db1, idParam).value;
      && var id := Api.ParseId(idParam).value;
      && ServiceStatus(db2.services, id) == Some(STOPPED)
      && db2.tasks == db.tasks + [Task(START_SERVICE, id, SERVICE, PENDING), Task(STOP_SERVICE, id, SERVICE, PENDING)]
  {
    var id := Api.ParseId(idParam).value;
    var db1 := StartService(db, idParam).value;
    SetServiceStatusReads(db.services, id, RUNNING, id);
    var db2 := StopService(db1, idParam).value;
    SetServiceStatusReads(db1.services, id, STOPPED, id);
  }

  /** `DeleteService`: refused while `RUNNING`; otherwise removes the service's
      configuration, its components, its metrics and the service row. Hosts'
      deployments of the removed components are left in place. */
  function DeleteService(db: Db, idParam: string): (r: Result<Db, ServiceError>)
    ensures Api.ParseId(idParam).None? ==> r == Err(InvalidId)
    ensures Api.ParseId(idParam).Some? && ServiceStatus(db.services, Api.ParseId(idParam).value).None? ==> r == Err(ServiceNotFound)
    ensures Api.ParseId(idParam).Some? && ServiceStatus(db.services, Api.ParseId(idParam).value) == Some(RUNNING) ==> r == Err(StillRunning)
    ensures r.Ok? <==> (Api.ParseId(idParam).Some? && ServiceStatus(db.services, Api.ParseId(idParam).value).Some?
                        && ServiceStatus(db.services, Api.ParseId(idParam).value) != Some(RUNNING))
    ensures r.Ok? ==>
      var id := Api.ParseId(idParam).value;
      && (forall s :: s in r.value.services <==> s in db.services && s.id != id)
      && (forall c :: c in r.value.components <==> c in db.components && c.serviceId != id)
      && (forall m :: m in r.value.metrics <==> m in db.metrics && m.serviceId != Some(id))
      && (forall c :: c in r.value.configs <==> c in db.configs && !(c.scopeType == SERVICE && c.scopeId == id))
      && r.value.hostComponents == db.hostComponents
      && r.value.(services := db.services, components := db.components, metrics := db.metrics, configs := db.configs) == db
  {
    match Api.ParseId(idParam)
    case None => Err(InvalidId)
    case Some(id) =>
      match ServiceStatus(db.services, id)
      case None => Err(ServiceNotFound)
      case Some(status) =>
        if status == RUNNING then Err(StillRunning)
        else
          Ok(db.(
            configs := Seqs.Filter(db.configs, (c: Config) => !(c.scopeType == SERVICE && c.scopeId == id)),
            components := Seqs.Filter(db.components, (c: ServiceComponent) => c.serviceId != id),
            metrics := Seqs.Filter(db.metrics, (m: Metric) => m.serviceId != Some(id)),
            services := Seqs.Filter(db.services, (s: Service) => s.id != id)))
  }

  /** After a deletion the id no longer resolves, so a second delete is 404. */
  lemma DeleteServiceTwice(db: Db, idParam: string)
    requires Api.ParseId(idParam).Some?
    requires ServiceStatus(db.services, Api.ParseId(idParam).value).Some?
    requires ServiceStatus(db.services, Api.ParseId(idParam).value) != Some(RUNNING)
    ensures DeleteService(db, idParam).Ok?
    ensures DeleteService(DeleteService(db, idParam).value, idParam) == Err(ServiceNotFound)
  {
    var id := Api.ParseId(idParam).value;
    var db' := DeleteService(db, idParam).value;
    forall i | 0 <= i < |db'.services|
      ensures db'.services[i].id != id
    {
      assert db'.services[i] in db'.services;
    }
  }

  // ---------------------------------------------------------------------------
  // Components

  predicate TypeTaken(components: seq<ServiceComponent>, serviceId: int, componentType: string) {
    exists i :: 0 <= i < |components| && components[i].serviceId == serviceId && components[i].componentType == componentType
  }

  /** `AddServiceComponent`: the service must exist (404) and have no component
      of the same type (400); the component is inserted under that service. */
  function AddServiceComponent(db: Db, idParam: string, body: Option<ServiceComponent>, newId: int): (r: Result<(Db, ServiceComponent), ServiceError>)
    ensures Api.ParseId(idParam).None? ==> r == Err(InvalidId)
    ensures Api.ParseId(idParam).Some? && body.None? ==> r == Err(InvalidBody)
    ensures Api.ParseId(idParam).Some? && body.Some? && !ServiceExists(db, Api.ParseId(idParam).value) ==> r == Err(ServiceNotFound)
    ensures r.Ok? <==> (Api.ParseId(idParam).Some? && body.Some? && ServiceExists(db, Api.ParseId(idParam).value)
                        && !TypeTaken(db.components, Api.ParseId(idParam).value, body.value.componentType))
    ensures r.Ok? ==>
      var (db', added) := r.value;
      && added == ServiceComponent(newId, Api.ParseId(idParam).value, body.value.componentType, body.value.desiredInstances)
      && db' == db.(components := db.components + [added])
  {
    match Api.ParseId(idParam)
    case None => Err(InvalidId)
    case Some(serviceId) =>
      match body
      case None => Err(InvalidBody)
      case Some(c) =>
        if !ServiceExists(db, serviceId) then Err(ServiceNotFound)
        else if TypeTaken(db.components, serviceId, c.componentType) then Err(DuplicateComponentType)
        else
          var added := ServiceComponent(newId, serviceId, c.componentType, c.desiredInstances);
          Ok((db.(components := db.components + [added]), added))
  }

  /** A service has at most one component of each type as long as every
      component is added through `AddServiceComponent`. */
  predicate TypesUnique(components: seq<ServiceComponent>) {
    forall i, j :: 0 <= i < j < |components| ==>
      !(components[i].serviceId == components[j].serviceId && components[i].componentType == components[j].componentType)
  }

  lemma AddServiceComponentKeepsTypesUnique(db: Db, idParam: string, body: Option<ServiceComponent>, newId: int)
    requires TypesUnique(db.components)
    requires AddServiceComponent(db, idParam, body, newId).Ok?
    ensures TypesUnique(AddServiceComponent(db, idParam, body, newId).value.0.components)
  {
    var cs := AddServiceComponent(db, idParam, body, newId).value.0.components;
    forall i, j | 0 <= i < j < |cs|
      ensures !(cs[i].serviceId == cs[j].serviceId && cs[i].componentType == cs[j].componentType)
    {
      if j == |db.components| {
        assert cs[i] == db.components[i];
      }
    }
  }

  /** `DeleteServiceComponent`: the component must exist (404) and be deployed
      on no host (400); the row is then removed. */
  function DeleteServiceComponent(db: Db, idParam: string): (r: Result<Db, ServiceError>)
    ensures Api.ParseId(idParam).None? ==> r == Err(InvalidId)
    ensures Api.ParseId(idParam).Some? && !ComponentExists(db, Api.ParseId(idParam).value) ==> r == Err(ComponentNotFound)
    ensures r.Ok? <==> (Api.ParseId(idParam).Some? && ComponentExists(db, Api.ParseId(idParam).value)
                        && forall i :: 0 <= i < |db.hostComponents| ==> db.hostComponents[i].componentId != Api.ParseId(idParam).value)
    ensures r.Ok? ==>
      && (forall c :: c in r.value.components <==> c in db.components && c.id != Api.ParseId(idParam).value)
      && r.value.(components := db.components) == db
  {
    match Api.ParseId(idParam)
    case None => Err(InvalidId)
    case Some(id) =>
      if !ComponentExists(db, id) then Err(ComponentNotFound)
      else if HostsOfComponent(db.hostComponents, id) > 0 then Err(ComponentDeployed)
      else Ok(db.(components := Seqs.Filter(db.components, (c: ServiceComponent) => c.id != id)))
  }

  // ---------------------------------------------------------------------------
  // Deploying a component to hosts

  function InstallTask(componentId: int): Task {
    Task(INSTALL_COMPONENT, componentId, COMPONENT, PENDING)
  }

  /** The loop body of `DeployComponent`, host by host inside one transaction:
      each host must exist and must not already carry the component (rows
      inserted earlier in the same transaction count). */
  function DeployToHosts(db: Db, componentId: int, hostIds: seq<int>): Result<Db, ServiceError>
    decreases |hostIds|
  {
    if |hostIds| == 0 then Ok(db)
    else
      var h := hostIds[0];
      if !HostExists(db, h) then Err(HostMissing(h))
      else if Deployed(db.hostComponents, h, componentId) then Err(AlreadyDeployed(h))
      else
        DeployToHosts(db.(hostComponents := db.hostComponents + [HostComponent(h, componentId, INSTALLING, None)],
                          tasks := db.tasks + [InstallTask(componentId)]),
                      componentId, hostIds[1..])
  }

  /** The rows a successful batch inserts, one per host in request order. */
  function Mappings(componentId: int, hostIds: seq<int>): (hcs: seq<HostComponent>)
    ensures |hcs| == |hostIds|
    ensures forall i :: 0 <= i < |hostIds| ==> hcs[i] == HostComponent(hostIds[i], componentId, INSTALLING, None)
  {
    seq(|hostIds|, i requires 0 <= i < |hostIds| => HostComponent(hostIds[i], componentId, INSTALLING, None))
  }

  function InstallTasks(componentId: int, n: nat): (ts: seq<Task>)
    ensures |ts| == n
    ensures forall i :: 0 <= i < n ==> ts[i] == InstallTask(componentId)
  {
    seq(n, i => InstallTask(componentId))
  }

  predicate Distinct(hostIds: seq<int>) {
    forall i, j :: 0 <= i < j < |hostIds| ==> hostIds[i] != hostIds[j]
  }

  /** What the batch needs: every host exists, none carries the component yet,
      and no host is named twice. */
  predicate BatchAcceptable(db: Db, componentId: int, hostIds: seq<int>) {
    && (forall i :: 0 <= i < |hostIds| ==> HostExists(db, hostIds[i]))
    && (forall i :: 0 <= i < |hostIds| ==> !Deployed(db.hostComponents, hostIds[i], componentId))
    && Distinct(hostIds)
  }

  /** The database after a whole batch. */
  function AfterBatch(db: Db, componentId: int, hostIds: seq<int>): Db {
    db.(hostComponents := db.hostComponents + Mappings(componentId, hostIds),
        tasks := db.tasks + InstallTasks(componentId, |hostIds|))
  }

  lemma DeployStepAcceptable(db: Db, componentId: int, hostIds: seq<int>)
    requires |hostIds| > 0
    requires HostExists(db, hostIds[0]) && !Deployed(db.hostComponents, hostIds[0], componentId)
    ensures var db1 := db.(hostComponents := db.hostComponents + [HostComponent(hostIds[0], componentId, INSTALLING, None)],
                           tasks := db.tasks + [InstallTask(componentId)]);
      BatchAcceptable(db1, componentId, hostIds[1..]) <==> BatchAcceptable(db, componentId, hostIds)
  {
    var h := hostIds[0];
    var row := HostComponent(h, componentId, INSTALLING, None);
    var db1 := db.(hostComponents := db.hostComponents + [row], tasks := db.tasks + [InstallTask(componentId)]);
    forall x
      ensures Deployed(db1.hostComponents, x, componentId) <==> Deployed(db.hostComponents, x, componentId) || x == h
    {
      if x == h {
        assert db1.hostComponents[|db.hostComponents|] == row;
      }
      if Deployed(db1.hostComponents, x, componentId) {
        var i :| 0 <= i < |db1.hostComponents| && db1.hostComponents[i].hostId == x && db1.hostComponents[i].componentId == componentId;
        if i < |db.hostComponents| {
          assert db.hostComponents[i] == db1.hostComponents[i];
        }
      }
      if Deployed(db.hostComponents, x, componentId) {
        var i :| 0 <= i < |db.hostComponents| && db.hostComponents[i].hostId == x && db.hostComponents[i].componentId == componentId;
        assert db1.hostComponents[i] == db.hostComponents[i];
      }
    }
    var rest := hostIds[1..];
    assert forall i :: 0 <= i < |rest| ==> rest[i] == hostIds[i + 1];
    if BatchAcceptable(db, componentId, hostIds) {
      forall i | 0 <= i < |rest|
        ensures !Deployed(db1.hostComponents, rest[i], componentId)
      {
        assert hostIds[0] != hostIds[i + 1];
      }
    }
    if BatchAcceptable(db1, componentId, rest) {
      forall i, j | 0 <= i < j < |hostIds|
        ensures hostIds[i] != hostIds[j]
      {
        if i == 0 {
          assert !Deployed(db1.hostComponents, rest[j - 1], componentId);
        } else {
          assert rest[i - 1] != rest[j - 1];
        }
      }
      forall i | 0 <= i < |hostIds|
        ensures !Deployed(db.hostComponents, hostIds[i], componentId)
      {
        if i > 0 {
          assert !Deployed(db1.hostComponents, rest[i - 1], componentId);
        }
      }
    }
  }

  lemma MappingsCons(componentId: int, hostIds: seq<int>)
    requires |hostIds| > 0
    ensures Mappings(componentId, hostIds) == [HostComponent(hostIds[0], componentId, INSTALLING, None)] + Mappings(componentId, hostIds[1..])
    ensures InstallTasks(componentId, |hostIds|) == [InstallTask(componentId)] + InstallTasks(componentId, |hostIds| - 1)
  {
  }

  /** Regrouping a concatenation, proved on its own so that it stays outside
      the larger context of `DeployStepResult`. */
  lemma Assoc<T>(a: seq<T>, b: seq<T>, c: seq<T>)
    ensures a + b + c == a + (b + c)
  {
  }

  lemma DeployStepResult(db: Db, componentId: int, hostIds: seq<int>, db2: Db)
    requires |hostIds| > 0
    requires var db1 := db.(hostComponents := db.hostComponents + [HostComponent(hostIds[0], componentId, INSTALLING, None)],
                            tasks := db.tasks + [InstallTask(componentId)]);
      db2 == AfterBatch(db1, componentId, hostIds[1..])
    ensures db2 == AfterBatch(db, componentId, hostIds)
  {
    var row := HostComponent(hostIds[0], componentId, INSTALLING, None);
    MappingsCons(componentId, hostIds);
    Assoc(db.hostComponents, [row], Mappings(componentId, hostIds[1..]));
    Assoc(db.tasks, [InstallTask(componentId)], InstallTasks(componentId, |hostIds| - 1));
    var e := AfterBatch(db, componentId, hostIds);
    assert db2.hostComponents == e.hostComponents;
    assert db2.tasks == e.tasks;
  }

  /** The batch is all or nothing: it succeeds iff it is acceptable, and then
      inserts exactly one `INSTALLING` mapping and one pending install task per
      host, in request order, changing nothing else. */
  lemma {:induction false} DeployToHostsAllOrNothing(db: Db, componentId: int, hostIds: seq<int>)
    ensures DeployToHosts(db, componentId, hostIds).Ok? <==> BatchAcceptable(db, componentId, hostIds)
    ensures DeployToHosts(db, componentId, hostIds).Ok? ==> DeployToHosts(db, componentId, hostIds).value == AfterBatch(db, componentId, hostIds)
    decreases |hostIds|
  {
    if |hostIds| > 0 {
      var h := hostIds[0];
      if HostExists(db, h) && !Deployed(db.hostComponents, h, componentId) {
        var db1 := db.(hostComponents := db.hostComponents + [HostComponent(h, componentId, INSTALLING, None)],
                       tasks := db.tasks + [InstallTask(componentId)]);
        DeployToHostsAllOrNothing(db1, componentId, hostIds[1..]);
        DeployStepAcceptable(db, componentId, hostIds);
        if DeployToHosts(db1, componentId, hostIds[1..]).Ok? {
          DeployStepResult(db, componentId, hostIds, DeployToHosts(db1, componentId, hostIds[1..]).value);
        }
      }
    }
  }

  /** `DeployComponent`: the id must parse, the body must bind and the
      component must exist; then the batch is applied in one transaction. */
  function DeployComponent(db: Db, idParam: string, hostIds: Option<seq<int>>): (r: Result<Db, ServiceError>)
    ensures Api.ParseId(idParam).None? ==> r == Err(InvalidId)
    ensures Api.ParseId(idParam).Some? && hostIds.None? ==> r == Err(InvalidBody)
    ensures Api.ParseId(idParam).Some? && hostIds.Some? && !ComponentExists(db, Api.ParseId(idParam).value) ==> r == Err(ComponentNotFound)
    ensures r.Ok? <==> (Api.ParseId(idParam).Some? && hostIds.Some? && ComponentExists(db, Api.ParseId(idParam).value)
                        && BatchAcceptable(db, Api.ParseId(idParam).value, hostIds.value))
    ensures r.Ok? ==> r.value == AfterBatch(db, Api.ParseId(idParam).value, hostIds.value)
  {
    match Api.ParseId(idParam)
    case None => Err(InvalidId)
    case Some(componentId) =>
      match hostIds
      case None => Err(InvalidBody)
      case Some(hs) =>
        if !ComponentExists(db, componentId) then Err(ComponentNotFound)
        else
          DeployToHostsAllOrNothing(db, componentId, hs);
          DeployToHosts(db, componentId, hs)
  }

  /** Naming a host twice in one request rejects the whole batch. */
  lemma DuplicateHostRejected(db: Db, idParam: string, hostIds: seq<int>, i: nat, j: nat)
    requires i < j < |hostIds| && hostIds[i] == hostIds[j]
    ensures DeployComponent(db, idParam, Some(hostIds)).Err?
  {
  }
}

=== FILE: store.dfy ===
/** The rows of the relational tables the HTTP handlers read and write
    (pkg/model/models.go), each table a sequence in insertion order. SQL is
    not executed: a `SELECT ... WHERE id = ?` is the first matching row, an
    `UPDATE`/`DELETE ... WHERE` touches every matching row, and an insert
    appends with an id the caller supplies as the auto-increment value. */
module Store {
  import opened Wrappers
  import Seqs

  const INSTALLING := "INSTALLING"
  const RUNNING := "RUNNING"
  const STOPPED := "STOPPED"
  const PENDING := "PENDING"
  const ONLINE := "ONLINE"
  const OFFLINE := "OFFLINE"
  const MAINTENANCE := "MAINTENANCE"

  datatype Cluster = Cluster(id: int, name: string, description: string)

  /** `lastHeartbeat` is NULL until the first heartbeat. */
  datatype Host = Host(
    id: int,
    hostname: string,
    ip: string,
    clusterId: int,
    cpuCores: int,
    memorySize: int,
    status: string,
    lastHeartbeat: Option<int>)

  datatype Service = Service(id: int, clusterId: int, serviceType: string, serviceName: string, version: string, status: string)

  datatype ServiceComponent = ServiceComponent(id: int, serviceId: int, componentType: string, desiredInstances: int)

  /** A component deployed on a host; `processId` is NULL until reported. */
  datatype HostComponent = HostComponent(hostId: int, componentId: int, status: string, processId: Option<int>)

  datatype Task = Task(taskType: string, relatedId: int, relatedType: string, status: string)

  /** A metric row; the service is NULL for rows a heartbeat writes. */
  datatype Metric = Metric(hostId: int, serviceId: Option<int>, metricName: string, timestamp: int, value: real)

  /** A log row; NULL service or component ids are `None`. */
  datatype LogRecord = LogRecord(hostId: int, serviceId: Option<int>, componentId: Option<int>, logLevel: string, timestamp: int, message: string)

  /** A configuration entry scoped to a cluster, service, component or host. */
  datatype Config = Config(scopeType: string, scopeId: int, configKey: string, configValue: string)

  datatype Db = Db(
    clusters: seq<Cluster>,
    hosts: seq<Host>,
    services: seq<Service>,
    components: seq<ServiceComponent>,
    hostComponents: seq<HostComponent>,
    tasks: seq<Task>,
    metrics: seq<Metric>,
    logs: seq<LogRecord>,
    configs: seq<Config>)

  // ---------------------------------------------------------------------------
  // Existence queries (`SELECT EXISTS(SELECT 1 FROM t WHERE ...)`)

  predicate ClusterExists(db: Db, id: int) {
    exists i :: 0 <= i < |db.clusters| && db.clusters[i].id == id
  }

  predicate HostExists(db: Db, id: int) {
    exists i :: 0 <= i < |db.hosts| && db.hosts[i].id == id
  }

  predicate ServiceExists(db: Db, id: int) {
    exists i :: 0 <= i < |db.services| && db.services[i].id == id
  }

  predicate ComponentExists(db: Db, id: int) {
    exists i :: 0 <= i < |db.components| && db.components[i].id == id
  }

  /** `host_component WHERE host_id = ? AND component_id = ?`. */
  predicate Deployed(hcs: seq<HostComponent>, hostId: int, componentId: int) {
    exists i :: 0 <= i < |hcs| && hcs[i].hostId == hostId && hcs[i].componentId == componentId
  }

  // ---------------------------------------------------------------------------
  // Counting queries (`SELECT COUNT(*) ...`)

  /** `SELECT COUNT(*) FROM host WHERE cluster_id = ?`. */
  function HostsInCluster(hosts: seq<Host>, clusterId: int): (n: nat)
    ensures n == |set i | 0 <= i < |hosts| && hosts[i].clusterId == clusterId|
  {
    var p := (h: Host) => h.clusterId == clusterId;
    assert Seqs.Matching(hosts, p) == (set i | 0 <= i < |hosts| && hosts[i].clusterId == clusterId);
    Seqs.CountWhere(hosts, p)
  }

  /** `SELECT COUNT(*) FROM service WHERE cluster_id = ?`. */
  function ServicesInCluster(services: seq<Service>, clusterId: int): (n: nat)
    ensures n == |set i | 0 <= i < |services| && services[i].clusterId == clusterId|
  {
    var p := (s: Service) => s.clusterId == clusterId;
    assert Seqs.Matching(services, p) == (set i | 0 <= i < |services| && services[i].clusterId == clusterId);
    Seqs.CountWhere(services, p)
  }

  function ComponentsOnHost(hcs: seq<HostComponent>, hostId: int): nat {
    Seqs.CountWhere(hcs, (hc: HostComponent) => hc.hostId == hostId)
  }

  function HostsOfComponent(hcs: seq<HostComponent>, componentId: int): nat {
    Seqs.CountWhere(hcs, (hc: HostComponent) => hc.componentId == componentId)
  }

  // ---------------------------------------------------------------------------
  // Single-row reads (`QueryRow(...).Scan`, `sql.ErrNoRows` as `None`)

  function ServiceStatus(services: seq<Service>, id: int): (st: Option<string>)
    ensures st.None? <==> forall i :: 0 <= i < |services| ==> services[i].id != id
    ensures st.Some? ==> exists i :: 0 <= i < |services| && services[i].id == id && services[i].status == st.value
    decreases |services|
  {
    if |services| == 0 then None
    else if services[0].id == id then Some(services[0].status)
    else ServiceStatus(services[1..], id)
  }

  /** `UPDATE service SET status = ? WHERE id = ?`. */
  function SetServiceStatus(services: seq<Service>, id: int, status: string): seq<Service> {
    seq(|services|, i requires 0 <= i < |services| => if services[i].id == id then services[i].(status := status) else services[i])
  }

  /** After the update the row reads back with the new status; every other
      service reads back as before. */
  lemma {:induction false} SetServiceStatusReads(services: seq<Service>, id: int, status: string, other: int)
    ensures ServiceStatus(SetServiceStatus(services, id, status), id) == if ServiceStatus(services, id).Some? then Some(status) else None
    ensures other != id ==> ServiceStatus(SetServiceStatus(services, id, status), other) == ServiceStatus(services, other)
    decreases |services|
  {
    if |services| > 0 {
      assert SetServiceStatus(services, id, status)[1..] == SetServiceStatus(services[1..], id, status);
      SetServiceStatusReads(services[1..], id, status, other);
    }
  }
}

=== FILE: string_utils.dfy ===
/** The pure string helpers of pkg/utils/string.go on ASCII text: a string is
    a sequence of characters, one per byte. A slice the Go code takes out of
    range panics; the model returns `None` there. */
module StringUtils {
  import opened Wrappers
  import Seqs

  predicate IsUpper(c: char) {
    'A' <= c <= 'Z'
  }

  predicate IsLower(c: char) {
    'a' <= c <= 'z'
  }

  function ToLower(c: char): (d: char)
    ensures !IsUpper(d)
    ensures IsUpper(c) ==> IsLower(d)
    ensures !IsUpper(c) ==> d == c
  {
    if IsUpper(c) then (c as int + 32) as char else c
  }

  function ToUpper(c: char): (d: char)
    ensures !IsLower(d)
    ensures IsLower(c) ==> IsUpper(d)
    ensures !IsLower(c) ==> d == c
  {
    if IsLower(c) then (c as int - 32) as char else c
  }

  lemma UpperLowerInverse(c: char)
    ensures IsUpper(c) ==> ToUpper(ToLower(c)) == c
    ensures IsLower(c) ==> ToLower(ToUpper(c)) == c
  {
  }

  // ---------------------------------------------------------------------------
  // TruncateString

  /** `TruncateString`: short strings pass through; a longer one keeps its
      first `maxLen - 3` characters and gets "..." appended. A `maxLen` below
      3 on a longer string slices out of range. */
  function TruncateString(s: string, maxLen: int): (r: Option<string>)
    ensures |s| <= maxLen ==> r == Some(s)
    ensures |s| > maxLen && maxLen < 3 ==> r.None?
    ensures |s| > maxLen && maxLen >= 3 ==>
      r.Some? && |r.value| == maxLen && r.value[..maxLen - 3] == s[..maxLen - 3] && r.value[maxLen - 3..] == "..."
  {
    if |s| <= maxLen then Some(s)
    else if maxLen < 3 then None
    else Some(s[..maxLen - 3] + "...")
  }

  /** A truncated string is short enough to pass through a second time. */
  lemma TruncateIdempotent(s: string, maxLen: int)
    requires TruncateString(s, maxLen).Some?
    ensures TruncateString(TruncateString(s, maxLen).value, maxLen) == TruncateString(s, maxLen)
  {
  }

  // ---------------------------------------------------------------------------
  // Case conversion

  /** Number of uppercase letters in `s`. */
  function UpperCount(s: string): nat
    decreases |s|
  {
    if |s| == 0 then 0 else (if IsUpper(s[0]) then 1 else 0) + UpperCount(s[1..])
  }

  /** The loop of `CamelCaseToSnakeCase` from some position on; `atStart`
      holds only at index 0, where no underscore is written. */
  function SnakeFrom(s: string, atStart: bool): string
    decreases |s|
  {
    if |s| == 0 then ""
    else
      var head := if IsUpper(s[0]) then (if atStart then [] else ['_']) + [ToLower(s[0])] else [s[0]];
      head + SnakeFrom(s[1..], false)
  }

  /** The snake form has no capitals and one extra character per capital
      that gets an underscore. */
  lemma {:induction false} SnakeFromShape(s: string, atStart: bool)
    ensures forall i :: 0 <= i < |SnakeFrom(s, atStart)| ==> !IsUpper(SnakeFrom(s, atStart)[i])
    ensures |SnakeFrom(s, atStart)| == |s| + UpperCount(s) - (if atStart && |s| > 0 && IsUpper(s[0]) then 1 else 0)
    decreases |s|
  {
    if |s| > 0 {
      SnakeFromShape(s[1..], false);
      var head := if IsUpper(s[0]) then (if atStart then [] else ['_']) + [ToLower(s[0])] else [s[0]];
      var rest := SnakeFrom(s[1..], false);
      assert SnakeFrom(s, atStart) == head + rest;
      assert forall i :: 0 <= i < |head| ==> !IsUpper(head[i]);
    }
  }

  /** What position `i` of `s` contributes to the snake form: a capital is
      lowered and, unless it is at index 0, preceded by an underscore; any
      other character is copied. */
  function SnakePiece(s: string, i: nat): string
    requires i < |s|
  {
    if IsUpper(s[i]) then (if i == 0 then "" else "_") + [ToLower(s[i])] else [s[i]]
  }

  /** The pieces of positions `i`, `i + 1`, ... of `s`, concatenated. */
  function SnakePieces(s: string, i: nat): string
    requires i <= |s|
    decreases |s| - i
  {
    if i == |s| then "" else SnakePiece(s, i) + SnakePieces(s, i + 1)
  }

  /** The loop from position `i` on produces the pieces of those positions. */
  lemma {:induction false} SnakeFromPieces(s: string, i: nat)
    requires i <= |s|
    ensures SnakeFrom(s[i..], i == 0) == SnakePieces(s, i)
    decreases |s| - i
  {
    if i < |s| {
      SnakeFromPieces(s, i + 1);
      assert s[i..][1..] == s[i + 1..];
      assert s[i..][0] == s[i];
    }
  }

  /** `CamelCaseToSnakeCase`: each uppercase letter is lowered and, except at
      index 0, preceded by an underscore. */
  function CamelCaseToSnakeCase(s: string): (r: string)
    ensures r == SnakePieces(s, 0)
    ensures forall i :: 0 <= i < |r| ==> !IsUpper(r[i])
    ensures |s| > 0 ==> |r| == |s| + UpperCount(s[1..])
    ensures |s| == 0 ==> r == ""
  {
    SnakeFromShape(s, true);
    SnakeFromPieces(s, 0);
    assert s[0..] == s;
    SnakeFrom(s, true)
  }

  /** The loop of `SnakeCaseToCamelCase`; `upper` is the pending-capital flag. */
  function CamelFrom(s: string, upper: bool): string
    decreases |s|
  {
    if |s| == 0 then ""
    else if s[0] == '_' then CamelFrom(s[1..], true)
    else [if upper then ToUpper(s[0]) else s[0]] + CamelFrom(s[1..], false)
  }

  /** The camel form drops exactly the underscores. */
  lemma {:induction false} CamelFromShape(s: string, upper: bool)
    ensures '_' !in CamelFrom(s, upper)
    ensures |CamelFrom(s, upper)| == |s| - Seqs.Count(s, '_')
    decreases |s|
  {
    if |s| > 0 {
      CamelFromShape(s[1..], s[0] == '_');
      CamelFromShape(s[1..], false);
      assert s == [s[0]] + s[1..];
    }
  }

  /** `SnakeCaseToCamelCase`: underscores dropped, the character after each
      run of underscores uppercased. */
  function SnakeCaseToCamelCase(s: string): (r: string)
    ensures '_' !in r
    ensures |r| == |s| - Seqs.Count(s, '_')
  {
    CamelFromShape(s, false);
    CamelFrom(s, false)
  }

  /** First character uppercased. */
  function Capitalize(w: string): (r: string)
    ensures |r| == |w|
  {
    if |w| == 0 then "" else [ToUpper(w[0])] + w[1..]
  }

  function CapitalizeAll(ws: seq<string>): string
    decreases |ws|
  {
    if |ws| == 0 then "" else Capitalize(ws[0]) + CapitalizeAll(ws[1..])
  }

  /** An independent reading of the camel conversion: split on underscores,
      keep the first piece and capitalize the others. */
  function CamelOfPieces(ps: seq<string>, upper: bool): string
    requires |ps| >= 1
  {
    (if upper then Capitalize(ps[0]) else ps[0]) + CapitalizeAll(ps[1..])
  }

  /** The induction step of `CamelFromPieces` when the string starts with an
      underscore: a new, empty piece opens and the flag is raised. */
  lemma CamelPiecesAtSep(s: string, upper: bool)
    requires |s| > 0 && s[0] == '_'
    requires CamelFrom(s[1..], true) == CamelOfPieces(Seqs.Split(s[1..], '_'), true)
    ensures CamelFrom(s, upper) == CamelOfPieces(Seqs.Split(s, '_'), upper)
  {
    var qs := Seqs.Split(s[1..], '_');
    var ps := [""] + qs;
    Seqs.SplitStep(s, '_');
    assert ps[1..] == qs;
    assert CapitalizeAll(qs) == Capitalize(qs[0]) + CapitalizeAll(qs[1..]);
  }

  /** The induction step when the string starts with any other character: it
      joins the first piece. */
  lemma CamelPiecesAtChar(s: string, upper: bool)
    requires |s| > 0 && s[0] != '_'
    requires CamelFrom(s[1..], false) == CamelOfPieces(Seqs.Split(s[1..], '_'), false)
    ensures CamelFrom(s, upper) == CamelOfPieces(Seqs.Split(s, '_'), upper)
  {
    var qs := Seqs.Split(s[1..], '_');
    var head := [s[0]] + qs[0];
    var tail := CapitalizeAll(qs[1..]);
    var rest := CamelFrom(s[1..], false);
    assert rest == qs[0] + tail;
    var c := if upper then ToUpper(s[0]) else s[0];
    assert CamelFrom(s, upper) == [c] + rest;
    Seqs.SplitStep(s, '_');
    var ps := Seqs.Split(s, '_');
    assert ps[0] == head && ps[1..] == qs[1..];
    if upper {
      CapitalizeConcat([s[0]], qs[0]);
      assert Capitalize(head) == [c] + qs[0];
    }
    assert CamelOfPieces(ps, upper) == [c] + qs[0] + tail;
    ConsAssoc(c, qs[0], tail);
  }

  /** Regrouping a prefixed concatenation, proved on its own so that it stays
      outside the larger context of `CamelPiecesAtChar`. */
  lemma ConsAssoc(c: char, a: string, b: string)
    ensures [c] + (a + b) == [c] + a + b
  {
  }

  lemma {:induction false} CamelFromPieces(s: string, upper: bool)
    ensures CamelFrom(s, upper) == CamelOfPieces(Seqs.Split(s, '_'), upper)
    decreases |s|
  {
    if |s| > 0 {
      if s[0] == '_' {
        CamelFromPieces(s[1..], true);
        CamelPiecesAtSep(s, upper);
      } else {
        CamelFromPieces(s[1..], false);
        CamelPiecesAtChar(s, upper);
      }
    }
  }

  /** `SnakeCaseToCamelCase(s)` is the first underscore-separated piece
      followed by the capitalized remaining pieces. */
  lemma SnakeToCamelPieces(s: string)
    ensures SnakeCaseToCamelCase(s) == Seqs.Split(s, '_')[0] + CapitalizeAll(Seqs.Split(s, '_')[1..])
  {
    CamelFromPieces(s, false);
  }

  /** `SnakeCaseToPascalCase`: the camel form with its first character
      uppercased; the empty string stays empty. */
  function SnakeCaseToPascalCase(s: string): (r: string)
    ensures |r| == |s| - Seqs.Count(s, '_')
  {
    Capitalize(SnakeCaseToCamelCase(s))
  }

  /** Capitalizing a run of capitalized pieces changes nothing. */
  lemma {:induction false} CapitalizeAllStable(ws: seq<string>)
    ensures Capitalize(CapitalizeAll(ws)) == CapitalizeAll(ws)
    decreases |ws|
  {
    if |ws| > 0 {
      var rest := CapitalizeAll(ws[1..]);
      if |ws[0]| == 0 {
        CapitalizeAllStable(ws[1..]);
        assert CapitalizeAll(ws) == rest;
      } else {
        var c := CapitalizeAll(ws);
        assert c == Capitalize(ws[0]) + rest;
        assert c[0] == ToUpper(ws[0][0]);
        assert Capitalize(c) == [ToUpper(ToUpper(ws[0][0]))] + c[1..];
        assert [c[0]] + c[1..] == c;
      }
    }
  }

  /** Only the head of a non-empty first part is touched. */
  lemma CapitalizeConcat(w: string, t: string)
    requires |w| > 0
    ensures Capitalize(w + t) == Capitalize(w) + t
  {
    assert (w + t)[0] == w[0];
    assert (w + t)[1..] == w[1..] + t;
  }

  /** Capitalizing the camel reading of some pieces capitalizes them all. */
  lemma PascalOfPieces(ps: seq<string>)
    requires |ps| >= 1
    ensures Capitalize(CamelOfPieces(ps, false)) == CapitalizeAll(ps)
  {
    var tail := CapitalizeAll(ps[1..]);
    assert CamelOfPieces(ps, false) == ps[0] + tail;
    assert CapitalizeAll(ps) == Capitalize(ps[0]) + tail;
    if |ps[0]| > 0 {
      CapitalizeConcat(ps[0], tail);
    } else {
      assert ps[0] + tail == tail;
      CapitalizeAllStable(ps[1..]);
    }
  }

  /** Pascal case is all the underscore-separated pieces capitalized. */
  lemma SnakeToPascalPieces(s: string)
    ensures SnakeCaseToPascalCase(s) == CapitalizeAll(Seqs.Split(s, '_'))
  {
    CamelFromPieces(s, false);
    PascalOfPieces(Seqs.Split(s, '_'));
  }

  /** Reading back one lowered capital: the underscore sets the flag that
      restores it. */
  lemma CamelOfLowered(c: char, rest: string)
    requires IsUpper(c)
    ensures CamelFrom(['_', ToLower(c)] + rest, false) == [c] + CamelFrom(rest, false)
  {
    var t := ['_', ToLower(c)] + rest;
    assert t[1..] == [ToLower(c)] + rest;
    assert t[1..][1..] == rest;
    UpperLowerInverse(c);
  }

  lemma CamelOfPlain(c: char, rest: string)
    requires c != '_'
    ensures CamelFrom([c] + rest, false) == [c] + CamelFrom(rest, false)
  {
    assert ([c] + rest)[1..] == rest;
  }

  lemma SnakeStep(s: string, atStart: bool)
    requires |s| > 0 && !(atStart && IsUpper(s[0]))
    ensures SnakeFrom(s, atStart) == (if IsUpper(s[0]) then ['_', ToLower(s[0])] else [s[0]]) + SnakeFrom(s[1..], false)
  {
  }

  /** Camel to snake and back gives the original, for a camel-case name that
      does not start with a capital and has no underscore. */
  lemma {:induction false} CamelSnakeRoundTrip(s: string, atStart: bool)
    requires '_' !in s
    requires atStart && |s| > 0 ==> !IsUpper(s[0])
    ensures CamelFrom(SnakeFrom(s, atStart), false) == s
    decreases |s|
  {
    if |s| > 0 {
      assert '_' !in s[1..] by {
        assert forall c :: c in s[1..] ==> c in s;
      }
      CamelSnakeRoundTrip(s[1..], false);
      var rest := SnakeFrom(s[1..], false);
      SnakeStep(s, atStart);
      if IsUpper(s[0]) {
        CamelOfLowered(s[0], rest);
      } else {
        CamelOfPlain(s[0], rest);
      }
      assert s == [s[0]] + s[1..];
    }
  }

  lemma CamelCaseRoundTrip(s: string)
    requires '_' !in s
    requires |s| > 0 ==> !IsUpper(s[0])
    ensures SnakeCaseToCamelCase(CamelCaseToSnakeCase(s)) == s
  {
    CamelSnakeRoundTrip(s, true);
  }

  // ---------------------------------------------------------------------------
  // Masking

  /** Which username positions survive the mask: the first of up to three
      characters, else the first two and the last. */
  predicate KeptInUser(n: nat, i: nat) {
    if n <= 3 then i == 0 else i < 2 || i == n - 1
  }

  function MaskUser(user: string): (r: string)
    requires |user| > 0
  {
    if |user| <= 3 then user[..1] + Seqs.Repeat('*', |user| - 1)
    else user[..2] + Seqs.Repeat('*', |user| - 3) + user[|user| - 1..]
  }

  lemma MaskUserShape(user: string)
    requires |user| > 0
    ensures |MaskUser(user)| == |user|
    ensures forall i :: 0 <= i < |user| ==> MaskUser(user)[i] == (if KeptInUser(|user|, i) then user[i] else '*')
  {
  }

  /** `MaskEmail`: anything that does not split into exactly two parts on '@'
      is returned as is; otherwise the username is masked. An empty username
      slices out of range. */
  function MaskEmail(email: string): (r: Option<string>)
    ensures |Seqs.Split(email, '@')| != 2 ==> r == Some(email)
    ensures |Seqs.Split(email, '@')| == 2 && |Seqs.Split(email, '@')[0]| == 0 ==> r.None?
  {
    var parts := Seqs.Split(email, '@');
    if |parts| != 2 then Some(email)
    else if |parts[0]| == 0 then None
    else Some(MaskUser(parts[0]) + "@" + parts[1])
  }

  /** For a two-part address with a non-empty username the mask keeps the
      length, the '@' and the domain, keeps the chosen username characters and
      stars all the others. */
  lemma MaskEmailShape(email: string)
    requires |Seqs.Split(email, '@')| == 2 && |Seqs.Split(email, '@')[0]| > 0
    ensures var user := Seqs.Split(email, '@')[0];
      var r := MaskEmail(email).value;
      && |r| == |email|
      && r[|user|] == '@' && r[|user| + 1..] == Seqs.Split(email, '@')[1]
      && forall i :: 0 <= i < |user| ==> r[i] == (if KeptInUser(|user|, i) then user[i] else '*')
  {
    var parts := Seqs.Split(email, '@');
    Seqs.SplitTwo(email, '@');
    var user, domain := parts[0], parts[1];
    MaskUserShape(user);
    var m := MaskUser(user);
    var r := m + "@" + domain;
    assert MaskEmail(email).value == r;
    assert |email| == |user| + 1 + |domain|;
    assert r[|user| + 1..] == domain;
    assert forall i :: 0 <= i < |user| ==> r[i] == m[i];
  }

  predicate IsAsciiDigit(c: char) {
    '0' <= c <= '9'
  }

  /** The digits of `s` in order (the `\D` replace). */
  function Digits(s: string): (d: string)
    ensures forall i :: 0 <= i < |d| ==> IsAsciiDigit(d[i])
    ensures |d| <= |s|
    decreases |s|
  {
    if |s| == 0 then ""
    else (if IsAsciiDigit(s[0]) then [s[0]] else []) + Digits(s[1..])
  }

  /** Digits of a string of digits are the string itself. */
  lemma {:induction false} DigitsOfDigits(s: string)
    requires forall i :: 0 <= i < |s| ==> IsAsciiDigit(s[i])
    ensures Digits(s) == s
    decreases |s|
  {
    if |s| > 0 {
      DigitsOfDigits(s[1..]);
      assert s == [s[0]] + s[1..];
    }
  }

  /** `MaskPhone`: fewer than seven digits returns the input as is; otherwise
      the first three and last four digits around one '*' per other digit. */
  function MaskPhone(phone: string): (r: string)
    ensures |Digits(phone)| < 7 ==> r == phone
    ensures var d := Digits(phone);
      |d| >= 7 ==>
        && |r| == |d|
        && r[..3] == d[..3] && r[|d| - 4..] == d[|d| - 4..]
        && forall i :: 3 <= i < |d| - 4 ==> r[i] == '*'
  {
    var d := Digits(phone);
    if |d| < 7 then phone
    else d[..3] + Seqs.Repeat('*', |d| - 7) + d[|d| - 4..]
  }

  /** Exactly seven digits survive the mask: the first three and the last
      four; the stars in between are not digits. */
  lemma MaskPhoneDigits(phone: string)
    requires |Digits(phone)| >= 7
    ensures var d := Digits(phone);
      Digits(MaskPhone(phone)) == d[..3] + d[|d| - 4..]
  {
    var d := Digits(phone);
    var head, stars, tail := d[..3], Seqs.Repeat('*', |d| - 7), d[|d| - 4..];
    assert MaskPhone(phone) == head + stars + tail;
    assert forall i :: 0 <= i < |head| ==> IsAsciiDigit(head[i]);
    assert forall i :: 0 <= i < |tail| ==> IsAsciiDigit(tail[i]);
    DigitsAround(head, stars, tail);
  }

  /** Digits around a digit-free middle keep only the outer parts. */
  lemma DigitsAround(head: string, stars: string, tail: string)
    requires forall i :: 0 <= i < |head| ==> IsAsciiDigit(head[i])
    requires forall i :: 0 <= i < |stars| ==> !IsAsciiDigit(stars[i])
    requires forall i :: 0 <= i < |tail| ==> IsAsciiDigit(tail[i])
    ensures Digits(head + stars + tail) == head + tail
  {
    var hs := head + stars;
    NoDigits(stars);
    DigitsOfDigits(head);
    DigitsOfDigits(tail);
    DigitsConcat(head, stars);
    assert Digits(hs) == head + "";
    assert head + "" == head;
    DigitsConcat(hs, tail);
  }

  lemma {:induction false} DigitsConcat(a: string, b: string)
    ensures Digits(a + b) == Digits(a) + Digits(b)
    decreases |a|
  {
    if |a| > 0 {
      DigitsConcat(a[1..], b);
      assert (a + b)[1..] == a[1..] + b;
    } else {
      assert a + b == b;
    }
  }

  lemma {:induction false} NoDigits(s: string)
    requires forall i :: 0 <= i < |s| ==> !IsAsciiDigit(s[i])
    ensures Digits(s) == ""
    decreases |s|
  {
    if |s| > 0 {
      NoDigits(s[1..]);
    }
  }
}

=== FILE: wrappers.dfy ===
/** Failure-carrying result types shared by every module of the model. */
module Wrappers {

  /** A value that may be absent: Go's nil pointer, a missing map entry, a NULL column. */
  datatype Option<+T> = None | Some(value: T)

  /** The `(value, error)` pair of a Go call: exactly one side is meaningful. */
  datatype Result<+T, +E> = Ok(value: T) | Err(error: E)
}
